=== FILE: README.md ===
# GenAI batch ingester — the pipeline's decision logic and status store

This project models the serverless document pipeline of the GenAI batch
ingester. The model covers these parts of the pipeline:

- **Status store** (`StatusLog`, `status_log.py`). This is the Cosmos container of
  per-document file logs, per-chunk chunk logs and LLM output records. The
  `StatusLog` object keeps a per-path cache. The model covers:
  - the staged `upsert_document` merge;
  - `save_document` and `update_document_state`;
  - the overwriting chunk and output writers;
  - the `mark_document_processing_complete` fan-in barrier;
  - the Concise read of `read_file_status`.
- **Prompt store** (`PromptLog`). The model covers the default seed and
  `get_prompt`.
- **Record ids** (`Ids`). `encode_document_id` is URL-safe base64 (section 5 of
  RFC 4648) over UTF-8, modelled concretely over bytes. Both round trips are
  proved, so the encoding is injective.
- **Upload dispatcher** (`AddToQueue`). It restarts the document's history,
  routes the upload by extension and sends one submit message.
- **Polling state machine** (`PollDocumentIntelChunk`). It handles the
  succeeded / running / other-status / error-code branches, the polling and
  submit counters, the quadratic backoff, and the fan-out of one message per
  merged chunk.
- **Chunk executor** (`RunLLMPrompt`). It derives the user id, builds the
  prompt, maps the answer to a chunk state, requeues on 429 up to a ceiling, and
  runs the fan-in trigger.

Each function's `main` is a pure function `Run` over its inputs. What the
source reads from the outside world is passed in as a parameter:

- blob metadata;
- the HTTP answer;
- the blob utilities' results;
- `random.randint` draws, constrained by `requires`;
- the current time (`Ctx.now`).

`Run` returns an `Outcome`. It is `Finished` or `Crashed`, the latter when an
exception escapes the `except` block. It carries the queue sends
`(queue, message, delay)` and the ordered trace of calls made on the status
store. `Pipeline.Effect` replays that trace through a fresh `StatusLog` over a
store (`map<Key, Item>`). The store lemmas therefore talk about the records an
invocation leaves behind.

Queue messages are ordered association lists of JSON values, kept in the
order `json.loads` produced them. This keeps these behaviours faithful:

- the `KeyError` raised by the first missing key;
- in-place updates of a counter (`m[k] = v`);
- the stringified counters of the fan-out messages;
- `json.dumps` of the message in the chunk executor's handler.

Python-level behaviour the functions depend on is modelled explicitly:

- `os.path.splitext`, `os.path.basename` and `str.split` (`PyStr`), and
  `str.lower` for ASCII letters;
- `UnboundLocalError` on a name the `except` block reads before it was bound;
- the `TypeError` of comparing a text counter with a number;
- the `ValueError` of an empty `randint` range.

Where the code and its design description differ, the model follows the code:

- Polling stops at `max_read_attempts`, not at `max_polling_requeue_count`.
  The latter only appears in the requeue note's text.
- An unsupported upload extension leaves `queue_name` unbound. The send
  raises, the handler logs the document as Error, and nothing is sent.
- Both handlers read names that may never have been bound: `response` in the
  poller, and the chunk fields in the executor. So some malformed messages
  crash the function instead of being logged.
- The chunk executor has no branch for other status codes or other finish
  reasons. The chunk then stays Processing.
- The base backoff `polling_backoff * count²` is non-decreasing in the count,
  not strictly increasing (it is flat when `polling_backoff` is 0).
- The fan-in queries paste the document's path between single quotes without
  escaping. A path holding `'` makes them raise, so the chunk executor's
  handler logs the chunk Error right after its Complete log, and the document
  is never marked Complete.
- `get_prompt` pastes the user id and the prompt id between double quotes
  without escaping. A `"` in either makes the query raise, so the chunk is
  logged Error and no request is made.

## Model

| member | source | states |
|---|---|---|
| StatusLog.KeyById | azure_functions/shared_code/status_log.py:60-63 | Within one partition, two store keys are equal exactly when the record ids `encode_document_id` gives their names are equal |
| StatusLog.AppendStatus | azure_functions/shared_code/status_log.py:155-178 | The merge into an existing file log keeps path, name and start time. `state` is the new state, and `state_timestamp` moves only when the state changes. A count is overwritten exactly when a truthy count is given. The history grows by exactly one entry at the end, earlier entries unchanged. The new entry has a stack trace exactly when it is classified Error |
| StatusLog.FreshRecord | azure_functions/shared_code/status_log.py:179-221 | A record built from scratch is a file log of the path, with the basename as file name, the given state, both counts -1 and a one-entry history |
| StatusLog.ExistingOwnRecord | azure_functions/shared_code/status_log.py:146-153 | Under the store and cache invariants, what an upsert starts from belongs to the path: a staged start is the path's own file log, a stored one is filed under the path's id and partition, and "not found" occurs exactly when nothing is staged, the read does not fail and no record is filed there |
| StatusLog.StagedRecord | azure_functions/shared_code/status_log.py:146-221 | A found file log is merged as `AppendSpec` describes. Anything else yields a fresh record of the path. A missing record gives an entry without a stack trace, any other failure one with a trace (`None` on a fresh start). The result always has the requested state |
| StatusLog.Upsert | azure_functions/shared_code/status_log.py:130-224 | `upsert_document` never writes the store except for the fresh-start delete. It stages a file log of the path in the requested state and leaves every other cache slot as it was |
| StatusLog.UpsertStages | azure_functions/shared_code/status_log.py:146-221 | The staged record is the append to whatever record the upsert found after its delete, or a fresh record when it found no file log |
| StatusLog.UpsertValid | azure_functions/shared_code/status_log.py:130-224 | An upsert keeps the store and cache invariants (every record under its own key, every staged slot the file log of its path) |
| StatusLog.UpsertOwns | azure_functions/shared_code/status_log.py:146-224 | When the records an upsert can find are filed under its path's key, the staged record is the file log of that path |
| StatusLog.UpsertStaged | azure_functions/shared_code/status_log.py:150-153 | An upsert onto a staged file log merges in place and never reads the store |
| StatusLog.Save | azure_functions/shared_code/status_log.py:252-256 | `save_document` succeeds exactly when a record is staged. It writes that record under its key and leaves `""` in the slot, and it keeps the invariants |
| StatusLog.SaveThenUpsert | azure_functions/shared_code/status_log.py:150-153 | After a save the next upsert re-reads the store, finds what it would have found in the cache, and stages the same cache |
| StatusLog.UpdateDocumentState | azure_functions/shared_code/status_log.py:227-250 | Without a record nothing changes. Otherwise the record found, whatever its `doc_type`, gets `state` and `state_timestamp` as `SetState` describes, is written through under its own id, and stays staged |
| StatusLog.SetState | azure_functions/shared_code/status_log.py:241-244 | Setting the state on a record read at a document's id gives it the `state` key with the new value and the new timestamp. Its `doc_type`, id, partition and every other field are kept: a file log's history and counts, a chunk log's chunk state, an output record's output and tokens |
| StatusLog.UpdateDocumentStateKeepsHistory | azure_functions/shared_code/status_log.py:241-246 | The state update keeps the status history and counts of the record and every other stored record, and keeps the invariants |
| StatusLog.UpdateDocumentStateStore | azure_functions/shared_code/status_log.py:233-246 | With nothing staged, whatever record is stored at the document's id, a chunk log or an output record included, is written back with `state` and `state_timestamp` set. No key is added or removed, and every other record stays |
| StatusLog.CreateChunkLogEntry | azure_functions/shared_code/status_log.py:272-292 | Writes the chunk log under the chunk's key, with the given path, name, state and info, and leaves every other record and the cache unchanged |
| StatusLog.ChunkLogLastWriteWins | azure_functions/shared_code/status_log.py:272-292 | Two chunk-log writes to the same chunk equal the second alone: it is a full overwrite |
| StatusLog.CreateLlmOutputEntry | azure_functions/shared_code/status_log.py:295-321 | Writes the output record under the output file's key with every given field, and leaves every other record and the cache unchanged |
| StatusLog.TotalChunkCountIsQuery | azure_functions/shared_code/status_log.py:334-342 | The first fan-in query has at most one row, the document's own file log. Its value is that log's merged count, or 0 when there is none |
| StatusLog.CompletedChunks | azure_functions/shared_code/status_log.py:346-354 | The second fan-in query counts exactly the chunk logs of the path in state Complete |
| StatusLog.MarkDocumentProcessingComplete | azure_functions/shared_code/status_log.py:324-357 | When the document's path holds an apostrophe the queries raise and the log is unchanged. Otherwise, when the counts differ the log is unchanged, and when they agree the record at the document's id gets state Complete, and a file log stays a file log |
| StatusLog.MarkCompleteKeepsComplete | azure_functions/shared_code/status_log.py:356-357 | A document already stored Complete stays Complete under another fan-in check |
| StatusLog.MarkCompleteKeepsCounts | azure_functions/shared_code/status_log.py:334-357 | With nothing staged, the fan-in check changes neither count it compares |
| StatusLog.MarkCompleteIdempotent | azure_functions/shared_code/status_log.py:324-357 | A second fan-in check sees the same barrier answer. A document completed by the first stays Complete with its history, and a document that was not completed (including one whose path breaks the queries) is left as it was |
| StatusLog.ConciseUpdates | azure_functions/shared_code/status_log.py:88-89 | The Concise filter returns no Debug entry and never more entries than it was given |
| StatusLog.ConciseMembers | azure_functions/shared_code/status_log.py:88-89 | An entry survives the filter exactly when it was present and is not Debug |
| StatusLog.ConciseAppend | azure_functions/shared_code/status_log.py:88-89 | The filter distributes over concatenation, so it keeps the order of what it keeps |
| StatusLog.ConciseKeepsNonDebug | azure_functions/shared_code/status_log.py:88-89 | A history without Debug entries passes unchanged |
| StatusLog.ConciseIdempotent | azure_functions/shared_code/status_log.py:85-89 | Filtering twice is filtering once |
| StatusLog.ReadFileStatus | azure_functions/shared_code/status_log.py:65-91 | Verbose returns exactly the records with that id in any partition. Concise fails exactly when one of them has no `status_updates`, and otherwise returns exactly those records, each filtered, with no Debug entry left |
| StatusLog.ReadFileStatusById | azure_functions/shared_code/status_log.py:76 | The id the query selects on is the encoded key name |
| StatusLog.Filtered | azure_functions/shared_code/status_log.py:86-89 | One record as the Concise read returns it: every field but the history is kept, and the history keeps exactly the entries that are not Debug |
| PromptLog.OpenAnswers | azure_functions/shared_code/status_log.py:380-402 | Over a new container `get_prompt` answers only the default user's default prompt, with the seeded text, and `""` for every other pair. An existing container answers exactly as its store does |
| PromptLog.FirstMatch | azure_functions/shared_code/status_log.py:430-433 | The index of the first prompt with the id, or -1 when none has it |
| PromptLog.GetPromptText | azure_functions/shared_code/status_log.py:404-435 | The text of the user's first prompt with that id, or `""` when the user has no record listing it |
| PromptLog.GetPromptOutcome | azure_functions/shared_code/status_log.py:404-435 | `get_prompt` raises exactly when a `"` sits in the user id or the prompt id, and otherwise answers `GetPromptText` |
| PromptLog.GetPrompt | azure_functions/shared_code/status_log.py:424-435 | The scanning loop returns the same text as the first-match definition |
| PromptLog.SeededDefaultPrompt | azure_functions/shared_code/status_log.py:385-395 | A freshly created store answers (default, default) with the seeded summary prompt |
| Ids.Utf8RoundTrip | azure_functions/shared_code/status_log.py:62 | UTF-8 decoding inverts `str.encode()` |
| Ids.Base64RoundTrip | azure_functions/shared_code/status_log.py:62 | URL-safe base64 decoding inverts `base64.urlsafe_b64encode` |
| Ids.Base64Length | azure_functions/shared_code/status_log.py:62 | Every started group of three bytes becomes four characters |
| Ids.EncodeDocumentIdInjective | azure_functions/shared_code/status_log.py:60-63 | Distinct paths get distinct record ids |
| PyStr.BasenameAfterLastSlash | azure_functions/shared_code/status_log.py:133 | `basename` is the slice after the last '/', holds no '/', and is preceded by '/' unless it is the whole path |
| PyStr.BasenameOfJoin | azure_functions/shared_code/status_log.py:274 | The basename of `dir/name` is `name` for a name without '/' |
| PyStr.SplitExt | azure_functions/AddToQueue/__init__.py:60 | `splitext` splits the path into root and extension. The extension is empty or one dot followed by no dot and no '/' |
| PyStr.Extension | azure_functions/AddToQueue/__init__.py:60 | The extension used for routing contains no dot and no '/' |
| PyStr.ExtensionOfJoin | azure_functions/AddToQueue/__init__.py:60 | A name `stem.ext` whose last component has a non-dot character before the dot has extension `ext`, lower-cased |
| PyStr.JoinSplit | azure_functions/RunLLMPrompt/__init__.py:124 | Joining the pieces of `split('/')` gives back the string |
| PyStr.SplitJoin | azure_functions/RunLLMPrompt/__init__.py:124 | Splitting a join of separator-free pieces gives back the pieces |
| Json.PutSpec | azure_functions/RunLLMPrompt/__init__.py:214-216 | `m[k] = v` makes `k` read `v`, leaves every other key and the key order alone, keeps keys distinct, and puts a new key last |
| Json.ParseIntToString | azure_functions/PollDocumentIntelChunk/__init__.py:153-155 | A counter stringified into a fan-out message reads back as the same number |
| Pipeline.BoundCount | azure_functions/RunLLMPrompt/__init__.py:93-101 | The keys read in order before the first `KeyError` are exactly the ones present |
| Pipeline.Decode | azure_functions/PollDocumentIntelChunk/__init__.py:75-81 | Reading the keys in order yields all their values, or the `KeyError` of the first missing key |
| Pipeline.Less | azure_functions/PollDocumentIntelChunk/__init__.py:170 | `count < bound` is defined exactly for a numeric counter, and then is the integer comparison |
| Pipeline.ListIndex | azure_functions/PollDocumentIntelChunk/__init__.py:89-96 | List indexing succeeds exactly for an integer in range, counting negatives from the end |
| Pipeline.StagedThenSaved | azure_functions/shared_code/status_log.py:146-256 | Upserts of a path then its save write exactly one record: the file log of the path, in the state the last upsert asked for |
| Pipeline.ReplayStages | azure_functions/shared_code/status_log.py:146-224 | Upserts without a fresh start never write the store and never unstage a record |
| Pipeline.RequeueChainBounded | azure_functions/PollDocumentIntelChunk/__init__.py:170-174 | A counter checked against a limit and raised by one on every requeue allows at most `limit - first` requeues |
| AddToQueue.Classify | azure_functions/AddToQueue/__init__.py:60-67 | "pdf" routes to the PDF queue and exactly the 14 listed extensions to the non-PDF queue. Every other extension is unsupported, so the routes are disjoint |
| AddToQueue.SubmitMessageFields | azure_functions/AddToQueue/__init__.py:49-52 | The submit message is a dict with the blob's name and uri and a submit count of 1. Its prompt id is the metadata's `prompt_id` when present and "default" otherwise |
| AddToQueue.TraceSupported | azure_functions/AddToQueue/__init__.py:85-98 | A supported upload with a drawable delay sends exactly one message, to its route's queue, with the drawn delay. Its store calls are the Queued upsert and the save |
| AddToQueue.TraceUnsupported | azure_functions/AddToQueue/__init__.py:77-101 | An unsupported extension logs Skipped, then the handler's Error for the unbound queue name, then saves, and sends nothing |
| AddToQueue.TraceNoDelay | azure_functions/AddToQueue/__init__.py:96-101 | An empty delay range makes `randint` raise: nothing is sent and the handler logs Error |
| AddToQueue.RunTrace | azure_functions/AddToQueue/__init__.py:37-103 | With readable metadata every run finishes, its first status write is the fresh start, it sends exactly the final sends, and it saves once, at the end, on every path |
| AddToQueue.FinalNoSave | azure_functions/AddToQueue/__init__.py:55-98 | No upsert before the final save saves |
| AddToQueue.RunMetadataFails | azure_functions/AddToQueue/__init__.py:46-101 | When the metadata read raises, the handler itself fails on the unbound `statusLog`: no call, no send, store unchanged |
| AddToQueue.OpeningStaged | azure_functions/AddToQueue/__init__.py:54-56 | The fresh start deletes the stored record, and the two opening statuses stage a new Processing record, whatever the store held |
| AddToQueue.SaveRestarted | azure_functions/AddToQueue/__init__.py:103 | Saving the only staged record writes it under its key |
| AddToQueue.FinalStaged | azure_functions/AddToQueue/__init__.py:55-98 | Before the save, the upload's final record is staged and the old one is gone from the store |
| AddToQueue.SkippedStaged | azure_functions/AddToQueue/__init__.py:77-82 | An unsupported extension stages the Skipped note and then the handler's Error on the restarted record |
| AddToQueue.RunWrites | azure_functions/AddToQueue/__init__.py:37-103 | A run with readable metadata writes the upload's record, independent of its previous history, and nothing else |
| PollDocumentIntelChunk.Parse | azure_functions/PollDocumentIntelChunk/__init__.py:75-81 | A message parses exactly when all seven keys are present and `blob_name` is text |
| PollDocumentIntelChunk.RunningRequeues | azure_functions/PollDocumentIntelChunk/__init__.py:168-178 | Below `max_read_attempts`, "running" stages Queued and re-sends the same message to the polling queue, with the counter raised by one and the quadratic backoff plus jitter |
| PollDocumentIntelChunk.RunningAtCeiling | azure_functions/PollDocumentIntelChunk/__init__.py:179-180 | At or above `max_read_attempts` nothing is sent and the document is staged Error |
| PollDocumentIntelChunk.RunningOnText | azure_functions/PollDocumentIntelChunk/__init__.py:170 | A text polling counter makes the comparison raise before anything happens |
| PollDocumentIntelChunk.ResubmitRequeues | azure_functions/PollDocumentIntelChunk/__init__.py:183-190 | Below the submit ceiling, another status logs the Error note, re-sends the message to the submit queue with only the submit counter raised by one, and stages Throttled |
| PollDocumentIntelChunk.ResubmitAtCeiling | azure_functions/PollDocumentIntelChunk/__init__.py:191-192 | At the submit ceiling nothing is sent and the document is staged Error |
| PollDocumentIntelChunk.ResubmitOnText | azure_functions/PollDocumentIntelChunk/__init__.py:183 | A text submit counter makes the comparison raise |
| PollDocumentIntelChunk.ChunkMessageFields | azure_functions/PollDocumentIntelChunk/__init__.py:150-160 | A chunk message carries the chunk's name and uri, a chunk counter of 1 and the prompt id, with both document counters as text |
| PollDocumentIntelChunk.ChunkMessageDistinct | azure_functions/PollDocumentIntelChunk/__init__.py:150-160 | The chunk message's nine keys are distinct |
| PollDocumentIntelChunk.ChunkSendsSpec | azure_functions/PollDocumentIntelChunk/__init__.py:143-163 | One send per merged path, in order, to the chunks queue, from the path's two elements, with a delay within range |
| PollDocumentIntelChunk.FanOutQueues | azure_functions/PollDocumentIntelChunk/__init__.py:137-166 | After merging, the chunk messages are the only sends, and the only store call is one upsert that stages Queued with the chunk count and merged count |
| PollDocumentIntelChunk.FanOutRaises | azure_functions/PollDocumentIntelChunk/__init__.py:137-147 | A failing merge, or chunks with an empty delay range, send nothing |
| PollDocumentIntelChunk.SucceededRaises | azure_functions/PollDocumentIntelChunk/__init__.py:108-123 | A failing analysis step raises after the notes before it, and sends nothing |
| PollDocumentIntelChunk.SucceededFansOut | azure_functions/PollDocumentIntelChunk/__init__.py:108-166 | When every analysis step returns, the notes are followed by the fan-out |
| PollDocumentIntelChunk.RespondSettles | azure_functions/PollDocumentIntelChunk/__init__.py:103-199 | For any answer, the handled poll only stages. Its last call stages the document in the state `Settled` names: Queued, Throttled or Error |
| PollDocumentIntelChunk.QueriedStages | azure_functions/PollDocumentIntelChunk/__init__.py:82-100 | The opening notes and the poll send nothing, and the poll uses the endpoint and key at the message's index |
| PollDocumentIntelChunk.RunFinishes | azure_functions/PollDocumentIntelChunk/__init__.py:70-201 | A reached poll saves once, at the end, using the submitted index. It writes only the document's record, in the settled state |
| PollDocumentIntelChunk.RunCrashes | azure_functions/PollDocumentIntelChunk/__init__.py:197-199 | A poll that is not reached crashes in its handler, sends nothing and leaves the store as it was |
| PollDocumentIntelChunk.RunCrashError | azure_functions/PollDocumentIntelChunk/__init__.py:197-199 | The crash is the `UnboundLocalError` on `blob_name` when that key is missing, and on `response` otherwise |
| PollDocumentIntelChunk.RunFansOut | azure_functions/PollDocumentIntelChunk/__init__.py:143-163 | A succeeded analysis that gets through the fan-out sends exactly one chunk message per merged chunk, in order, and nothing else |
| PollDocumentIntelChunk.ParsePolled | azure_functions/PollDocumentIntelChunk/__init__.py:174 | Setting the polling counter changes that field only |
| PollDocumentIntelChunk.ParseResubmitted | azure_functions/PollDocumentIntelChunk/__init__.py:187 | Setting the submit counter changes that field only |
| PollDocumentIntelChunk.RunSends | azure_functions/PollDocumentIntelChunk/__init__.py:143-189 | Every send is a chunk message, a polling requeue (counter +1, other fields kept) or a resubmission (submit counter +1, polling counter kept). Only a succeeded analysis sends more than once |
| PollDocumentIntelChunk.PollingChainBounded | azure_functions/PollDocumentIntelChunk/__init__.py:170-174 | A chain of polling requeues has at most `max_read_attempts - c` steps, each copy equal to the first but for its counter |
| PollDocumentIntelChunk.BackoffMonotone | azure_functions/PollDocumentIntelChunk/__init__.py:171-172 | With a non-negative backoff the base delay does not shrink as the count grows, and the jitter adds between 0 and 10 seconds |
| RunLLMPrompt.Parse | azure_functions/RunLLMPrompt/__init__.py:93-101 | A message parses exactly when all nine keys are present and both names are text. The fields are what the keys read |
| RunLLMPrompt.UserId | azure_functions/RunLLMPrompt/__init__.py:119-124 | The default prompt uses the default user. With any other prompt a numeric uri raises, because it has no `split` |
| RunLLMPrompt.UserIdOfUri | azure_functions/RunLLMPrompt/__init__.py:119-124 | For a uri joined from '/'-free parts, a non-default prompt names the user `parts[4]` |
| RunLLMPrompt.Asked | azure_functions/RunLLMPrompt/__init__.py:106-170 | The request is made only when the user id is read, the prompt query is well formed and the chunk text is read |
| RunLLMPrompt.AskedShape | azure_functions/RunLLMPrompt/__init__.py:106-170 | The chunk is first logged Processing. The request fails exactly when the user id fails, the prompt query is malformed (a `"` in the user id or prompt id) or the blob read fails. A malformed prompt query raises the store's error right after the Processing log. Otherwise the request is a single post of the configured system message and `prompt + "\ninput text:" + text`. Nothing is sent |
| RunLLMPrompt.AskedNormal | azure_functions/RunLLMPrompt/__init__.py:106-170 | With the user id and the text read, the calls are the Processing log and then either the request, or nothing more and the store's error when the prompt query is malformed |
| RunLLMPrompt.CompletedLeaves | azure_functions/RunLLMPrompt/__init__.py:180-201 | A completed choice writes the output, logs Complete and runs the fan-in check. It raises exactly when writing the output raises or the document's path breaks the fan-in queries, and after a raise the calls are still writes only |
| RunLLMPrompt.StopCalls | azure_functions/RunLLMPrompt/__init__.py:180-201 | "stop" appends the output record, the Complete log with the token counts, and the fan-in check, in that order. It raises the store's error exactly when the document's path breaks the fan-in queries |
| RunLLMPrompt.RequeueLeaves | azure_functions/RunLLMPrompt/__init__.py:209-222 | A 429 below the ceiling sends the message back once with the counter raised and logs Throttled. At the ceiling it logs Error and sends nothing. A text counter raises |
| RunLLMPrompt.RespondLeaves | azure_functions/RunLLMPrompt/__init__.py:175-226 | Every answer leaves the chunk in `RespondState`: Complete, Skipped, Throttled or Error, or Processing when no branch matches. Only throttling sends |
| RunLLMPrompt.HandleLeaves | azure_functions/RunLLMPrompt/__init__.py:229-233 | The handler logs an exception on the chunk as Error after the writes made so far |
| RunLLMPrompt.TriedLeaves | azure_functions/RunLLMPrompt/__init__.py:85-226 | The `try` block leaves the chunk in `FinalChunkState`, which is Error on a malformed prompt query and on a completed choice whose fan-in queries raise. An exception comes only with state Error |
| RunLLMPrompt.RunLeaves | azure_functions/RunLLMPrompt/__init__.py:85-233 | An invocation whose message names the chunk finishes, leaving the chunk in `FinalChunkState`, including the Error that follows a raising prompt or fan-in query |
| RunLLMPrompt.LeavesStore | azure_functions/RunLLMPrompt/__init__.py:106-233 | After such a trace the store holds the chunk's log, under its key, in that state |
| RunLLMPrompt.FanInKeepsChunkLog | azure_functions/shared_code/status_log.py:324-357 | The fan-in check leaves every chunk log as it was, except one filed at the document's own id, which may only gain `state` Complete and a new timestamp |
| RunLLMPrompt.WritesKeep | azure_functions/RunLLMPrompt/__init__.py:106-226 | The executor's writes keep the store invariant and never stage anything |
| RunLLMPrompt.RunChunkState | azure_functions/RunLLMPrompt/__init__.py:85-233 | Whatever the store held, the chunk's record afterwards is under its own key, names its document and chunk, and holds `FinalChunkState`, so a chunk whose fan-in queries raise ends Error even though it was logged Complete |
| RunLLMPrompt.RunNeverSaves | azure_functions/RunLLMPrompt/__init__.py:85-236 | Every call is a write except, last, the fan-in check, and no call is an upsert or a save. A fan-in check whose queries raise changes nothing and counts as a write. The document's record changes only inside the fan-in check, which writes it back through `update_document_state` |
| RunLLMPrompt.RunCrashes | azure_functions/RunLLMPrompt/__init__.py:229-233 | The invocation crashes exactly when its handler's own chunk log cannot run. It then has made no call and sent nothing |
| RunLLMPrompt.CrashErrorNames | azure_functions/RunLLMPrompt/__init__.py:93-96 | The escaping exception is the `UnboundLocalError` on `blob_name`, then on `chunk_blob_uri`, or the chunk log's own `TypeError` on a numeric name |
| RunLLMPrompt.ChunkBound | azure_functions/RunLLMPrompt/__init__.py:93-96 | No key is bound exactly when `blob_name` is missing, and the first four are bound exactly when all four are present |
| RunLLMPrompt.RespondSends | azure_functions/RunLLMPrompt/__init__.py:209-217 | An answer sends only on 429 below the ceiling, and then the message with the counter raised |
| RunLLMPrompt.RequeuedBody | azure_functions/RunLLMPrompt/__init__.py:214-216 | The message sent back is still a dict, with the chunk counter one higher and every other key as received |
| RunLLMPrompt.Resent | azure_functions/RunLLMPrompt/__init__.py:211-217 | The one send of a throttled chunk goes to the chunks queue with the resubmission delay and is the received message with only the counter raised |
| RunLLMPrompt.ThrottledSends | azure_functions/RunLLMPrompt/__init__.py:209-219 | A throttled invocation below the ceiling sends exactly that one message |
| RunLLMPrompt.RunSends | azure_functions/RunLLMPrompt/__init__.py:85-233 | An invocation sends exactly when a request made for a chunk below the ceiling (user id read, prompt query well formed, text read) is answered 429, and then only the resent message |
| RunLLMPrompt.ChunkChainBounded | azure_functions/RunLLMPrompt/__init__.py:211-215 | A chain of chunk requeues has at most `max_submit_requeue_count - c` steps, each copy equal to the first but for its counter |
| RunLLMPrompt.TriedAnswered | azure_functions/RunLLMPrompt/__init__.py:170-226 | Once the request is made (so the prompt query did not raise), the `try` block ends as the answer decides |
| RunLLMPrompt.RunCompletesInOrder | azure_functions/RunLLMPrompt/__init__.py:106-201 | A completed, written answer makes exactly these calls, in order: the Processing log, the request, the output record, the Complete log and the fan-in check, followed by the handler's Error log when the path breaks the fan-in queries. A malformed prompt query leaves only the Processing log and the Error log |

## Left out

- The Cosmos client, database and container setup and create-if-absent are
  not modelled. The store is a map, and the prompt container's existence is a
  parameter of `PromptLog.Open`.
- SQL query strings are replaced by the predicates they select. The fan-in's
  first query is the lookup of the document's own file log. Under the store
  invariant it is at most one row (`StatusLog.TotalChunkCountIsQuery`).
- The unescaped quoting of the fan-in and prompt queries is modelled only as
  "a quote character makes the query raise" (`StatusLog.BreaksFanInQuery`,
  `PromptLog.BreaksQuery`). A quote that happens to leave valid SQL, and so
  selects other rows, is not modelled, nor are backslash escapes. The text of
  the store's error is an input (`queryError`).
- PromptLog.GetPromptText: the store holds one record per user, an assumption
  the seed's id convention suggests but nothing enforces. When several records
  share a user id and list the prompt, `get_prompt` takes `items[0]` in the
  order the server returns them. Which record that is depends on the server,
  so the model does not choose among several.
- `read_by_timeframe` is not modelled: it depends on the clock and on
  server-side ordering.
- Azure Queue and Blob I/O and every `utilities` call are not modelled. Their
  results are inputs: blob metadata, the analysis steps, `build_chunks`,
  `build_merged_chunks`, blob content and `write_llm_output`. The endpoint
  choice of `get_document_intel_endpoint` is only its returned key and
  endpoint lists.
- HTTP calls are inputs. `durable_get` and its tenacity retry are modelled
  only by their outcome: a response, or an exception (which includes the
  4xx/5xx `raise_for_status` after the last attempt).
- `time.sleep`, `random.randint` and timestamps are inputs constrained by
  `requires`. Every call of one invocation sees the same time.
- `get_stack_trace` formatting is an input text in `Ctx`.
- `logging` and `print` are not modelled: they have no effect on the store or
  the queues.
- PyStr.Extension: the lower-casing folds only the ASCII letters 'A' to 'Z',
  whereas `str.lower` folds every cased Unicode character. The Unicode case
  tables are not modelled. Routing is unaffected, because every listed
  extension is ASCII. The Error note of an unsupported upload such as "x.É"
  records "É" where the source records "é".
- The texts of the exceptions Python itself raises assume CPython 3.10: the
  `UnboundLocalError` text (3.11 changed it), the empty-range `ValueError` of
  `randint` (3.12 changed it), the `KeyError` repr and the `str`/`int`
  comparison `TypeError`. These texts reach the stored status history through
  the handlers.
- A poll answer whose body is not JSON is modelled as JSON without a `status`
  key (`Answered` with no status). Only the `KeyError('status')` text is
  produced, not the JSON decoding error the source would raise.
- The relative order of queue sends and status-store calls is not recorded.
  An invocation's `Fx` holds the sends and the store calls as two separate
  sequences, each in its own order. So no contract states that a send comes
  before an upsert. Examples are the send before the Queued upsert in the
  upload dispatcher and in the poller's requeues.
- Temperature, top-p and max-tokens are not modelled. They are float and
  integer parsing of configuration, sent unchanged to the endpoint.
- JSON decoding of the message body and of the blob content is not modelled.
  Messages arrive decoded, with integer or text values, and the blob's
  `merged_content` arrives as text or as the exception reading it raises.
- The environment configuration is an immutable `Pipeline.Config` record.
- Concurrent fan-in checks across workers are not modelled. Only the
  sequential idempotence and monotonicity of one check are proved.
- Storage faults other than "not found" are modelled only on the upsert read
  (`readFails`). The functions' traces assume a working store.
- PollDocumentIntelChunk.RunSends: it states the kinds of send and their
  fields, but not the exact delay of each send; the branch lemmas
  (`RunningRequeues`, `ResubmitRequeues`, `ChunkSendsSpec`) state those.

=== FILE: add_to_queue.dfy ===
/** The blob-upload trigger: it restarts the document's status history, routes the
    upload by extension to the PDF or the non-PDF submit queue, and sends one
    submit message after a random delay. An unsupported extension is logged as
    Skipped, after which the send refers to a queue name that was never bound and
    the handler marks the document Error. */
module AddToQueue {
  import opened Wrappers
  import opened Json
  import opened StatusLog
  import opened Pipeline
  import PyStr

  const FunctionName: string := "AddToQueue"

  /** The extensions, other than "pdf", that go to the non-PDF submit queue. */
  const NonPdfExtensions: seq<string> :=
    ["htm", "csv", "doc", "docx", "eml", "html", "md", "msg", "ppt", "pptx", "txt", "xlsx", "xml", "json"]

  datatype Route = Pdf | NonPdf | Unsupported

  /** The extension test of lines 61-67. */
  function Classify(ext: string): (r: Route)
    ensures r == Pdf <==> ext == "pdf"
    ensures r == NonPdf <==> ext in NonPdfExtensions
    ensures r == Unsupported <==> ext != "pdf" && ext !in NonPdfExtensions
  {
    if ext == "pdf" then Pdf
    else if ext in NonPdfExtensions then NonPdf
    else Unsupported
  }

  /** The submit queue of a supported route. */
  function QueueFor(cfg: Config, route: Route): string
    requires route != Unsupported
  {
    if route == Pdf then cfg.pdfSubmitQueue else cfg.nonPdfSubmitQueue
  }

  /** The prompt the upload asks for: the blob's `prompt_id` metadata, or the
      default prompt. */
  function PromptId(metadata: map<string, string>): string
  {
    if "prompt_id" in metadata then metadata["prompt_id"] else "default"
  }

  /** The message of lines 85-90. */
  function SubmitMessage(name: string, uri: string, promptId: string): Message
  {
    [("blob_name", Str(name)), ("blob_uri", Str(uri)), ("submit_queued_count", Int(1)), ("prompt_id", Str(promptId))]
  }

  /** The submit message is a dict carrying the blob's name and uri, a submit
      count of 1, and the blob's `prompt_id` metadata when it has one, "default"
      otherwise. */
  lemma SubmitMessageFields(name: string, uri: string, md: map<string, string>)
    ensures var m := SubmitMessage(name, uri, PromptId(md));
      && DistinctKeys(m)
      && Get(m, "blob_name") == Some(Str(name))
      && Get(m, "blob_uri") == Some(Str(uri))
      && Get(m, "submit_queued_count") == Some(Int(1))
      && ("prompt_id" in md ==> Get(m, "prompt_id") == Some(Str(md["prompt_id"])))
      && ("prompt_id" !in md ==> Get(m, "prompt_id") == Some(Str("default")))
  {
    var m := SubmitMessage(name, uri, PromptId(md));
    assert forall i :: 0 <= i < |m| ==> |m[i].0| == [9, 8, 19, 9][i];
    assert m[0].0[0] != m[3].0[0];
    GetAt(m, 0);
    GetAt(m, 1);
    GetAt(m, 2);
    GetAt(m, 3);
  }

  function QueuedStatus(ext: string, backoff: int): string
  {
    FunctionName + " - " + ext + " file sent to submit queue. Visible in " + IntToString(backoff) + " seconds"
  }

  function SkippedStatus(ext: string): string
  {
    FunctionName + " - Unexpected file type submitted " + ext
  }

  function ErrorStatus(err: string): string
  {
    FunctionName + " - An error occurred - " + err
  }

  /** Lines 60-98, from the extension test to the Queued status. */
  function Dispatch(cfg: Config, fx: Fx, name: string, uri: string, promptId: string, backoff: int): Try
  {
    var ext := PyStr.Extension(name);
    var route := Classify(ext);
    if route == Unsupported then
      Raised(Stage(fx, name, SkippedStatus(ext), StatusClassification.Error, Skipped, None, None), Unbound("queue_name"))
    else if cfg.maxSecondsHideOnUpload < 1 then
      Raised(fx, EmptyRandRange(1, cfg.maxSecondsHideOnUpload))
    else
      var sent := DoSend(fx, QueueFor(cfg, route), SubmitMessage(name, uri, promptId), backoff);
      Normal(Stage(sent, name, QueuedStatus(ext, backoff), Debug, Queued, None, None))
  }

  const TriggeredStatus: string := "Pipeline triggered by Blob Upload"
  const StartedStatus: string := FunctionName + " - function started"

  /** Lines 54-56: the fresh start that discards the previous history, then the
      start note. */
  function Opened(name: string): Fx
  {
    Fx([], OpeningCalls(name))
  }

  /** Lines 100-101: an exception is logged as the document's Error. */
  function Handle(tried: Try, name: string): Fx
  {
    match tried
    case Normal(fx) => fx
    case Raised(fx, err) => Stage(fx, name, ErrorStatus(err), StatusClassification.Error, State.Error, None, None)
  }

  /** `main` for an upload named `name` at `uri`. `metadata` is what
      `get_blob_metadata` returns or raises; `backoff` is the draw of
      `random.randint(1, max_seconds_hide_on_upload)`. */
  function Run(cfg: Config, name: string, uri: string, metadata: Attempt<map<string, string>>, backoff: int): Outcome
    requires cfg.maxSecondsHideOnUpload >= 1 ==> 1 <= backoff <= cfg.maxSecondsHideOnUpload
  {
    match metadata
    case Failed(_) =>
      // the handler's `statusLog` was never bound
      Crashed(Start, Unbound("statusLog"))
    case Done(md) =>
      var tried := Dispatch(cfg, Opened(name), name, uri, PromptId(md), backoff);
      Finished(DoCall(Handle(tried, name), Saved(name)))
  }

  // ------------------------------------------------------------ the trace

  /** The two upserts every run with readable metadata starts with, the first one
      a fresh start. */
  function OpeningCalls(name: string): seq<Call>
  {
    [Upserted(name, TriggeredStatus, Info, Processing, true, None, None),
     Upserted(name, StartedStatus, Debug, Processing, false, None, None)]
  }

  /** The upserts after the opening ones for an upload with extension `ext`. */
  function FinalUpserts(cfg: Config, name: string, ext: string, backoff: int): seq<Call>
  {
    if Classify(ext) == Unsupported then
      [Upserted(name, SkippedStatus(ext), StatusClassification.Error, Skipped, false, None, None),
       Upserted(name, ErrorStatus(Unbound("queue_name")), StatusClassification.Error, State.Error, false, None, None)]
    else if cfg.maxSecondsHideOnUpload < 1 then
      [Upserted(name, ErrorStatus(EmptyRandRange(1, cfg.maxSecondsHideOnUpload)), StatusClassification.Error, State.Error, false, None, None)]
    else
      [Upserted(name, QueuedStatus(ext, backoff), Debug, Queued, false, None, None)]
  }

  /** The messages a run with readable metadata sends. */
  function FinalSends(cfg: Config, name: string, uri: string, md: map<string, string>, backoff: int): seq<Send>
  {
    var route := Classify(PyStr.Extension(name));
    if route == Unsupported || cfg.maxSecondsHideOnUpload < 1 then []
    else [Send(QueueFor(cfg, route), SubmitMessage(name, uri, PromptId(md)), backoff)]
  }

  /** A supported upload with a drawable delay: one send, to the queue of its
      route, then the Queued status and the save. */
  lemma TraceSupported(cfg: Config, name: string, uri: string, md: map<string, string>, backoff: int)
    requires cfg.maxSecondsHideOnUpload >= 1 && 1 <= backoff <= cfg.maxSecondsHideOnUpload
    requires Classify(PyStr.Extension(name)) != Unsupported
    ensures var r := Run(cfg, name, uri, Done(md), backoff);
      && r.Finished?
      && r.fx.sends == [Send(QueueFor(cfg, Classify(PyStr.Extension(name))), SubmitMessage(name, uri, PromptId(md)), backoff)]
      && r.fx.calls == OpeningCalls(name) + FinalUpserts(cfg, name, PyStr.Extension(name), backoff) + [Saved(name)]
  {
  }

  /** An unsupported extension: the Skipped status, then the handler's Error for
      the unbound `queue_name`, then the save; nothing is sent. */
  lemma TraceUnsupported(cfg: Config, name: string, uri: string, md: map<string, string>, backoff: int)
    requires cfg.maxSecondsHideOnUpload >= 1 ==> 1 <= backoff <= cfg.maxSecondsHideOnUpload
    requires Classify(PyStr.Extension(name)) == Unsupported
    ensures var r := Run(cfg, name, uri, Done(md), backoff);
      var ups := FinalUpserts(cfg, name, PyStr.Extension(name), backoff);
      && r.Finished?
      && r.fx.sends == []
      && r.fx.calls == OpeningCalls(name) + ups + [Saved(name)]
  {
  }

  /** A supported extension with an empty delay range: the handler's Error, then the
      save; nothing is sent. */
  lemma TraceNoDelay(cfg: Config, name: string, uri: string, md: map<string, string>, backoff: int)
    requires cfg.maxSecondsHideOnUpload < 1
    requires Classify(PyStr.Extension(name)) != Unsupported
    ensures var r := Run(cfg, name, uri, Done(md), backoff);
      && r.Finished?
      && r.fx.sends == []
      && r.fx.calls == OpeningCalls(name) + FinalUpserts(cfg, name, PyStr.Extension(name), backoff) + [Saved(name)]
  {
  }

  /** Every run with readable metadata finishes. A supported upload with a drawable
      delay sends exactly one message, to the queue of its route, carrying the
      blob's name and uri, a submit count of 1 and the resolved prompt id, after
      the drawn delay; every other run sends nothing. The first status write is
      the fresh start of the upload's record, and the record is saved once, at the
      end, on the success path and on the exception path alike. */
  lemma RunTrace(cfg: Config, name: string, uri: string, md: map<string, string>, backoff: int)
    requires cfg.maxSecondsHideOnUpload >= 1 ==> 1 <= backoff <= cfg.maxSecondsHideOnUpload
    ensures var r := Run(cfg, name, uri, Done(md), backoff);
      && r.Finished?
      && r.fx.sends == FinalSends(cfg, name, uri, md, backoff)
      && r.fx.calls[0] == Upserted(name, TriggeredStatus, Info, Processing, true, None, None)
      && r.fx.calls == OpeningCalls(name) + FinalUpserts(cfg, name, PyStr.Extension(name), backoff) + [Saved(name)]
      && SavedOnceAtEnd(r.fx.calls, name)
  {
    FinalNoSave(cfg, name, PyStr.Extension(name), backoff);
    SaveLast(OpeningCalls(name) + FinalUpserts(cfg, name, PyStr.Extension(name), backoff), name);
    if Classify(PyStr.Extension(name)) == Unsupported {
      TraceUnsupported(cfg, name, uri, md, backoff);
    } else if cfg.maxSecondsHideOnUpload < 1 {
      TraceNoDelay(cfg, name, uri, md, backoff);
    } else {
      TraceSupported(cfg, name, uri, md, backoff);
    }
  }

  /** The upserts before the final save never save. */
  lemma FinalNoSave(cfg: Config, name: string, ext: string, backoff: int)
    ensures NoSave(OpeningCalls(name) + FinalUpserts(cfg, name, ext, backoff))
  {
    NoSaveAppend(OpeningCalls(name), FinalUpserts(cfg, name, ext, backoff));
  }

  /** When the metadata read raises, the handler itself fails on the unbound
      `statusLog`: nothing is sent and no call reaches the store. */
  lemma RunMetadataFails(cfg: Config, store: Store, name: string, uri: string, err: string, backoff: int, ctx: Ctx)
    requires cfg.maxSecondsHideOnUpload >= 1 ==> 1 <= backoff <= cfg.maxSecondsHideOnUpload
    ensures var r := Run(cfg, name, uri, Failed(err), backoff);
      && r == Crashed(r.fx, Unbound("statusLog"))
      && r.fx.sends == [] && r.fx.calls == []
      && Effect(store, r.fx.calls, ctx).store == store
  {
  }

  // ------------------------------------------------------------ the record written

  /** A file log created by this run: counts unknown, every timestamp `now`. */
  function Restarted(name: string, state: State, now: string, updates: seq<StatusUpdate>): Item
  {
    FileLog(name, PyStr.Basename(name), state, -1, -1, now, "", now, updates)
  }

  /** The two statuses every run with readable metadata starts with. */
  function Opening(ctx: Ctx): seq<StatusUpdate>
  {
    [NewEntry(TriggeredStatus, Info, ctx), NewEntry(StartedStatus, Debug, ctx)]
  }

  /** The record a run with readable metadata leaves for the upload: the opening
      statuses, then one status per final upsert, in the state of the last one. */
  function FinalRecord(cfg: Config, name: string, backoff: int, ctx: Ctx): Item
  {
    var ext := PyStr.Extension(name);
    Restarted(name, FinalState(cfg, ext), ctx.now, FinalUpdates(cfg, ext, backoff, ctx))
  }

  /** The state of the last upsert: Error unless the upload was queued. */
  function FinalState(cfg: Config, ext: string): State
  {
    if Classify(ext) == Unsupported || cfg.maxSecondsHideOnUpload < 1 then State.Error else Queued
  }

  function FinalUpdates(cfg: Config, ext: string, backoff: int, ctx: Ctx): seq<StatusUpdate>
  {
    if Classify(ext) == Unsupported then
      Opening(ctx)
        + [NewEntry(SkippedStatus(ext), StatusClassification.Error, ctx)]
        + [NewEntry(ErrorStatus(Unbound("queue_name")), StatusClassification.Error, ctx)]
    else if cfg.maxSecondsHideOnUpload < 1 then
      Opening(ctx) + [NewEntry(ErrorStatus(EmptyRandRange(1, cfg.maxSecondsHideOnUpload)), StatusClassification.Error, ctx)]
    else
      Opening(ctx) + [NewEntry(QueuedStatus(ext, backoff), Debug, ctx)]
  }

  /** The record staged by the two opening upserts, whatever the store held: the
      fresh start deletes the stored record, so the merge starts from nothing. */
  lemma OpeningStaged(store: Store, name: string, ctx: Ctx)
    ensures Effect(store, OpeningCalls(name), ctx)
      == Log(store - {DocumentKey(name)}, map[name := Staged(Restarted(name, Processing, ctx.now, Opening(ctx)))])
  {
    var log0 := Log(store, map[]);
    var c1 := Upserted(name, TriggeredStatus, Info, Processing, true, None, None);
    var c2 := Upserted(name, StartedStatus, Debug, Processing, false, None, None);
    ReplaySnoc(log0, [], c1, ctx);
    assert [c1] == [] + [c1];
    ReplaySnoc(log0, [c1], c2, ctx);
    assert OpeningCalls(name) == [c1] + [c2];
    var log1 := Apply(log0, c1, ctx);
    assert log1.cache[name].doc == FreshRecord(name, TriggeredStatus, Info, Processing, ctx.now, NoTrace);
    var log2 := Apply(log1, c2, ctx);
    UpsertStaged(log1, name, StartedStatus, Debug, Processing, None, None, ctx, false);
    assert log2.cache[name].doc == Restarted(name, Processing, ctx.now, Opening(ctx));
  }

  /** One more upsert on the only record staged by this run: the state moves, the
      status is appended and the store is not written. */
  lemma UpsertRestarted(log: Log, name: string, state0: State, updates: seq<StatusUpdate>,
                        status: string, cls: StatusClassification, state: State, ctx: Ctx)
    requires log.cache == map[name := Staged(Restarted(name, state0, ctx.now, updates))]
    ensures Apply(log, Upserted(name, status, cls, state, false, None, None), ctx)
      == Log(log.store, map[name := Staged(Restarted(name, state, ctx.now, updates + [NewEntry(status, cls, ctx)]))])
  {
    UpsertStaged(log, name, status, cls, state, None, None, ctx, false);
  }

  /** Saving the only staged record writes it under its key. */
  lemma SaveRestarted(log: Log, store: Store, name: string, state: State, now: string, updates: seq<StatusUpdate>, ctx: Ctx)
    requires log == Log(store - {DocumentKey(name)}, map[name := Staged(Restarted(name, state, now, updates))])
    ensures Apply(log, Saved(name), ctx).store == store[DocumentKey(name) := Restarted(name, state, now, updates)]
  {
    var k := DocumentKey(name);
    assert Restarted(name, state, now, updates).Key() == k;
    assert (store - {k})[k := Restarted(name, state, now, updates)] == store[k := Restarted(name, state, now, updates)];
  }

  /** Every run with readable metadata writes the upload's record and nothing else.
      The record does not depend on what the store held before: the fresh start
      discards the previous history. */
  lemma RunWrites(cfg: Config, store: Store, name: string, uri: string, md: map<string, string>, backoff: int, ctx: Ctx)
    requires cfg.maxSecondsHideOnUpload >= 1 ==> 1 <= backoff <= cfg.maxSecondsHideOnUpload
    ensures var r := Run(cfg, name, uri, Done(md), backoff);
      Effect(store, r.fx.calls, ctx).store == store[DocumentKey(name) := FinalRecord(cfg, name, backoff, ctx)]
  {
    RunTrace(cfg, name, uri, md, backoff);
    var ext := PyStr.Extension(name);
    var pre := OpeningCalls(name) + FinalUpserts(cfg, name, ext, backoff);
    FinalStaged(cfg, store, name, ext, backoff, ctx);
    SaveRestarted(Effect(store, pre, ctx), store, name, FinalState(cfg, ext), ctx.now, FinalUpdates(cfg, ext, backoff, ctx), ctx);
    ReplaySnoc(Log(store, map[]), pre, Saved(name), ctx);
  }

  /** Before the save, the upload's final record is staged and its old record is
      gone from the store view. */
  lemma FinalStaged(cfg: Config, store: Store, name: string, ext: string, backoff: int, ctx: Ctx)
    ensures Effect(store, OpeningCalls(name) + FinalUpserts(cfg, name, ext, backoff), ctx)
         == Log(store - {DocumentKey(name)},
                map[name := Staged(Restarted(name, FinalState(cfg, ext), ctx.now, FinalUpdates(cfg, ext, backoff, ctx)))])
  {
    OpeningStaged(store, name, ctx);
    if Classify(ext) == Unsupported {
      SkippedStaged(cfg, store, name, ext, backoff, ctx);
    } else {
      var u := FinalUpserts(cfg, name, ext, backoff)[0];
      UpsertRestarted(Effect(store, OpeningCalls(name), ctx), name, Processing, Opening(ctx), u.status, u.cls, u.state, ctx);
      ReplaySnoc(Log(store, map[]), OpeningCalls(name), u, ctx);
      assert FinalUpserts(cfg, name, ext, backoff) == [u];
    }
  }

  /** An unsupported extension: the Skipped note, then the handler's Error. */
  lemma SkippedStaged(cfg: Config, store: Store, name: string, ext: string, backoff: int, ctx: Ctx)
    requires Classify(ext) == Unsupported
    requires Effect(store, OpeningCalls(name), ctx)
          == Log(store - {DocumentKey(name)}, map[name := Staged(Restarted(name, Processing, ctx.now, Opening(ctx)))])
    ensures Effect(store, OpeningCalls(name) + FinalUpserts(cfg, name, ext, backoff), ctx)
         == Log(store - {DocumentKey(name)},
                map[name := Staged(Restarted(name, FinalState(cfg, ext), ctx.now, FinalUpdates(cfg, ext, backoff, ctx)))])
  {
    var log0 := Log(store, map[]);
    var opening := OpeningCalls(name);
    var ups := FinalUpserts(cfg, name, ext, backoff);
    var log2 := Effect(store, opening, ctx);
    UpsertRestarted(log2, name, Processing, Opening(ctx), SkippedStatus(ext), StatusClassification.Error, Skipped, ctx);
    ReplaySnoc(log0, opening, ups[0], ctx);
    var log3 := Apply(log2, ups[0], ctx);
    UpsertRestarted(log3, name, Skipped, Opening(ctx) + [NewEntry(SkippedStatus(ext), StatusClassification.Error, ctx)],
      ErrorStatus(Unbound("queue_name")), StatusClassification.Error, State.Error, ctx);
    ReplaySnoc(log0, opening + [ups[0]], ups[1], ctx);
    assert opening + ups == opening + [ups[0]] + [ups[1]];
  }
}

=== FILE: ids.dfy ===
/** Record ids: `encode_document_id` turns a path into the URL-safe base64 text
    (section 5 of RFC 4648, with '=' padding) of its UTF-8 bytes. The decoders exist
    only to prove that the encoding loses nothing, so that distinct paths never share
    a record id. */
module Ids {
  import opened Wrappers

  type byte = b: int | 0 <= b < 256

  /** A Unicode scalar value: what a Dafny `char` holds. */
  predicate IsScalar(n: int)
  {
    0 <= n < 0xD800 || 0xE000 <= n < 0x11_0000
  }

  // ---------------------------------------------------------------- UTF-8

  /** The UTF-8 bytes of one character. */
  function EncodeChar(c: char): (bs: seq<byte>)
    ensures 1 <= |bs| <= 4
  {
    var n := c as int;
    if n < 0x80 then [n]
    else if n < 0x800 then [0xC0 + n / 64, 0x80 + n % 64]
    else if n < 0x1_0000 then [0xE0 + n / 4096, 0x80 + (n / 64) % 64, 0x80 + n % 64]
    else [0xF0 + n / 262144, 0x80 + (n / 4096) % 64, 0x80 + (n / 64) % 64, 0x80 + n % 64]
  }

  /** `s.encode()`: UTF-8. */
  function Utf8Encode(s: string): (bs: seq<byte>)
    ensures |s| <= |bs| <= 4 * |s|
  {
    if |s| == 0 then [] else EncodeChar(s[0]) + Utf8Encode(s[1..])
  }

  predicate IsContinuation(b: byte)
  {
    0x80 <= b < 0xC0
  }

  /** The first character of a UTF-8 byte string and how many bytes it took. */
  function DecodeChar(bs: seq<byte>): (r: Option<(char, nat)>)
    ensures r.Some? ==> 1 <= r.value.1 <= |bs|
  {
    if |bs| == 0 then None
    else
      var b0: int := bs[0];
      if b0 < 0x80 then Some((b0 as char, 1))
      else if 0xC0 <= b0 < 0xE0 && |bs| >= 2 && IsContinuation(bs[1]) then
        var n := (b0 - 0xC0) * 64 + (bs[1] as int - 0x80);
        if IsScalar(n) then Some((n as char, 2)) else None
      else if 0xE0 <= b0 < 0xF0 && |bs| >= 3 && IsContinuation(bs[1]) && IsContinuation(bs[2]) then
        var n := (b0 - 0xE0) * 4096 + (bs[1] as int - 0x80) * 64 + (bs[2] as int - 0x80);
        if IsScalar(n) then Some((n as char, 3)) else None
      else if 0xF0 <= b0 < 0xF8 && |bs| >= 4 && IsContinuation(bs[1]) && IsContinuation(bs[2])
              && IsContinuation(bs[3]) then
        var n := (b0 - 0xF0) * 262144 + (bs[1] as int - 0x80) * 4096 + (bs[2] as int - 0x80) * 64
                 + (bs[3] as int - 0x80);
        if IsScalar(n) then Some((n as char, 4)) else None
      else None
  }

  /** UTF-8 decoding; `None` on a malformed byte string. */
  function Utf8Decode(bs: seq<byte>): Option<string>
    decreases |bs|
  {
    if |bs| == 0 then Some("")
    else match DecodeChar(bs)
      case None => None
      case Some(p) =>
        match Utf8Decode(bs[p.1..])
        case None => None
        case Some(rest) => Some([p.0] + rest)
  }

  lemma TwoByteChar(n: int)
    requires 0x80 <= n < 0x800
    ensures (0xC0 + n / 64 - 0xC0) * 64 + (0x80 + n % 64 - 0x80) == n
  {
  }

  lemma ThreeByteChar(n: int)
    requires 0x800 <= n < 0x1_0000
    ensures (n / 4096) * 4096 + ((n / 64) % 64) * 64 + n % 64 == n
  {
    var q := n / 64;
    assert q / 64 == n / 4096;
    assert q * 64 + n % 64 == n;
    assert (q / 64) * 64 + q % 64 == q;
  }

  lemma FourByteChar(n: int)
    requires 0x1_0000 <= n < 0x11_0000
    ensures (n / 262144) * 262144 + ((n / 4096) % 64) * 4096 + ((n / 64) % 64) * 64 + n % 64 == n
  {
    var q := n / 64;
    var h := q / 64;
    assert h == n / 4096;
    assert h / 64 == n / 262144;
    assert q * 64 + n % 64 == n;
    assert h * 64 + q % 64 == q;
    assert (h / 64) * 64 + h % 64 == h;
  }

  /** Decoding the bytes of one character, whatever follows, gives that character back. */
  lemma DecodeEncodeChar(c: char, rest: seq<byte>)
    ensures DecodeChar(EncodeChar(c) + rest) == Some((c, |EncodeChar(c)|))
  {
    var n := c as int;
    if n < 0x80 {
    } else if n < 0x800 {
      DecodeTwoBytes(c, rest);
    } else if n < 0x1_0000 {
      DecodeThreeBytes(c, rest);
    } else {
      DecodeFourBytes(c, rest);
    }
  }

  lemma DecodeTwoBytes(c: char, rest: seq<byte>)
    requires 0x80 <= c as int < 0x800
    ensures DecodeChar(EncodeChar(c) + rest) == Some((c, |EncodeChar(c)|))
  {
    var n := c as int;
    var bs := EncodeChar(c) + rest;
    TwoByteChar(n);
    assert bs[0] == 0xC0 + n / 64 && bs[1] == 0x80 + n % 64;
  }

  lemma DecodeThreeBytes(c: char, rest: seq<byte>)
    requires 0x800 <= c as int < 0x1_0000
    ensures DecodeChar(EncodeChar(c) + rest) == Some((c, |EncodeChar(c)|))
  {
    var n := c as int;
    var bs := EncodeChar(c) + rest;
    ThreeByteChar(n);
    assert bs[0] == 0xE0 + n / 4096 && bs[1] == 0x80 + (n / 64) % 64 && bs[2] == 0x80 + n % 64;
  }

  lemma DecodeFourBytes(c: char, rest: seq<byte>)
    requires 0x1_0000 <= c as int
    ensures DecodeChar(EncodeChar(c) + rest) == Some((c, |EncodeChar(c)|))
  {
    var n := c as int;
    var bs := EncodeChar(c) + rest;
    FourByteChar(n);
    assert bs[0] == 0xF0 + n / 262144 && bs[1] == 0x80 + (n / 4096) % 64;
    assert bs[2] == 0x80 + (n / 64) % 64 && bs[3] == 0x80 + n % 64;
  }

  /** UTF-8 decoding inverts UTF-8 encoding. */
  lemma {:induction false} Utf8RoundTrip(s: string)
    ensures Utf8Decode(Utf8Encode(s)) == Some(s)
  {
    if |s| > 0 {
      var head := EncodeChar(s[0]);
      var tail := Utf8Encode(s[1..]);
      DecodeEncodeChar(s[0], tail);
      assert (head + tail)[|head|..] == tail;
      Utf8RoundTrip(s[1..]);
      assert [s[0]] + s[1..] == s;
    }
  }

  // --------------------------------------------------------------- base64

  /** Character `i` of the URL-safe alphabet A-Z a-z 0-9 '-' '_'. */
  function Sextet(i: int): (c: char)
    requires 0 <= i < 64
  {
    if i < 26 then ('A' as int + i) as char
    else if i < 52 then ('a' as int + i - 26) as char
    else if i < 62 then ('0' as int + i - 52) as char
    else if i == 62 then '-'
    else '_'
  }

  /** The position of `c` in the URL-safe alphabet, if it is in it. */
  function SextetValue(c: char): (r: Option<int>)
    ensures r.Some? ==> 0 <= r.value < 64
  {
    if 'A' <= c <= 'Z' then Some(c as int - 'A' as int)
    else if 'a' <= c <= 'z' then Some(c as int - 'a' as int + 26)
    else if '0' <= c <= '9' then Some(c as int - '0' as int + 52)
    else if c == '-' then Some(62)
    else if c == '_' then Some(63)
    else None
  }

  lemma SextetRoundTrip(i: int)
    requires 0 <= i < 64
    ensures SextetValue(Sextet(i)) == Some(i)
    ensures Sextet(i) != '='
  {
  }

  /** Three bytes as four characters. */
  function EncodeGroup(a: byte, b: byte, c: byte): (q: string)
    ensures |q| == 4
  {
    [Sextet(a / 4), Sextet((a % 4) * 16 + b / 16), Sextet((b % 16) * 4 + c / 64), Sextet(c % 64)]
  }

  /** A final single byte: two characters and two '='. */
  function EncodeTail1(a: byte): (q: string)
    ensures |q| == 4
  {
    [Sextet(a / 4), Sextet((a % 4) * 16), '=', '=']
  }

  /** A final pair of bytes: three characters and one '='. */
  function EncodeTail2(a: byte, b: byte): (q: string)
    ensures |q| == 4
  {
    [Sextet(a / 4), Sextet((a % 4) * 16 + b / 16), Sextet((b % 16) * 4), '=']
  }

  /** `base64.urlsafe_b64encode`. */
  function Base64UrlEncode(bs: seq<byte>): string
    decreases |bs|
  {
    if |bs| == 0 then ""
    else if |bs| == 1 then EncodeTail1(bs[0])
    else if |bs| == 2 then EncodeTail2(bs[0], bs[1])
    else EncodeGroup(bs[0], bs[1], bs[2]) + Base64UrlEncode(bs[3..])
  }

  /** Every started group of three bytes becomes four characters. */
  lemma {:induction false} Base64Length(bs: seq<byte>)
    ensures |Base64UrlEncode(bs)| == 4 * ((|bs| + 2) / 3)
    decreases |bs|
  {
    if |bs| > 2 {
      Base64Length(bs[3..]);
      assert (|bs| - 3 + 2) / 3 + 1 == (|bs| + 2) / 3;
    }
  }

  /** Three or more bytes: a full group, then the rest. */
  lemma EncodeCons(bs: seq<byte>)
    requires |bs| > 2
    ensures Base64UrlEncode(bs) == EncodeGroup(bs[0], bs[1], bs[2]) + Base64UrlEncode(bs[3..])
  {
  }

  /** Four characters back to one, two or three bytes; '=' only as trailing padding. */
  function DecodeQuad(q: string): (r: Option<seq<byte>>)
    requires |q| == 4
    ensures r.Some? ==> 1 <= |r.value| <= 3
  {
    var v0 := SextetValue(q[0]);
    var v1 := SextetValue(q[1]);
    if v0.None? || v1.None? then None
    else
      var a := v0.value * 4 + v1.value / 16;
      if q[2] == '=' && q[3] == '=' then Some([a])
      else
        var v2 := SextetValue(q[2]);
        if v2.None? then None
        else
          var b := (v1.value % 16) * 16 + v2.value / 4;
          if q[3] == '=' then Some([a, b])
          else
            var v3 := SextetValue(q[3]);
            if v3.None? then None
            else Some([a, b, (v2.value % 4) * 64 + v3.value])
  }

  /** `base64.urlsafe_b64decode` for well-padded input; `None` otherwise. */
  function Base64UrlDecode(s: string): Option<seq<byte>>
    decreases |s|
  {
    if |s| == 0 then Some([])
    else if |s| < 4 then None
    else
      var q := DecodeQuad(s[..4]);
      if |s| == 4 then q
      else if q.None? || |q.value| != 3 then None
      else match Base64UrlDecode(s[4..])
        case None => None
        case Some(rest) => Some(q.value + rest)
  }

  lemma GroupArithmetic(a: byte, b: byte, c: byte)
    ensures (a / 4) * 4 + ((a % 4) * 16 + b / 16) / 16 == a
    ensures (((a % 4) * 16 + b / 16) % 16) * 16 + ((b % 16) * 4 + c / 64) / 4 == b
    ensures (((b % 16) * 4 + c / 64) % 4) * 64 + c % 64 == c
  {
  }

  lemma DecodeGroup(a: byte, b: byte, c: byte)
    ensures DecodeQuad(EncodeGroup(a, b, c)) == Some([a, b, c])
  {
    SextetRoundTrip(a / 4);
    SextetRoundTrip((a % 4) * 16 + b / 16);
    SextetRoundTrip((b % 16) * 4 + c / 64);
    SextetRoundTrip(c % 64);
    GroupArithmetic(a, b, c);
  }

  lemma DecodeTail1(a: byte)
    ensures DecodeQuad(EncodeTail1(a)) == Some([a])
  {
    SextetRoundTrip(a / 4);
    SextetRoundTrip((a % 4) * 16);
  }

  lemma DecodeTail2(a: byte, b: byte)
    ensures DecodeQuad(EncodeTail2(a, b)) == Some([a, b])
  {
    SextetRoundTrip(a / 4);
    SextetRoundTrip((a % 4) * 16 + b / 16);
    SextetRoundTrip((b % 16) * 4);
    GroupArithmetic(a, b, 0);
  }

  /** A full group followed by more text decodes to the group's bytes followed by
      what the rest decodes to. */
  lemma DecodeAfterGroup(g: string, rest: string)
    requires |g| == 4 && DecodeQuad(g).Some? && |DecodeQuad(g).value| == 3 && |rest| > 0
    ensures Base64UrlDecode(g + rest)
         == if Base64UrlDecode(rest).None? then None else Some(DecodeQuad(g).value + Base64UrlDecode(rest).value)
  {
    var s := g + rest;
    assert s[..4] == g;
    assert s[4..] == rest;
  }

  /** Base64 decoding inverts base64 encoding. */
  lemma {:induction false} Base64RoundTrip(bs: seq<byte>)
    ensures Base64UrlDecode(Base64UrlEncode(bs)) == Some(bs)
    decreases |bs|
  {
    if 1 <= |bs| <= 3 {
      Base64RoundTripShort(bs);
    } else if |bs| > 3 {
      var tail := bs[3..];
      var g := EncodeGroup(bs[0], bs[1], bs[2]);
      EncodeCons(bs);
      DecodeGroup(bs[0], bs[1], bs[2]);
      DecodeAfterGroup(g, Base64UrlEncode(tail));
      Base64RoundTrip(tail);
      assert [bs[0], bs[1], bs[2]] + tail == bs;
    }
  }

  /** One, two or three bytes: a single quad. */
  lemma Base64RoundTripShort(bs: seq<byte>)
    requires 1 <= |bs| <= 3
    ensures Base64UrlDecode(Base64UrlEncode(bs)) == Some(bs)
  {
    if |bs| == 1 {
      RoundTripOne(bs);
    } else if |bs| == 2 {
      RoundTripTwo(bs);
    } else {
      RoundTripThree(bs);
    }
  }

  lemma RoundTripOne(bs: seq<byte>)
    requires |bs| == 1
    ensures Base64UrlDecode(Base64UrlEncode(bs)) == Some(bs)
  {
    var q := EncodeTail1(bs[0]);
    assert Base64UrlEncode(bs) == q;
    SingleQuad(q);
    DecodeTail1(bs[0]);
    assert [bs[0]] == bs;
  }

  lemma RoundTripTwo(bs: seq<byte>)
    requires |bs| == 2
    ensures Base64UrlDecode(Base64UrlEncode(bs)) == Some(bs)
  {
    var q := EncodeTail2(bs[0], bs[1]);
    assert Base64UrlEncode(bs) == q;
    SingleQuad(q);
    DecodeTail2(bs[0], bs[1]);
    assert [bs[0], bs[1]] == bs;
  }

  lemma RoundTripThree(bs: seq<byte>)
    requires |bs| == 3
    ensures Base64UrlDecode(Base64UrlEncode(bs)) == Some(bs)
  {
    var q := EncodeGroup(bs[0], bs[1], bs[2]);
    assert Base64UrlEncode(bs[3..]) == "";
    assert Base64UrlEncode(bs) == q + "" == q;
    SingleQuad(q);
    DecodeGroup(bs[0], bs[1], bs[2]);
    assert [bs[0], bs[1], bs[2]] == bs;
  }

  /** Four characters decode as one quad. */
  lemma SingleQuad(q: string)
    requires |q| == 4
    ensures Base64UrlDecode(q) == DecodeQuad(q)
  {
    assert q[..4] == q;
  }

  // ----------------------------------------------------------- record ids

  /** `encode_document_id`: the record id of a document path, chunk name or
      output file name. */
  function EncodeDocumentId(path: string): string
  {
    Base64UrlEncode(Utf8Encode(path))
  }

  /** Distinct paths get distinct record ids. */
  lemma EncodeDocumentIdInjective(p: string, q: string)
    ensures EncodeDocumentId(p) == EncodeDocumentId(q) ==> p == q
  {
    Utf8RoundTrip(p);
    Utf8RoundTrip(q);
    Base64RoundTrip(Utf8Encode(p));
    Base64RoundTrip(Utf8Encode(q));
  }
}

=== FILE: json.dfy ===
/** Queue message bodies. A message is the Python dict that `json.loads` produced:
    keys in insertion order, each mapped to an integer or a string. `Put` is
    `message[key] = value`, `Format` is what an f-string prints for a value, and
    `Dumps` is `json.dumps` with its default settings (", " and ": " separators,
    non-ASCII escaped). */
module Json {
  import opened Wrappers

  datatype Value = Int(i: int) | Str(s: string)

  type Message = seq<(string, Value)>

  /** A dict never holds the same key twice. */
  predicate DistinctKeys(m: Message)
  {
    forall i, j :: 0 <= i < j < |m| ==> m[i].0 != m[j].0
  }

  function Keys(m: Message): (ks: seq<string>)
    ensures |ks| == |m|
    ensures forall i :: 0 <= i < |m| ==> ks[i] == m[i].0
  {
    seq(|m|, i requires 0 <= i < |m| => m[i].0)
  }

  /** The position of key `k` in `m`, or -1 when `k` is absent. */
  function IndexOf(m: Message, k: string): (r: int)
    ensures -1 <= r < |m|
    ensures r >= 0 ==> m[r].0 == k
    ensures r < 0 <==> forall i :: 0 <= i < |m| ==> m[i].0 != k
    ensures r >= 0 ==> forall i :: 0 <= i < r ==> m[i].0 != k
    decreases |m|
  {
    if |m| == 0 then -1
    else if m[|m| - 1].0 == k then
      var r := IndexOf(m[..|m| - 1], k);
      if r >= 0 then r else |m| - 1
    else IndexOf(m[..|m| - 1], k)
  }

  /** `m.get(k)`; with distinct keys, the one value stored under `k`. */
  function Get(m: Message, k: string): (r: Option<Value>)
    ensures r.None? <==> forall i :: 0 <= i < |m| ==> m[i].0 != k
    ensures r.Some? ==> exists i :: 0 <= i < |m| && m[i] == (k, r.value)
  {
    var i := IndexOf(m, k);
    if i < 0 then None else Some(m[i].1)
  }

  /** The first entry with a key is the one `Get` returns. */
  lemma GetFirst(m: Message, i: int)
    requires 0 <= i < |m|
    requires forall j :: 0 <= j < i ==> m[j].0 != m[i].0
    ensures Get(m, m[i].0) == Some(m[i].1)
  {
    var j := IndexOf(m, m[i].0);
    assert j >= 0 && m[j].0 == m[i].0;
  }

  /** Under distinct keys, the entry found at a position is the one `Get` returns. */
  lemma GetAt(m: Message, i: int)
    requires DistinctKeys(m)
    requires 0 <= i < |m|
    ensures Get(m, m[i].0) == Some(m[i].1)
  {
    var j := IndexOf(m, m[i].0);
    assert j >= 0 && m[j].0 == m[i].0;
  }

  /** `m[k] = v`: an existing key keeps its position, a new key goes last. What it
      keeps and changes is stated by `PutSpec`. */
  function Put(m: Message, k: string, v: Value): Message
  {
    var i := IndexOf(m, k);
    if i < 0 then m + [(k, v)] else m[i := (k, v)]
  }

  /** After `m[k] = v` the key `k` maps to `v`, every other key maps to what it
      mapped to before, the keys stay distinct, and a new key goes last. */
  lemma PutSpec(m: Message, k: string, v: Value)
    requires DistinctKeys(m)
    ensures var r := Put(m, k, v);
      && DistinctKeys(r)
      && Get(r, k) == Some(v)
      && (forall k' :: k' != k ==> Get(r, k') == Get(m, k'))
      && (Get(m, k).Some? ==> Keys(r) == Keys(m))
      && (Get(m, k).None? ==> Keys(r) == Keys(m) + [k])
  {
    var i := IndexOf(m, k);
    var r := Put(m, k, v);
    PutKeys(m, k, v, i, r);
    GetAt(r, if i < 0 then |m| else i);
    PutOthers(m, k, v, i, r);
  }

  /** The keys after `m[k] = v`, placed as `Put` places them. */
  lemma PutKeys(m: Message, k: string, v: Value, i: int, r: Message)
    requires DistinctKeys(m) && i == IndexOf(m, k)
    requires r == if i < 0 then m + [(k, v)] else m[i := (k, v)]
    ensures DistinctKeys(r)
    ensures i >= 0 ==> Keys(r) == Keys(m)
    ensures i < 0 ==> Keys(r) == Keys(m) + [k]
  {
    assert forall j :: 0 <= j < |r| ==> r[j].0 == (if i < 0 then Keys(m) + [k] else Keys(m))[j];
  }

  /** `m[k] = v` leaves what every other key reads. */
  lemma PutOthers(m: Message, k: string, v: Value, i: int, r: Message)
    requires DistinctKeys(m) && DistinctKeys(r) && i == IndexOf(m, k)
    requires r == if i < 0 then m + [(k, v)] else m[i := (k, v)]
    ensures forall k' :: k' != k ==> Get(r, k') == Get(m, k')
  {
    forall k' | k' != k ensures Get(r, k') == Get(m, k') {
      var a := IndexOf(m, k');
      if a >= 0 {
        assert r[a] == m[a];
        GetAt(r, a);
        GetAt(m, a);
      } else {
        assert forall j :: 0 <= j < |r| ==> r[j].0 != k';
      }
    }
  }

  // ------------------------------------------------------------ formatting

  function DigitChar(d: int): char
    requires 0 <= d < 10
  {
    ('0' as int + d) as char
  }

  /** `str(n)` for a natural number. */
  function NatToString(n: nat): (s: string)
    ensures |s| >= 1
    ensures forall i :: 0 <= i < |s| ==> '0' <= s[i] <= '9'
    ensures |s| > 1 ==> s[0] != '0'
    decreases n
  {
    if n < 10 then [DigitChar(n)] else NatToString(n / 10) + [DigitChar(n % 10)]
  }

  /** `str(i)` for an integer. */
  function IntToString(i: int): string
  {
    if i < 0 then "-" + NatToString(-i) else NatToString(i)
  }

  /** What `f"{v}"` prints. */
  function Format(v: Value): string
  {
    match v
    case Int(i) => IntToString(i)
    case Str(s) => s
  }

  /** `int(s)` restricted to an optional '-' followed by decimal digits. */
  function ParseInt(s: string): Option<int>
  {
    if |s| > 0 && s[0] == '-' then
      match ParseNat(s[1..])
      case Some(n) => Some(-(n as int))
      case None => None
    else match ParseNat(s)
      case Some(n) => Some(n)
      case None => None
  }

  function ParseNat(s: string): Option<nat>
    decreases |s|
  {
    if |s| == 0 || !('0' <= s[|s| - 1] <= '9') then None
    else
      var d := s[|s| - 1] as int - '0' as int;
      if |s| == 1 then Some(d)
      else match ParseNat(s[..|s| - 1])
        case Some(n) => Some(n * 10 + d)
        case None => None
  }

  lemma {:induction false} ParseNatToString(n: nat)
    ensures ParseNat(NatToString(n)) == Some(n)
    decreases n
  {
    if n >= 10 {
      var s := NatToString(n);
      assert s[..|s| - 1] == NatToString(n / 10);
      ParseNatToString(n / 10);
    }
  }

  /** A stringified counter reads back as the same number. */
  lemma ParseIntToString(i: int)
    ensures ParseInt(IntToString(i)) == Some(i)
  {
    if i < 0 {
      ParseNegative(IntToString(i), -i);
    } else {
      ParseNatToString(i);
    }
  }

  lemma ParseNegative(s: string, n: nat)
    requires s == "-" + NatToString(n)
    ensures ParseInt(s) == Some(-(n as int))
  {
    assert s[1..] == NatToString(n);
    ParseNatToString(n);
  }

  // ------------------------------------------------------------ json.dumps

  function HexDigit(d: int): char
    requires 0 <= d < 16
  {
    if d < 10 then ('0' as int + d) as char else ('a' as int + d - 10) as char
  }

  /** Four lower-case hex digits of a 16-bit value. */
  function Hex4(n: int): (s: string)
    requires 0 <= n < 0x1_0000
    ensures |s| == 4
  {
    [HexDigit(n / 4096), HexDigit((n / 256) % 16), HexDigit((n / 16) % 16), HexDigit(n % 16)]
  }

  predicate IsAscii(s: string)
  {
    forall i :: 0 <= i < |s| ==> s[i] as int < 0x80
  }

  /** How `json.dumps` writes one character inside a string literal. */
  function EscapeChar(c: char): (e: string)
    ensures |e| >= 1 && IsAscii(e)
  {
    if c == '"' then "\\\""
    else if c == '\\' then "\\\\"
    else if c == '\n' then "\\n"
    else if c == '\r' then "\\r"
    else if c == '\t' then "\\t"
    else if c as int == 0x08 then "\\b"
    else if c as int == 0x0C then "\\f"
    else if ' ' <= c <= '~' then [c]
    else if c as int < 0x1_0000 then "\\u" + Hex4(c as int)
    else
      var v := c as int - 0x1_0000;
      "\\u" + Hex4(0xD800 + v / 1024) + "\\u" + Hex4(0xDC00 + v % 1024)
  }

  function Escape(s: string): (e: string)
    ensures IsAscii(e)
  {
    if |s| == 0 then "" else EscapeChar(s[0]) + Escape(s[1..])
  }

  function DumpsString(s: string): string
  {
    "\"" + Escape(s) + "\""
  }

  function DumpsValue(v: Value): string
  {
    match v
    case Int(i) => IntToString(i)
    case Str(s) => DumpsString(s)
  }

  function DumpsEntries(m: Message): string
    decreases |m|
  {
    if |m| == 0 then ""
    else
      var entry := DumpsString(m[0].0) + ": " + DumpsValue(m[0].1);
      if |m| == 1 then entry else entry + ", " + DumpsEntries(m[1..])
  }

  /** `json.dumps(m)`. */
  function Dumps(m: Message): string
  {
    "{" + DumpsEntries(m) + "}"
  }
}

=== FILE: pipeline.dfy ===
/** What the three queue-triggered functions share: their configuration, the
    queue sends they emit, the trace of calls they make into the status store
    and the outside world, and the Python exceptions they can run into.

    None of the functions reads the status store to decide what to do next, so
    an invocation is modelled in two parts. `Run` of each function is a pure
    function from its inputs (the message, what the outside world answers, what
    `random.randint` draws) to an `Outcome`: the sends and the calls it made, and
    whether `main` returned or an exception escaped its handler. `Effect` then
    replays the calls, in order, on the status store as it was before the
    invocation, through a new `StatusLog` object (empty cache) whose clock and
    stack-trace text are `ctx`. */
module Pipeline {
  import opened Wrappers
  import opened Json
  import opened StatusLog

  /** The environment settings the functions read at import time. */
  datatype Config = Config(
    pdfSubmitQueue: string,
    nonPdfSubmitQueue: string,
    pdfPollingQueue: string,
    chunksQueue: string,
    maxSecondsHideOnUpload: int,
    maxSubmitRequeueCount: int,
    maxPollingRequeueCount: int,
    submitRequeueHideSeconds: int,
    pollingBackoff: int,
    maxReadAttempts: int,
    mergedChunkTargetSize: int,
    systemMessage: string)

  /** `send_message(json.dumps(body), visibility_timeout = delay)` on `queue`. */
  datatype Send = Send(queue: string, body: Message, delay: int)

  /** One call an invocation makes, with its arguments, in the order it makes them. */
  datatype Call =
    | Upserted(path: string, status: string, cls: StatusClassification, state: State, freshStart: bool,
               chunkCount: Option<int>, mergedChunkCount: Option<int>)
    | Saved(path: string)
    | ChunkLogged(filePath: string, chunkName: string, chunkState: State, info: string)
    | OutputLogged(filePath: string, chunkName: string, llmOutput: string, outputFile: string, userId: string,
                   promptId: Value, completionTokens: int, promptTokens: int, totalTokens: int)
    | FanInChecked(path: string)
    | Polled(url: string, key: string)
    | Posted(systemContent: string, userContent: string)

  /** Everything an invocation has done so far. */
  datatype Fx = Fx(sends: seq<Send>, calls: seq<Call>)

  /** The result of a call into code outside the model: a value, or the text of
      the exception it raised. */
  datatype Attempt<T> = Done(value: T) | Failed(err: string)

  /** How far the `try` block got: to its end, or to an exception. */
  datatype Try = Normal(fx: Fx) | Raised(fx: Fx, err: string)

  /** How `main` ended. A crash is an exception escaping the `except` block; the
      store writes already made stand, the cache is lost. */
  datatype Outcome = Finished(fx: Fx) | Crashed(fx: Fx, err: string)
  {
    function Effects(): Fx
    {
      match this
      case Finished(fx) => fx
      case Crashed(fx, _) => fx
    }
  }

  /** Nothing sent, nothing called. */
  const Start: Fx := Fx([], [])

  // ------------------------------------------------------------ effects

  function DoCall(fx: Fx, c: Call): Fx
  {
    fx.(calls := fx.calls + [c])
  }

  function DoSend(fx: Fx, queue: string, body: Message, delay: int): Fx
  {
    fx.(sends := fx.sends + [Send(queue, body, delay)])
  }

  /** `upsert_document` without a fresh start. */
  function Stage(fx: Fx, path: string, status: string, cls: StatusClassification, state: State,
                 chunkCount: Option<int>, mergedChunkCount: Option<int>): Fx
  {
    DoCall(fx, Upserted(path, status, cls, state, false, chunkCount, mergedChunkCount))
  }

  /** `upsert_document` with the default state, Processing. */
  function Note(fx: Fx, path: string, status: string, cls: StatusClassification): Fx
  {
    Stage(fx, path, status, cls, Processing, None, None)
  }

  // ------------------------------------------------------------ replaying the calls on the store

  /** One call on the status store. Upserts read the store without a fault. A save
      without a staged record raises in the source; no trace of the three
      functions makes one (each saves only a path it has upserted), and here it
      changes nothing. */
  function Apply(log: Log, c: Call, ctx: Ctx): Log
  {
    match c
    case Upserted(path, status, cls, state, freshStart, chunkCount, mergedChunkCount) =>
      Upsert(log, path, status, cls, state, freshStart, chunkCount, mergedChunkCount, ctx, false)
    case Saved(path) => if IsStaged(log, path) then Save(log, path).value else log
    case ChunkLogged(filePath, chunkName, chunkState, info) =>
      CreateChunkLogEntry(log, filePath, chunkName, chunkState, info, ctx)
    case OutputLogged(filePath, chunkName, llmOutput, outputFile, userId, promptId, completionTokens, promptTokens, totalTokens) =>
      CreateLlmOutputEntry(log, filePath, chunkName, llmOutput, outputFile, userId, promptId,
                           completionTokens, promptTokens, totalTokens, ctx)
    case FanInChecked(path) => MarkDocumentProcessingComplete(log, path, ctx)
    case Polled(_, _) => log
    case Posted(_, _) => log
  }

  /** The calls applied in order, read from the last one back. */
  function Replay(log: Log, calls: seq<Call>, ctx: Ctx): Log
    decreases |calls|
  {
    if |calls| == 0 then log else Apply(Replay(log, calls[..|calls| - 1], ctx), calls[|calls| - 1], ctx)
  }

  /** The store and cache after an invocation's calls, made through a new
      `StatusLog` object over `store`. */
  function Effect(store: Store, calls: seq<Call>, ctx: Ctx): Log
  {
    Replay(Log(store, map[]), calls, ctx)
  }

  lemma ReplaySnoc(log: Log, calls: seq<Call>, c: Call, ctx: Ctx)
    ensures Replay(log, calls + [c], ctx) == Apply(Replay(log, calls, ctx), c, ctx)
  {
    assert (calls + [c])[..|calls|] == calls;
  }

  /** Replaying two traces one after the other is replaying their concatenation. */
  lemma {:induction false} ReplayAppend(log: Log, a: seq<Call>, b: seq<Call>, ctx: Ctx)
    ensures Replay(log, a + b, ctx) == Replay(Replay(log, a, ctx), b, ctx)
    decreases |b|
  {
    if |b| == 0 {
      assert a + b == a;
    } else {
      var init := b[..|b| - 1];
      ReplayAppend(log, a, init, ctx);
      assert (a + b)[..|a + b| - 1] == a + init;
      assert (a + b)[|a + b| - 1] == b[|b| - 1];
    }
  }

  /** A call that only stages or talks to the outside world: an upsert without a
      fresh start, a poll, a completion request. */
  predicate Stages(c: Call)
  {
    (c.Upserted? && !c.freshStart) || c.Polled? || c.Posted?
  }

  predicate StagesOnly(calls: seq<Call>)
  {
    forall i :: 0 <= i < |calls| ==> Stages(calls[i])
  }

  lemma StagesAppend(a: seq<Call>, b: seq<Call>)
    requires StagesOnly(a) && StagesOnly(b)
    ensures StagesOnly(a + b)
  {
    assert forall i :: |a| <= i < |a + b| ==> (a + b)[i] == b[i - |a|];
  }

  lemma StagesNoSave(calls: seq<Call>)
    requires StagesOnly(calls)
    ensures NoSave(calls)
  {
    assert forall i :: 0 <= i < |calls| ==> Stages(calls[i]);
  }

  /** Calls that only stage never write the store, never unstage a record, and keep
      the record staged for `path` the file log of `path`. */
  lemma {:induction false} ReplayStages(log: Log, calls: seq<Call>, path: string, ctx: Ctx)
    requires StagesOnly(calls)
    ensures Replay(log, calls, ctx).store == log.store
    ensures IsStaged(log, path) ==> IsStaged(Replay(log, calls, ctx), path)
    ensures CanOwn(log, path) ==> CanOwn(Replay(log, calls, ctx), path)
    decreases |calls|
  {
    if |calls| > 0 {
      var init := calls[..|calls| - 1];
      var c := calls[|calls| - 1];
      assert StagesOnly(init) by {
        assert forall i :: 0 <= i < |init| ==> init[i] == calls[i];
      }
      assert Stages(c);
      ReplayStages(log, init, path, ctx);
      var before := Replay(log, init, ctx);
      if c.Upserted? {
        UpsertOwns(before, c.path, c.status, c.cls, c.state, false, c.chunkCount, c.mergedChunkCount, ctx, false);
        if c.path != path {
          var after := Apply(before, c, ctx);
          assert IsStaged(after, path) <==> IsStaged(before, path);
          if IsStaged(before, path) {
            assert after.cache[path] == before.cache[path];
          }
        }
      }
    }
  }

  /** A trace that only stages and ends with an upsert of `path`, followed by the
      save of `path`: the record saved is the file log of `path` in the state the
      last upsert asked for, and it is the only store write. */
  lemma StagedThenSaved(store: Store, pre: seq<Call>, path: string, ctx: Ctx)
    requires CanOwn(Log(store, map[]), path)
    requires StagesOnly(pre) && |pre| >= 1
    requires pre[|pre| - 1].Upserted? && pre[|pre| - 1].path == path
    ensures var staged := Effect(store, pre, ctx);
      && Owns(staged, path)
      && staged.cache[path].doc.state == pre[|pre| - 1].state
      && Effect(store, pre + [Saved(path)], ctx).store == store[DocumentKey(path) := staged.cache[path].doc]
  {
    var log0 := Log(store, map[]);
    ReplayStages(log0, pre, path, ctx);
    var staged := Effect(store, pre, ctx);
    var init := pre[..|pre| - 1];
    assert pre == init + [pre[|pre| - 1]];
    ReplaySnoc(log0, init, pre[|pre| - 1], ctx);
    ReplaySnoc(log0, pre, Saved(path), ctx);
  }

  // ------------------------------------------------------------ Python semantics

  /** The text of Python's `UnboundLocalError` for `name`. */
  function Unbound(name: string): string
  {
    "local variable '" + name + "' referenced before assignment"
  }

  /** The text of a `KeyError` for a missing string key: its repr. */
  function KeyError(key: string): string
  {
    "'" + key + "'"
  }

  const StrIntComparison: string := "'<' not supported between instances of 'str' and 'int'"
  const IndexOutOfRange: string := "list index out of range"
  const StrIndex: string := "list indices must be integers or slices, not str"

  /** The `ValueError` of `random.randint(lo, hi)` when `hi < lo`. */
  function EmptyRandRange(lo: int, hi: int): string
  {
    "empty range for randrange() (" + IntToString(lo) + ", " + IntToString(hi + 1) + ", "
      + IntToString(hi + 1 - lo) + ")"
  }

  /** `v < bound` for a message value and an integer setting. */
  function Less(v: Value, bound: int): (r: Attempt<bool>)
    ensures v.Int? <==> r.Done?
    ensures v.Int? ==> (r.value <==> v.i < bound)
  {
    match v
    case Int(i) => Done(i < bound)
    case Str(_) => Failed(StrIntComparison)
  }

  /** `xs[v]` for a message value: negative indices count from the end. */
  function ListIndex<T>(xs: seq<T>, v: Value): (r: Attempt<T>)
    ensures r.Done? <==> v.Int? && -|xs| <= v.i < |xs|
    ensures r.Done? && v.i >= 0 ==> r.value == xs[v.i]
    ensures r.Done? && v.i < 0 ==> r.value == xs[|xs| + v.i]
  {
    match v
    case Str(_) => Failed(StrIndex)
    case Int(i) =>
      if 0 <= i < |xs| then Done(xs[i])
      else if -|xs| <= i < 0 then Done(xs[|xs| + i])
      else Failed(IndexOutOfRange)
  }

  /** How many of `keys`, read in order with `message[key]`, are read before the
      first `KeyError`: exactly the names bound when the exception is raised. */
  function BoundCount(message: Message, keys: seq<string>): (n: nat)
    ensures n <= |keys|
    ensures forall i :: 0 <= i < n ==> Get(message, keys[i]).Some?
    ensures n < |keys| ==> Get(message, keys[n]).None?
    decreases |keys|
  {
    if |keys| == 0 || Get(message, keys[0]).None? then 0
    else 1 + BoundCount(message, keys[1..])
  }

  /** The values of `keys`, or the `KeyError` of the first missing one. */
  function Decode(message: Message, keys: seq<string>): (r: Attempt<seq<Value>>)
    ensures r.Done? <==> BoundCount(message, keys) == |keys|
    ensures r.Done? ==> |r.value| == |keys| && forall i :: 0 <= i < |keys| ==> Get(message, keys[i]) == Some(r.value[i])
    ensures r.Failed? ==> r.err == KeyError(keys[BoundCount(message, keys)])
  {
    if BoundCount(message, keys) < |keys| then Failed(KeyError(keys[BoundCount(message, keys)]))
    else Done(seq(|keys|, i requires 0 <= i < |keys| => Get(message, keys[i]).value))
  }

  /** Keys that all read as `vs` decode to `vs`. */
  lemma DecodeAll(message: Message, keys: seq<string>, vs: seq<Value>)
    requires |vs| == |keys|
    requires forall i :: 0 <= i < |keys| ==> Get(message, keys[i]) == Some(vs[i])
    ensures Decode(message, keys) == Done(vs)
  {
    assert Decode(message, keys).value == vs;
  }

  /** No `save_document` call in a trace. */
  predicate NoSave(calls: seq<Call>)
  {
    forall i :: 0 <= i < |calls| ==> !calls[i].Saved?
  }

  /** The trace ends with the one and only save, and that save is of `path`. */
  predicate SavedOnceAtEnd(calls: seq<Call>, path: string)
  {
    |calls| >= 1 && calls[|calls| - 1] == Saved(path) && NoSave(calls[..|calls| - 1])
  }

  lemma NoSaveAppend(a: seq<Call>, b: seq<Call>)
    requires NoSave(a) && NoSave(b)
    ensures NoSave(a + b)
  {
    assert forall i :: |a| <= i < |a + b| ==> (a + b)[i] == b[i - |a|];
  }

  lemma SaveLast(pre: seq<Call>, path: string)
    requires NoSave(pre)
    ensures SavedOnceAtEnd(pre + [Saved(path)], path)
  {
    assert (pre + [Saved(path)])[..|pre|] == pre;
  }

  /** The sends of a trace that go to `queue`. */
  function SendsTo(sends: seq<Send>, queue: string): (r: seq<Send>)
    ensures |r| <= |sends|
    ensures forall s :: s in r <==> s in sends && s.queue == queue
  {
    if |sends| == 0 then []
    else (if sends[0].queue == queue then [sends[0]] else []) + SendsTo(sends[1..], queue)
  }

  /** A counter that moves by exactly one per requeue and is checked against
      `limit` before each one is bounded: a chain of messages in which every step
      requeues has at most `limit - c0` steps after the first message. */
  lemma {:induction false} RequeueChainBounded(counts: seq<int>, limit: int)
    requires |counts| >= 1
    requires forall i :: 0 <= i < |counts| - 1 ==> counts[i] < limit && counts[i + 1] == counts[i] + 1
    ensures |counts| - 1 <= limit - counts[0] || |counts| == 1
    ensures forall i :: 0 <= i < |counts| ==> counts[i] == counts[0] + i
    decreases |counts|
  {
    if |counts| > 1 {
      assert forall i :: 0 <= i < |counts| - 1 ==> counts[1..][i] == counts[i + 1];
      RequeueChainBounded(counts[1..], limit);
    }
  }
}

=== FILE: poll_document_intel_chunk.dfy ===
/** The polling state machine for PDF uploads. Each message names a Document
    Intelligence result; the function polls it once and, by the answer:
    - succeeded: records the map/chunk/merge steps, sends one chunk message per
      merged chunk and marks the document Queued with its chunk counts;
    - running: requeues the same message with the polling counter raised by one
      and a quadratic backoff, until the counter reaches `max_read_attempts`;
    - any other status: resubmits the message to the submit queue with the submit
      counter raised by one, until that counter reaches `max_submit_requeue_count`;
    - any other HTTP code that does not raise: marks the document Error; an HTTP
      error that `durable_get` raises leaves `response` unbound, so the handler
      itself crashes.
    The record is saved once, at the end. */
module PollDocumentIntelChunk {
  import opened Wrappers
  import opened Json
  import opened StatusLog
  import opened Pipeline

  const FunctionName: string := "PollDocumentIntelChunk"
  const FrModel: string := "prebuilt-layout"

  /** The keys read at lines 75-81, in the order they are read. */
  const MessageKeys: seq<string> :=
    ["blob_name", "blob_uri", "FR_resultId", "FR_API_List_idx", "polling_queue_count", "submit_queued_count", "prompt_id"]

  /** The message fields once all are bound and `blob_name` is a string. */
  datatype Fields = Fields(
    blobName: string, blobUri: Value, resultId: Value, idx: Value,
    pollCount: Value, submitCount: Value, promptId: Value)

  /** How `durable_get` ends: with an exception (a transport error, or
      `raise_for_status` on a 4xx or 5xx code after the last attempt), or with a
      response: its code, the `status` of its JSON body if there is one, and its
      text. */
  datatype Answer = NoResponse(err: string) | Answered(code: int, status: Option<Value>, text: string)

  /** When `durable_get` raises, `response` is never bound. */
  predicate GetRaises(a: Answer)
  {
    a.NoResponse? || 400 <= a.code < 600
  }

  /** What `build_merged_chunks` returns: the merged count and the (name, uri) of
      every merged chunk. */
  datatype Merge = Merge(count: int, paths: seq<(string, string)>)

  /** What the blob utilities return or raise on the succeeded path: writing the
      raw output, building the document map, chunking (the chunk count) and
      merging. */
  datatype Analysis = Analysis(written: Attempt<()>, mapped: Attempt<()>, chunks: Attempt<int>, merged: Attempt<Merge>)

  /** The delays drawn by `random.randint(1, max_seconds_hide_on_upload)`, one per
      merged chunk, each within its range when the range is not empty. */
  predicate DelaysFit(cfg: Config, analysis: Analysis, delays: seq<int>)
  {
    && (analysis.merged.Done? ==> |delays| == |analysis.merged.value.paths|)
    && (cfg.maxSecondsHideOnUpload >= 1 ==> forall i :: 0 <= i < |delays| ==> 1 <= delays[i] <= cfg.maxSecondsHideOnUpload)
  }

  /** Lines 75-81: every key present and a string `blob_name`, or nothing. */
  function Parse(message: Message): (r: Option<Fields>)
    ensures r.Some? <==> Decode(message, MessageKeys).Done? && Get(message, "blob_name").value.Str?
    ensures r.Some? ==>
      && Get(message, "blob_name") == Some(Str(r.value.blobName))
      && Get(message, "blob_uri") == Some(r.value.blobUri)
      && Get(message, "FR_resultId") == Some(r.value.resultId)
      && Get(message, "FR_API_List_idx") == Some(r.value.idx)
      && Get(message, "polling_queue_count") == Some(r.value.pollCount)
      && Get(message, "submit_queued_count") == Some(r.value.submitCount)
      && Get(message, "prompt_id") == Some(r.value.promptId)
  {
    match Decode(message, MessageKeys)
    case Failed(_) => None
    case Done(vs) =>
      assert Get(message, MessageKeys[0]) == Some(vs[0]);
      if vs[0].Str? then
        assert Get(message, MessageKeys[1]) == Some(vs[1]) && Get(message, MessageKeys[2]) == Some(vs[2]);
        assert Get(message, MessageKeys[3]) == Some(vs[3]) && Get(message, MessageKeys[4]) == Some(vs[4]);
        assert Get(message, MessageKeys[5]) == Some(vs[5]) && Get(message, MessageKeys[6]) == Some(vs[6]);
        Some(Fields(vs[0].s, vs[1], vs[2], vs[3], vs[4], vs[5], vs[6]))
      else None
  }

  /** The analyze-results URL of line 96. */
  function ResultUrl(endpoint: string, resultId: Value): string
  {
    endpoint + "formrecognizer/documentModels/" + FrModel + "/analyzeResults/" + Format(resultId)
  }

  /** Whether the poll is sent and answered: the message decodes, the submitted
      index selects a key and an endpoint, and `durable_get` returns. */
  predicate Reached(message: Message, keyList: seq<string>, endpointList: seq<string>, answer: Answer)
  {
    && Parse(message).Some?
    && ListIndex(keyList, Parse(message).value.idx).Done?
    && ListIndex(endpointList, Parse(message).value.idx).Done?
    && !GetRaises(answer)
  }

  // ------------------------------------------------------------ steps

  const ReceivedPrefix: string := FunctionName + " - Message received from pdf polling queue attempt "

  function ReceivedStatus(pollCount: Value): string
  {
    ReceivedPrefix + Format(pollCount)
  }

  const StartedNote: string := FunctionName + " - Polling Form Recognizer function started"

  /** Lines 82-83: the received note, with the message's polling count as
      formatted, and the start note. */
  function OpeningCalls(f: Fields): seq<Call>
  {
    [Upserted(f.blobName, ReceivedStatus(f.pollCount), Debug, Processing, false, None, None),
     Upserted(f.blobName, StartedNote, Info, Processing, false, None, None)]
  }

  function Opened(f: Fields): Fx
  {
    Fx([], OpeningCalls(f))
  }

  /** Lines 86-100 up to the answer: the poll goes to the endpoint and key at the
      submitted index. */
  function Queried(f: Fields, keyList: seq<string>, endpointList: seq<string>): Fx
    requires ListIndex(keyList, f.idx).Done? && ListIndex(endpointList, f.idx).Done?
  {
    DoCall(Opened(f), Polled(ResultUrl(ListIndex(endpointList, f.idx).value, f.resultId), ListIndex(keyList, f.idx).value))
  }

  /** The chunk message of lines 150-160: every field but the count and the prompt
      id is formatted as a string. */
  function ChunkMessage(f: Fields, path: (string, string)): Message
  {
    [("blob_name", Str(f.blobName)),
     ("blob_uri", Str(Format(f.blobUri))),
     ("submit_queued_count", Str(Format(f.submitCount))),
     ("FR_resultId", Str(Format(f.resultId))),
     ("polling_queue_count", Str(Format(f.pollCount))),
     ("chunk_name", Str(path.0)),
     ("chunk_blob_uri", Str(path.1)),
     ("chunk_queued_count", Int(1)),
     ("prompt_id", f.promptId)]
  }

  /** The loop of lines 143-163: one send per merged chunk, in order. */
  function ChunkSends(cfg: Config, f: Fields, paths: seq<(string, string)>, delays: seq<int>): (r: seq<Send>)
    requires |delays| == |paths|
    ensures |r| == |paths|
    ensures forall i :: 0 <= i < |r| ==> r[i].queue == cfg.chunksQueue && r[i].delay == delays[i]
  {
    seq(|paths|, i requires 0 <= i < |paths| => Send(cfg.chunksQueue, ChunkMessage(f, paths[i]), delays[i]))
  }

  const MergedPrefix: string := FunctionName + " - Chunk merging complete, "
  const MergedInfix: string := " merged chunks created with MERGED_CHUNK_TARGET_SIZE "

  function MergedNote(cfg: Config, mergedCount: int): string
  {
    MergedPrefix + IntToString(mergedCount) + MergedInfix + IntToString(cfg.mergedChunkTargetSize) + "."
  }

  const FanOutInfix: string := " merged chunks sent to chunks queue, prompt_id "

  function FanOutStatus(mergedCount: int, promptId: Value): string
  {
    FunctionName + " - " + IntToString(mergedCount) + FanOutInfix + Format(promptId) + "."
  }

  /** Lines 135-166 after chunking: the merge note, the fan-out and the Queued
      status with both counts. */
  function FanOut(cfg: Config, fx: Fx, f: Fields, chunkCount: int, merged: Attempt<Merge>, delays: seq<int>): Try
    requires merged.Done? ==> |delays| == |merged.value.paths|
  {
    match merged
    case Failed(err) => Raised(fx, err)
    case Done(m) =>
      var fx1 := Note(fx, f.blobName, MergedNote(cfg, m.count), Debug);
      if |m.paths| > 0 && cfg.maxSecondsHideOnUpload < 1 then
        Raised(fx1, EmptyRandRange(1, cfg.maxSecondsHideOnUpload))
      else
        var sent := fx1.(sends := fx1.sends + ChunkSends(cfg, f, m.paths, delays));
        Normal(Stage(sent, f.blobName, FanOutStatus(m.count, f.promptId), Debug, Queued, Some(chunkCount), Some(m.count)))
  }

  const ResultsNote: string := FunctionName + " - Form Recognizer has completed processing and the analyze results have been received"
  const MapStartNote: string := FunctionName + " - Starting document map build"
  const MapDoneNote: string := FunctionName + " - Document map build complete"
  const ChunkStartNote: string := FunctionName + " - Starting chunking"
  const MergeStartNote: string := FunctionName + " - Starting chunk merging"

  const ChunkDonePrefix: string := FunctionName + " - Chunking complete, "

  function ChunkDoneNote(chunkCount: int): string
  {
    ChunkDonePrefix + IntToString(chunkCount) + " chunks created."
  }

  /** The calls a run of Debug notes makes: one upsert per status, in order, each
      with the default state. */
  function NoteCalls(name: string, statuses: seq<string>): (r: seq<Call>)
    ensures |r| == |statuses|
    ensures forall i :: 0 <= i < |r| ==> r[i] == Upserted(name, statuses[i], Debug, Processing, false, None, None)
  {
    seq(|statuses|, i requires 0 <= i < |statuses| => Upserted(name, statuses[i], Debug, Processing, false, None, None))
  }

  function Notes(fx: Fx, name: string, statuses: seq<string>): Fx
  {
    fx.(calls := fx.calls + NoteCalls(name, statuses))
  }

  /** The Debug notes of lines 108-135 that are written before the first step that
      raises, in order. */
  function SucceededNotes(analysis: Analysis): seq<string>
  {
    if analysis.written.Failed? then [ResultsNote]
    else if analysis.mapped.Failed? then [ResultsNote, MapStartNote]
    else if analysis.chunks.Failed? then [ResultsNote, MapStartNote, MapDoneNote, ChunkStartNote]
    else [ResultsNote, MapStartNote, MapDoneNote, ChunkStartNote, ChunkDoneNote(analysis.chunks.value), MergeStartNote]
  }

  /** The exception of the first step of lines 113-123 that raises, if any. */
  function SucceededError(analysis: Analysis): (r: Option<string>)
    ensures r.None? <==> analysis.written.Done? && analysis.mapped.Done? && analysis.chunks.Done?
  {
    if analysis.written.Failed? then Some(analysis.written.err)
    else if analysis.mapped.Failed? then Some(analysis.mapped.err)
    else if analysis.chunks.Failed? then Some(analysis.chunks.err)
    else None
  }

  /** Lines 108-166: the notes up to the first failing step, then the fan-out. */
  function Succeeded(cfg: Config, fx: Fx, f: Fields, analysis: Analysis, delays: seq<int>): Try
    requires DelaysFit(cfg, analysis, delays)
  {
    var fx1 := Notes(fx, f.blobName, SucceededNotes(analysis));
    match SucceededError(analysis)
    case Some(err) => Raised(fx1, err)
    case None => FanOut(cfg, fx1, f, analysis.chunks.value, analysis.merged, delays)
  }

  /** The delay of lines 171-172 for a message polled `count` times. */
  function PollingDelay(cfg: Config, count: int, jitter: int): int
  {
    cfg.pollingBackoff * (count * count) + jitter
  }

  const RequeuePrefix: string := FunctionName + " - FR has not completed processing, requeuing. Polling back off of attempt "

  function RequeueStatus(cfg: Config, attempt: int, backoff: int): string
  {
    RequeuePrefix + IntToString(attempt)
      + " of " + IntToString(cfg.maxPollingRequeueCount) + " for " + IntToString(backoff) + " seconds"
  }

  const CeilingStatus: string := FunctionName + " - maximum submissions to FR reached"

  /** Lines 168-180. The ceiling is `max_read_attempts`; `max_polling_requeue_count`
      only appears in the status text. */
  function Running(cfg: Config, fx: Fx, f: Fields, message: Message, jitter: int): Try
    requires DistinctKeys(message)
  {
    match Less(f.pollCount, cfg.maxReadAttempts)
    case Failed(err) => Raised(fx, err)
    case Done(below) =>
      if below then
        var count := f.pollCount.i + 1;
        var backoff := PollingDelay(cfg, f.pollCount.i, jitter);
        var fx1 := Stage(fx, f.blobName, RequeueStatus(cfg, count, backoff), Debug, Queued, None, None);
        Normal(DoSend(fx1, cfg.pdfPollingQueue, Put(message, "polling_queue_count", Int(count)), backoff))
      else
        Normal(Stage(fx, f.blobName, CeilingStatus, StatusClassification.Error, State.Error, None, None))
  }

  const UnhandledPrefix: string := FunctionName + " - unhandled response from Form Recognizer- code: "
  const UnhandledSuffix: string := ". Document will be resubmitted"

  function UnhandledStatus(code: int, status: Value, text: string): string
  {
    UnhandledPrefix + IntToString(code) + " status: " + Format(status) + " - text: " + text + UnhandledSuffix
  }

  const ResentPrefix: string := FunctionName + " file resent to submit queue. Visible in "

  function ResentStatus(cfg: Config): string
  {
    ResentPrefix + IntToString(cfg.submitRequeueHideSeconds) + " seconds"
  }

  /** Lines 181-192: any other status sends the message back to the submit queue. */
  function Resubmit(cfg: Config, fx: Fx, f: Fields, message: Message, code: int, status: Value, text: string): Try
    requires DistinctKeys(message)
  {
    match Less(f.submitCount, cfg.maxSubmitRequeueCount)
    case Failed(err) => Raised(fx, err)
    case Done(below) =>
      if below then
        var fx1 := Note(fx, f.blobName, UnhandledStatus(code, status, text), StatusClassification.Error);
        var fx2 := DoSend(fx1, cfg.pdfSubmitQueue, Put(message, "submit_queued_count", Int(f.submitCount.i + 1)), cfg.submitRequeueHideSeconds);
        Normal(Stage(fx2, f.blobName, ResentStatus(cfg), Debug, Throttled, None, None))
      else
        Normal(Stage(fx, f.blobName, CeilingStatus, StatusClassification.Error, State.Error, None, None))
  }

  const PollingErrorStatus: string := FunctionName + " - Error raised by FR polling"

  /** Lines 103-195, on a response `durable_get` returned. */
  function Respond(cfg: Config, fx: Fx, f: Fields, message: Message, answer: Answer,
                   analysis: Analysis, jitter: int, delays: seq<int>): Try
    requires answer.Answered? && DistinctKeys(message) && DelaysFit(cfg, analysis, delays)
  {
    if answer.code != 200 then
      Normal(Stage(fx, f.blobName, PollingErrorStatus, StatusClassification.Error, State.Error, None, None))
    else
      match answer.status
      case None => Raised(fx, KeyError("status"))
      case Some(status) =>
        if status == Str("succeeded") then Succeeded(cfg, fx, f, analysis, delays)
        else if status == Str("running") then Running(cfg, fx, f, message, jitter)
        else Resubmit(cfg, fx, f, message, answer.code, status, answer.text)
  }

  const ErrorPrefix: string := FunctionName + " - An error occurred - code: "

  function ErrorStatus(code: int, err: string): string
  {
    ErrorPrefix + IntToString(code) + " - " + err
  }

  /** Lines 197-199: with `response` bound, an exception is logged as Error. */
  function Handle(tried: Try, name: string, code: int): Fx
  {
    match tried
    case Normal(fx) => fx
    case Raised(fx, err) => Stage(fx, name, ErrorStatus(code, err), StatusClassification.Error, State.Error, None, None)
  }

  /** What the try block of `main` did before it raised, for a poll that is not
      reached: nothing when a field was unreadable, the opening notes when the
      index was out of range, and those and the poll when the poll raised. */
  function Attempted(message: Message, keyList: seq<string>, endpointList: seq<string>): Fx
  {
    match Parse(message)
    case None => Start
    case Some(f) =>
      if ListIndex(keyList, f.idx).Failed? || ListIndex(endpointList, f.idx).Failed? then Opened(f)
      else Queried(f, keyList, endpointList)
  }

  /** The name the handler finds unbound: it reads `blob_name` first, then `response`. */
  function CrashError(message: Message): string
  {
    if Parse(message).None? && BoundCount(message, MessageKeys) == 0 then Unbound("blob_name") else Unbound("response")
  }

  /** `main` for one polling message. `keyList` and `endpointList` are what
      `get_document_intel_endpoint` returns, `answer` is how `durable_get` ends,
      `analysis` what the blob utilities return, `jitter` the draw of
      `random.randint(0, 10)` and `delays` the fan-out draws. Every exception
      before the answer is handled leaves `response` unbound, so the handler
      itself raises. */
  function Run(cfg: Config, message: Message, keyList: seq<string>, endpointList: seq<string>,
               answer: Answer, analysis: Analysis, jitter: int, delays: seq<int>): Outcome
    requires DistinctKeys(message)
    requires 0 <= jitter <= 10
    requires DelaysFit(cfg, analysis, delays)
  {
    if !Reached(message, keyList, endpointList, answer) then
      Crashed(Attempted(message, keyList, endpointList), CrashError(message))
    else
      var f := Parse(message).value;
      var tried := Respond(cfg, Queried(f, keyList, endpointList), f, message, answer, analysis, jitter, delays);
      Finished(DoCall(Handle(tried, f.blobName, answer.code), Saved(f.blobName)))
  }

  // ------------------------------------------------------------ the branches

  /** Lines 168-178: below the ceiling, a running analysis stages Queued with the
      requeue note and sends the message back to the polling queue with its
      counter raised by exactly one, after the quadratic backoff plus the jitter. */
  lemma RunningRequeues(cfg: Config, fx: Fx, f: Fields, message: Message, jitter: int)
    requires DistinctKeys(message)
    requires f.pollCount.Int? && f.pollCount.i < cfg.maxReadAttempts
    ensures var t := Running(cfg, fx, f, message, jitter);
      var c := f.pollCount.i;
      && t.Normal?
      && t.fx.sends == fx.sends + [Send(cfg.pdfPollingQueue, Put(message, "polling_queue_count", Int(c + 1)), PollingDelay(cfg, c, jitter))]
      && t.fx.calls == fx.calls + [Upserted(f.blobName, RequeueStatus(cfg, c + 1, PollingDelay(cfg, c, jitter)), Debug, Queued, false, None, None)]
  {
  }

  /** Lines 179-180: at or above `max_read_attempts` nothing is sent and the
      document is staged Error. */
  lemma RunningAtCeiling(cfg: Config, fx: Fx, f: Fields, message: Message, jitter: int)
    requires DistinctKeys(message)
    requires f.pollCount.Int? && f.pollCount.i >= cfg.maxReadAttempts
    ensures var t := Running(cfg, fx, f, message, jitter);
      && t.Normal?
      && t.fx.sends == fx.sends
      && t.fx.calls == fx.calls + [Upserted(f.blobName, CeilingStatus, StatusClassification.Error, State.Error, false, None, None)]
  {
  }

  /** Line 170 on a counter that is not a number: the comparison raises before
      anything happens. */
  lemma RunningOnText(cfg: Config, fx: Fx, f: Fields, message: Message, jitter: int)
    requires DistinctKeys(message)
    requires f.pollCount.Str?
    ensures Running(cfg, fx, f, message, jitter) == Raised(fx, StrIntComparison)
  {
  }

  /** Lines 183-190: below the submit ceiling, any other status logs the Error note,
      sends the message to the submit queue with its submit counter raised by
      exactly one and its polling counter and every other field left alone, and
      stages Throttled. */
  lemma ResubmitRequeues(cfg: Config, fx: Fx, f: Fields, message: Message, code: int, status: Value, text: string)
    requires DistinctKeys(message)
    requires f.submitCount.Int? && f.submitCount.i < cfg.maxSubmitRequeueCount
    ensures var t := Resubmit(cfg, fx, f, message, code, status, text);
      var body := Put(message, "submit_queued_count", Int(f.submitCount.i + 1));
      && t.Normal?
      && t.fx.sends == fx.sends + [Send(cfg.pdfSubmitQueue, body, cfg.submitRequeueHideSeconds)]
      && t.fx.calls == fx.calls
           + [Upserted(f.blobName, UnhandledStatus(code, status, text), StatusClassification.Error, Processing, false, None, None)]
           + [Upserted(f.blobName, ResentStatus(cfg), Debug, Throttled, false, None, None)]
  {
    assert Less(f.submitCount, cfg.maxSubmitRequeueCount) == Done(true);
  }

  /** Lines 191-192: at or above `max_submit_requeue_count` nothing is sent and the
      document is staged Error. */
  lemma ResubmitAtCeiling(cfg: Config, fx: Fx, f: Fields, message: Message, code: int, status: Value, text: string)
    requires DistinctKeys(message)
    requires f.submitCount.Int? && f.submitCount.i >= cfg.maxSubmitRequeueCount
    ensures var t := Resubmit(cfg, fx, f, message, code, status, text);
      && t.Normal?
      && t.fx.sends == fx.sends
      && t.fx.calls == fx.calls + [Upserted(f.blobName, CeilingStatus, StatusClassification.Error, State.Error, false, None, None)]
  {
  }

  /** Line 183 on a counter that is not a number: the comparison raises before
      anything happens. */
  lemma ResubmitOnText(cfg: Config, fx: Fx, f: Fields, message: Message, code: int, status: Value, text: string)
    requires DistinctKeys(message)
    requires f.submitCount.Str?
    ensures Resubmit(cfg, fx, f, message, code, status, text) == Raised(fx, StrIntComparison)
  {
  }

  /** The chunk message carries the chunk's name and uri from the merged path, a
      chunk counter of 1 and the prompt id as it came; the document's counters are
      passed on as text. */
  lemma ChunkMessageFields(f: Fields, path: (string, string))
    ensures var m := ChunkMessage(f, path);
      && Get(m, "blob_name") == Some(Str(f.blobName))
      && Get(m, "chunk_name") == Some(Str(path.0))
      && Get(m, "chunk_blob_uri") == Some(Str(path.1))
      && Get(m, "chunk_queued_count") == Some(Int(1))
      && Get(m, "prompt_id") == Some(f.promptId)
      && Get(m, "polling_queue_count") == Some(Str(Format(f.pollCount)))
      && Get(m, "submit_queued_count") == Some(Str(Format(f.submitCount)))
  {
    var m := ChunkMessage(f, path);
    ChunkMessageDistinct(f, path);
    GetAt(m, 0);
    GetAt(m, 2);
    GetAt(m, 4);
    GetAt(m, 5);
    GetAt(m, 6);
    GetAt(m, 7);
    GetAt(m, 8);
  }

  /** The chunk message is a dict: its nine keys are distinct. */
  lemma ChunkMessageDistinct(f: Fields, path: (string, string))
    ensures DistinctKeys(ChunkMessage(f, path))
  {
    var m := ChunkMessage(f, path);
    assert forall i :: 0 <= i < |m| ==> |m[i].0| == [9, 8, 19, 11, 19, 10, 14, 18, 9][i];
    assert m[0].0[0] != m[8].0[0] && m[2].0[0] != m[4].0[0];
  }

  /** Lines 143-163: one send per merged chunk, in the order of the merged paths,
      each to the chunks queue with its own delay, within the configured range. */
  lemma ChunkSendsSpec(cfg: Config, f: Fields, analysis: Analysis, delays: seq<int>)
    requires analysis.merged.Done? && DelaysFit(cfg, analysis, delays)
    ensures var paths := analysis.merged.value.paths;
      var r := ChunkSends(cfg, f, paths, delays);
      && |r| == |paths|
      && forall i :: 0 <= i < |r| ==>
           && r[i].queue == cfg.chunksQueue
           && Get(r[i].body, "chunk_name") == Some(Str(paths[i].0))
           && Get(r[i].body, "chunk_blob_uri") == Some(Str(paths[i].1))
           && Get(r[i].body, "chunk_queued_count") == Some(Int(1))
           && Get(r[i].body, "prompt_id") == Some(f.promptId)
           && (cfg.maxSecondsHideOnUpload >= 1 ==> 1 <= r[i].delay <= cfg.maxSecondsHideOnUpload)
  {
    var paths := analysis.merged.value.paths;
    forall i | 0 <= i < |paths|
      ensures var m := ChunkSends(cfg, f, paths, delays)[i].body;
        && Get(m, "chunk_name") == Some(Str(paths[i].0))
        && Get(m, "chunk_blob_uri") == Some(Str(paths[i].1))
        && Get(m, "chunk_queued_count") == Some(Int(1))
        && Get(m, "prompt_id") == Some(f.promptId)
    {
      ChunkMessageFields(f, paths[i]);
    }
  }

  /** Lines 138-166 after chunking: the merge note, then the chunk messages as the
      only sends, and one upsert that stages Queued with the chunk count and the
      merged chunk count. */
  lemma FanOutQueues(cfg: Config, fx: Fx, f: Fields, chunkCount: int, merged: Attempt<Merge>, delays: seq<int>)
    requires merged.Done? && |delays| == |merged.value.paths|
    requires |merged.value.paths| == 0 || cfg.maxSecondsHideOnUpload >= 1
    ensures var t := FanOut(cfg, fx, f, chunkCount, merged, delays);
      var m := merged.value;
      && t.Normal?
      && t.fx.sends == fx.sends + ChunkSends(cfg, f, m.paths, delays)
      && t.fx.calls == fx.calls
           + [Upserted(f.blobName, MergedNote(cfg, m.count), Debug, Processing, false, None, None)]
           + [Upserted(f.blobName, FanOutStatus(m.count, f.promptId), Debug, Queued, false, Some(chunkCount), Some(m.count))]
  {
  }

  /** Lines 137-147: a merge that raises, or a fan-out with no delay to draw, sends
      nothing. */
  lemma FanOutRaises(cfg: Config, fx: Fx, f: Fields, chunkCount: int, merged: Attempt<Merge>, delays: seq<int>)
    requires merged.Done? ==> |delays| == |merged.value.paths|
    requires merged.Failed? || (|merged.value.paths| > 0 && cfg.maxSecondsHideOnUpload < 1)
    ensures var t := FanOut(cfg, fx, f, chunkCount, merged, delays);
      && t.Raised?
      && t.fx.sends == fx.sends
      && (merged.Failed? ==> t == Raised(fx, merged.err))
      && (merged.Done? ==> t == Raised(Note(fx, f.blobName, MergedNote(cfg, merged.value.count), Debug),
                                       EmptyRandRange(1, cfg.maxSecondsHideOnUpload)))
  {
  }

  /** Lines 108-123: a step of the analysis that raises leaves the sends as they
      were; the exception is the first failing step's, after the notes written
      before it. */
  lemma SucceededRaises(cfg: Config, fx: Fx, f: Fields, analysis: Analysis, delays: seq<int>)
    requires DelaysFit(cfg, analysis, delays)
    requires SucceededError(analysis).Some?
    ensures var t := Succeeded(cfg, fx, f, analysis, delays);
      && t == Raised(t.fx, SucceededError(analysis).value)
      && t.fx.sends == fx.sends
      && t.fx.calls == fx.calls + NoteCalls(f.blobName, SucceededNotes(analysis))
  {
  }

  /** Lines 108-166 when every analysis step returns: after the six notes, the
      fan-out. */
  lemma SucceededFansOut(cfg: Config, fx: Fx, f: Fields, analysis: Analysis, delays: seq<int>)
    requires DelaysFit(cfg, analysis, delays)
    requires SucceededError(analysis).None?
    ensures Succeeded(cfg, fx, f, analysis, delays)
      == FanOut(cfg, Notes(fx, f.blobName, SucceededNotes(analysis)), f, analysis.chunks.value, analysis.merged, delays)
  {
  }

  // ------------------------------------------------------------ the state the document is left in

  /** Whether the succeeded branch gets through the fan-out: every analysis step
      returns and, when there is a chunk to send, a delay can be drawn. */
  predicate FansOut(cfg: Config, analysis: Analysis)
  {
    && SucceededError(analysis).None? && analysis.merged.Done?
    && (|analysis.merged.value.paths| == 0 || cfg.maxSecondsHideOnUpload >= 1)
  }

  /** The state a poll answered with `code` and `status` leaves the document in:
      Queued after a fan-out or a polling requeue, Throttled after a resubmission,
      Error otherwise (an error code, a missing status, a ceiling, or an exception
      caught by the handler). */
  function Settled(cfg: Config, f: Fields, code: int, status: Option<Value>, analysis: Analysis): State
  {
    if code != 200 || status.None? then State.Error
    else if status.value == Str("succeeded") then (if FansOut(cfg, analysis) then Queued else State.Error)
    else if status.value == Str("running") then
      (if f.pollCount.Int? && f.pollCount.i < cfg.maxReadAttempts then Queued else State.Error)
    else if f.submitCount.Int? && f.submitCount.i < cfg.maxSubmitRequeueCount then Throttled
    else State.Error
  }

  /** `calls` continue `pre` with staging calls only, the last an upsert of `name`
      in `state`. */
  predicate StagedAfter(pre: seq<Call>, calls: seq<Call>, name: string, state: State)
  {
    && |pre| < |calls| && calls[..|pre|] == pre && StagesOnly(calls)
    && calls[|calls| - 1].Upserted? && calls[|calls| - 1].path == name && calls[|calls| - 1].state == state
  }

  lemma EndsWith(pre: seq<Call>, tail: seq<Call>, name: string, state: State)
    requires StagesOnly(pre) && StagesOnly(tail) && |tail| > 0
    requires tail[|tail| - 1].Upserted? && tail[|tail| - 1].path == name && tail[|tail| - 1].state == state
    ensures StagedAfter(pre, pre + tail, name, state)
  {
    StagesAppend(pre, tail);
    assert (pre + tail)[..|pre|] == pre;
  }

  /** A continuation of `a + b` is one of `a`. */
  lemma Within(a: seq<Call>, b: seq<Call>, calls: seq<Call>, name: string, state: State)
    requires StagedAfter(a + b, calls, name, state)
    ensures StagedAfter(a, calls, name, state)
  {
    assert calls[..|a|] == calls[..|a + b|][..|a|];
    assert (a + b)[..|a|] == a;
  }

  lemma NotesStage(fx: Fx, name: string, statuses: seq<string>)
    requires StagesOnly(fx.calls)
    ensures StagesOnly(Notes(fx, name, statuses).calls)
  {
    StagesAppend(fx.calls, NoteCalls(name, statuses));
  }

  /** The handler's upsert after an exception. */
  lemma HandleRaised(fx: Fx, err: string, name: string, code: int)
    requires StagesOnly(fx.calls)
    ensures StagedAfter(fx.calls, Handle(Raised(fx, err), name, code).calls, name, State.Error)
    ensures Handle(Raised(fx, err), name, code).sends == fx.sends
  {
    EndsWith(fx.calls, [Upserted(name, ErrorStatus(code, err), StatusClassification.Error, State.Error, false, None, None)], name, State.Error);
  }

  /** A normal step that appended the single upsert `u` to staging-only calls. */
  lemma NormalSettles(t: Try, pre: seq<Call>, u: Call, name: string, code: int)
    requires t.Normal? && t.fx.calls == pre + [u] && StagesOnly(pre)
    requires u.Upserted? && !u.freshStart && u.path == name
    ensures StagedAfter(pre, Handle(t, name, code).calls, name, u.state)
  {
    EndsWith(pre, [u], name, u.state);
  }

  lemma RunningSettles(cfg: Config, fx: Fx, f: Fields, message: Message, jitter: int, code: int)
    requires DistinctKeys(message) && StagesOnly(fx.calls)
    ensures StagedAfter(fx.calls, Handle(Running(cfg, fx, f, message, jitter), f.blobName, code).calls, f.blobName,
                       if f.pollCount.Int? && f.pollCount.i < cfg.maxReadAttempts then Queued else State.Error)
  {
    var t := Running(cfg, fx, f, message, jitter);
    if f.pollCount.Str? {
      RunningOnText(cfg, fx, f, message, jitter);
      HandleRaised(fx, StrIntComparison, f.blobName, code);
    } else if f.pollCount.i < cfg.maxReadAttempts {
      RunningRequeues(cfg, fx, f, message, jitter);
      var c := f.pollCount.i;
      NormalSettles(t, fx.calls, Upserted(f.blobName, RequeueStatus(cfg, c + 1, PollingDelay(cfg, c, jitter)), Debug, Queued, false, None, None),
                    f.blobName, code);
    } else {
      RunningAtCeiling(cfg, fx, f, message, jitter);
      NormalSettles(t, fx.calls, Upserted(f.blobName, CeilingStatus, StatusClassification.Error, State.Error, false, None, None),
                    f.blobName, code);
    }
  }

  lemma ResubmitSettles(cfg: Config, fx: Fx, f: Fields, message: Message, code: int, status: Value, text: string)
    requires DistinctKeys(message) && StagesOnly(fx.calls)
    ensures StagedAfter(fx.calls, Handle(Resubmit(cfg, fx, f, message, code, status, text), f.blobName, code).calls, f.blobName,
                       if f.submitCount.Int? && f.submitCount.i < cfg.maxSubmitRequeueCount then Throttled else State.Error)
  {
    var t := Resubmit(cfg, fx, f, message, code, status, text);
    if f.submitCount.Str? {
      ResubmitOnText(cfg, fx, f, message, code, status, text);
      HandleRaised(fx, StrIntComparison, f.blobName, code);
    } else if f.submitCount.i < cfg.maxSubmitRequeueCount {
      ResubmitRequeues(cfg, fx, f, message, code, status, text);
      var u := Upserted(f.blobName, UnhandledStatus(code, status, text), StatusClassification.Error, Processing, false, None, None);
      StagesAppend(fx.calls, [u]);
      NormalSettles(t, fx.calls + [u], Upserted(f.blobName, ResentStatus(cfg), Debug, Throttled, false, None, None), f.blobName, code);
      Within(fx.calls, [u], t.fx.calls, f.blobName, Throttled);
    } else {
      ResubmitAtCeiling(cfg, fx, f, message, code, status, text);
      NormalSettles(t, fx.calls, Upserted(f.blobName, CeilingStatus, StatusClassification.Error, State.Error, false, None, None),
                    f.blobName, code);
    }
  }

  lemma FanOutSettles(cfg: Config, fx: Fx, f: Fields, chunkCount: int, merged: Attempt<Merge>, delays: seq<int>, code: int)
    requires merged.Done? ==> |delays| == |merged.value.paths|
    requires StagesOnly(fx.calls)
    ensures StagedAfter(fx.calls, Handle(FanOut(cfg, fx, f, chunkCount, merged, delays), f.blobName, code).calls, f.blobName,
                       if merged.Done? && (|merged.value.paths| == 0 || cfg.maxSecondsHideOnUpload >= 1) then Queued else State.Error)
  {
    if merged.Failed? {
      FanOutRaises(cfg, fx, f, chunkCount, merged, delays);
      HandleRaised(fx, merged.err, f.blobName, code);
    } else {
      var m := merged.value;
      var note := Upserted(f.blobName, MergedNote(cfg, m.count), Debug, Processing, false, None, None);
      if |m.paths| > 0 && cfg.maxSecondsHideOnUpload < 1 {
        FanOutRaises(cfg, fx, f, chunkCount, merged, delays);
        var fx1 := Note(fx, f.blobName, MergedNote(cfg, m.count), Debug);
        StagesAppend(fx.calls, [note]);
        HandleRaised(fx1, EmptyRandRange(1, cfg.maxSecondsHideOnUpload), f.blobName, code);
        Within(fx.calls, [note], fx1.calls + [Upserted(f.blobName, ErrorStatus(code, EmptyRandRange(1, cfg.maxSecondsHideOnUpload)),
               StatusClassification.Error, State.Error, false, None, None)], f.blobName, State.Error);
      } else {
        FanOutQueues(cfg, fx, f, chunkCount, merged, delays);
        StagesAppend(fx.calls, [note]);
        EndsWith(fx.calls + [note], [Upserted(f.blobName, FanOutStatus(m.count, f.promptId), Debug, Queued, false, Some(chunkCount), Some(m.count))],
                 f.blobName, Queued);
        Within(fx.calls, [note], Handle(FanOut(cfg, fx, f, chunkCount, merged, delays), f.blobName, code).calls, f.blobName, Queued);
      }
    }
  }

  lemma SucceededSettles(cfg: Config, fx: Fx, f: Fields, analysis: Analysis, delays: seq<int>, code: int)
    requires DelaysFit(cfg, analysis, delays) && StagesOnly(fx.calls)
    ensures StagedAfter(fx.calls, Handle(Succeeded(cfg, fx, f, analysis, delays), f.blobName, code).calls, f.blobName,
                       if FansOut(cfg, analysis) then Queued else State.Error)
  {
    var fx1 := Notes(fx, f.blobName, SucceededNotes(analysis));
    NotesStage(fx, f.blobName, SucceededNotes(analysis));
    if SucceededError(analysis).Some? {
      SucceededRaises(cfg, fx, f, analysis, delays);
      HandleRaised(fx1, SucceededError(analysis).value, f.blobName, code);
      Within(fx.calls, NoteCalls(f.blobName, SucceededNotes(analysis)),
             Handle(Succeeded(cfg, fx, f, analysis, delays), f.blobName, code).calls, f.blobName, State.Error);
    } else {
      SucceededFansOut(cfg, fx, f, analysis, delays);
      FanOutSettles(cfg, fx1, f, analysis.chunks.value, analysis.merged, delays, code);
      Within(fx.calls, NoteCalls(f.blobName, SucceededNotes(analysis)),
             Handle(Succeeded(cfg, fx, f, analysis, delays), f.blobName, code).calls, f.blobName,
             if FansOut(cfg, analysis) then Queued else State.Error);
    }
  }

  /** Whatever the answer, the handled poll makes staging calls only and its last
      call stages the document in the state `Settled` names; the handler sends
      nothing. */
  lemma RespondSettles(cfg: Config, fx: Fx, f: Fields, message: Message, answer: Answer,
                       analysis: Analysis, jitter: int, delays: seq<int>)
    requires answer.Answered? && DistinctKeys(message) && DelaysFit(cfg, analysis, delays)
    requires StagesOnly(fx.calls)
    ensures var t := Respond(cfg, fx, f, message, answer, analysis, jitter, delays);
      var h := Handle(t, f.blobName, answer.code);
      && StagedAfter(fx.calls, h.calls, f.blobName, Settled(cfg, f, answer.code, answer.status, analysis))
      && h.sends == t.fx.sends
  {
    var t := Respond(cfg, fx, f, message, answer, analysis, jitter, delays);
    if answer.code != 200 {
      EndsWith(fx.calls, [Upserted(f.blobName, PollingErrorStatus, StatusClassification.Error, State.Error, false, None, None)],
               f.blobName, State.Error);
    } else if answer.status.None? {
      HandleRaised(fx, KeyError("status"), f.blobName, answer.code);
    } else if answer.status.value == Str("succeeded") {
      SucceededSettles(cfg, fx, f, analysis, delays, answer.code);
    } else if answer.status.value == Str("running") {
      RunningSettles(cfg, fx, f, message, jitter, answer.code);
    } else {
      ResubmitSettles(cfg, fx, f, message, answer.code, answer.status.value, answer.text);
    }
  }

  // ------------------------------------------------------------ whole runs

  /** Every reached poll is the opening notes, the poll, the handled answer and the save. */
  lemma RunReachedShape(cfg: Config, message: Message, keyList: seq<string>, endpointList: seq<string>,
                        answer: Answer, analysis: Analysis, jitter: int, delays: seq<int>)
    requires DistinctKeys(message) && 0 <= jitter <= 10 && DelaysFit(cfg, analysis, delays)
    requires Reached(message, keyList, endpointList, answer)
    ensures var f := Parse(message).value;
      Run(cfg, message, keyList, endpointList, answer, analysis, jitter, delays)
        == Finished(DoCall(Handle(Respond(cfg, Queried(f, keyList, endpointList), f, message, answer, analysis, jitter, delays),
                                  f.blobName, answer.code),
                           Saved(f.blobName)))
  {
  }

  /** The opening notes and the poll: staging calls only, nothing sent, and the
      poll goes to the result URL at the submitted index. */
  lemma QueriedStages(f: Fields, keyList: seq<string>, endpointList: seq<string>)
    requires ListIndex(keyList, f.idx).Done? && ListIndex(endpointList, f.idx).Done?
    ensures var fx := Queried(f, keyList, endpointList);
      && fx.sends == [] && StagesOnly(fx.calls) && |fx.calls| == 3
      && fx.calls[2] == Polled(ResultUrl(ListIndex(endpointList, f.idx).value, f.resultId), ListIndex(keyList, f.idx).value)
  {
  }

  /** Staging calls that end with an upsert of `name`, followed by its save, write
      that document's record and nothing else. */
  lemma StagedThenSavedAfter(store: Store, ctx: Ctx, pre: seq<Call>, calls: seq<Call>, name: string, state: State)
    requires StoreWF(store) && StagedAfter(pre, calls, name, state)
    ensures var all := calls + [Saved(name)];
      var after := Effect(store, all, ctx).store;
      var k := DocumentKey(name);
      && SavedOnceAtEnd(all, name) && all[..|pre|] == pre
      && k in after && after == store[k := after[k]] && after[k].FileLog? && after[k].state == state
  {
    ValidCanOwn(Log(store, map[]), name);
    StagedThenSaved(store, calls, name, ctx);
    StagesNoSave(calls);
    SaveLast(calls, name);
    assert (calls + [Saved(name)])[..|pre|] == calls[..|pre|];
  }

  /** A reached poll ends with the one save of the document, and that save writes
      the document's record, in the state `Settled` names, and nothing else. The
      poll itself goes to `endpoint[index]` with `key[index]`. */
  lemma RunFinishes(cfg: Config, store: Store, ctx: Ctx, message: Message, keyList: seq<string>, endpointList: seq<string>,
                    answer: Answer, analysis: Analysis, jitter: int, delays: seq<int>)
    requires DistinctKeys(message) && 0 <= jitter <= 10 && DelaysFit(cfg, analysis, delays)
    requires StoreWF(store) && Reached(message, keyList, endpointList, answer)
    ensures var r := Run(cfg, message, keyList, endpointList, answer, analysis, jitter, delays);
      var f := Parse(message).value;
      var after := Effect(store, r.fx.calls, ctx).store;
      var k := DocumentKey(f.blobName);
      && r.Finished? && SavedOnceAtEnd(r.fx.calls, f.blobName)
      && |r.fx.calls| > 2
      && r.fx.calls[2] == Polled(ResultUrl(ListIndex(endpointList, f.idx).value, f.resultId), ListIndex(keyList, f.idx).value)
      && k in after && after == store[k := after[k]]
      && after[k].FileLog? && after[k].state == Settled(cfg, f, answer.code, answer.status, analysis)
  {
    var f := Parse(message).value;
    RunReachedShape(cfg, message, keyList, endpointList, answer, analysis, jitter, delays);
    var fx := Queried(f, keyList, endpointList);
    QueriedStages(f, keyList, endpointList);
    RespondSettles(cfg, fx, f, message, answer, analysis, jitter, delays);
    var calls := Handle(Respond(cfg, fx, f, message, answer, analysis, jitter, delays), f.blobName, answer.code).calls;
    StagedThenSavedAfter(store, ctx, fx.calls, calls, f.blobName, Settled(cfg, f, answer.code, answer.status, analysis));
    assert (calls + [Saved(f.blobName)])[2] == fx.calls[2];
  }

  /** A poll that is not reached crashes: a field is missing or malformed, the
      index is past the end of the key or endpoint list, or the poll raised. The
      handler then reads the unbound `blob_name` (when the first field was missing)
      or `response`. Having only staged, the crash sends nothing and leaves the
      store as it was. With `RunFinishes`, a poll crashes exactly when it is not
      reached. */
  lemma RunCrashes(cfg: Config, store: Store, ctx: Ctx, message: Message, keyList: seq<string>, endpointList: seq<string>,
                   answer: Answer, analysis: Analysis, jitter: int, delays: seq<int>)
    requires DistinctKeys(message) && 0 <= jitter <= 10 && DelaysFit(cfg, analysis, delays)
    requires !Reached(message, keyList, endpointList, answer)
    ensures var r := Run(cfg, message, keyList, endpointList, answer, analysis, jitter, delays);
      && r.Crashed? && r.fx.sends == [] && NoSave(r.fx.calls) && Effect(store, r.fx.calls, ctx).store == store
  {
    AttemptedStages(message, keyList, endpointList);
    var fx := Attempted(message, keyList, endpointList);
    ReplayStages(Log(store, map[]), fx.calls, "", ctx);
    StagesNoSave(fx.calls);
  }

  /** The crash is the handler's own `UnboundLocalError`: on `blob_name` when the
      first field was missing, on `response` otherwise. */
  lemma RunCrashError(cfg: Config, message: Message, keyList: seq<string>, endpointList: seq<string>,
                      answer: Answer, analysis: Analysis, jitter: int, delays: seq<int>)
    requires DistinctKeys(message) && 0 <= jitter <= 10 && DelaysFit(cfg, analysis, delays)
    requires !Reached(message, keyList, endpointList, answer)
    ensures Run(cfg, message, keyList, endpointList, answer, analysis, jitter, delays).err
         == if Get(message, "blob_name").None? then Unbound("blob_name") else Unbound("response")
  {
  }

  lemma AttemptedStages(message: Message, keyList: seq<string>, endpointList: seq<string>)
    ensures Attempted(message, keyList, endpointList).sends == []
    ensures StagesOnly(Attempted(message, keyList, endpointList).calls)
  {
    match Parse(message)
    case None =>
    case Some(f) =>
      if ListIndex(keyList, f.idx).Failed? || ListIndex(endpointList, f.idx).Failed? {
        OpenedStages(f);
      } else {
        QueriedStages(f, keyList, endpointList);
      }
  }

  lemma OpenedStages(f: Fields)
    ensures Opened(f).sends == [] && StagesOnly(Opened(f).calls)
  {
  }

  // ------------------------------------------------------------ what a poll sends

  /** Lines 108-166 when the analysis succeeded and the fan-out goes through: the
      chunk messages, one per merged path in order, are exactly the sends. */
  lemma SucceededSendsChunks(cfg: Config, fx: Fx, f: Fields, analysis: Analysis, delays: seq<int>)
    requires DelaysFit(cfg, analysis, delays) && FansOut(cfg, analysis)
    ensures Succeeded(cfg, fx, f, analysis, delays).fx.sends == fx.sends + ChunkSends(cfg, f, analysis.merged.value.paths, delays)
  {
    SucceededFansOut(cfg, fx, f, analysis, delays);
    FanOutQueues(cfg, Notes(fx, f.blobName, SucceededNotes(analysis)), f, analysis.chunks.value, analysis.merged, delays);
  }

  /** A poll that finds the analysis succeeded and gets through the fan-out sends
      exactly one chunk message per merged chunk, in order, and nothing else. */
  lemma RunFansOut(cfg: Config, message: Message, keyList: seq<string>, endpointList: seq<string>,
                   answer: Answer, analysis: Analysis, jitter: int, delays: seq<int>)
    requires DistinctKeys(message) && 0 <= jitter <= 10 && DelaysFit(cfg, analysis, delays)
    requires Reached(message, keyList, endpointList, answer)
    requires answer.code == 200 && answer.status == Some(Str("succeeded")) && FansOut(cfg, analysis)
    ensures Run(cfg, message, keyList, endpointList, answer, analysis, jitter, delays).fx.sends
         == ChunkSends(cfg, Parse(message).value, analysis.merged.value.paths, delays)
  {
    var f := Parse(message).value;
    RunReachedShape(cfg, message, keyList, endpointList, answer, analysis, jitter, delays);
    QueriedStages(f, keyList, endpointList);
    SucceededSendsChunks(cfg, Queried(f, keyList, endpointList), f, analysis, delays);
  }

  /** `g2` is `g` after one polling requeue: `g` was below `max_read_attempts`, and
      `g2` has the same fields except the polling counter, raised by one. */
  predicate Repolled(cfg: Config, g: Fields, g2: Fields)
  {
    g.pollCount.Int? && g.pollCount.i < cfg.maxReadAttempts && g2 == g.(pollCount := Int(g.pollCount.i + 1))
  }

  /** `g2` is `g` after one resubmission: `g` was below `max_submit_requeue_count`,
      and `g2` has the same fields except the submit counter, raised by one; the
      polling counter is left alone. */
  predicate Resubmitted(cfg: Config, g: Fields, g2: Fields)
  {
    g.submitCount.Int? && g.submitCount.i < cfg.maxSubmitRequeueCount && g2 == g.(submitCount := Int(g.submitCount.i + 1))
  }

  /** `m2` is `m` sent back for another poll. */
  predicate PollingStep(cfg: Config, m: Message, m2: Message)
  {
    Parse(m).Some? && Parse(m2).Some? && Repolled(cfg, Parse(m).value, Parse(m2).value)
  }

  /** `m2` is `m` sent back for resubmission. */
  predicate SubmitStep(cfg: Config, m: Message, m2: Message)
  {
    Parse(m).Some? && Parse(m2).Some? && Resubmitted(cfg, Parse(m).value, Parse(m2).value)
  }

  /** The three kinds of send a poll of `m` can make: a chunk message, a polling
      requeue, or a resubmission; a requeued message is still a dict. */
  predicate SentFrom(cfg: Config, m: Message, s: Send)
  {
    || s.queue == cfg.chunksQueue
    || (s.queue == cfg.pdfPollingQueue && DistinctKeys(s.body) && PollingStep(cfg, m, s.body))
    || (s.queue == cfg.pdfSubmitQueue && DistinctKeys(s.body) && SubmitStep(cfg, m, s.body))
  }

  /** `sends` continue `pre` with sends of the kinds `SentFrom` allows. */
  predicate SendsAfter(cfg: Config, m: Message, pre: seq<Send>, sends: seq<Send>)
  {
    && |pre| <= |sends| && sends[..|pre|] == pre
    && forall i :: |pre| <= i < |sends| ==> SentFrom(cfg, m, sends[i])
  }

  /** A message whose seven fields read as `g` parses to `g`. */
  lemma ParseOfGets(b: Message, g: Fields)
    requires Get(b, "blob_name") == Some(Str(g.blobName)) && Get(b, "blob_uri") == Some(g.blobUri)
    requires Get(b, "FR_resultId") == Some(g.resultId) && Get(b, "FR_API_List_idx") == Some(g.idx)
    requires Get(b, "polling_queue_count") == Some(g.pollCount) && Get(b, "submit_queued_count") == Some(g.submitCount)
    requires Get(b, "prompt_id") == Some(g.promptId)
    ensures Parse(b) == Some(g)
  {
    var vs := [Str(g.blobName), g.blobUri, g.resultId, g.idx, g.pollCount, g.submitCount, g.promptId];
    assert forall i :: 0 <= i < |MessageKeys| ==> Get(b, MessageKeys[i]) == Some(vs[i]);
    DecodeAll(b, MessageKeys, vs);
  }

  /** Line 172: setting the polling counter changes that field only. */
  lemma ParsePolled(m: Message, f: Fields, n: int)
    requires DistinctKeys(m) && Parse(m) == Some(f)
    ensures DistinctKeys(Put(m, "polling_queue_count", Int(n)))
    ensures Parse(Put(m, "polling_queue_count", Int(n))) == Some(f.(pollCount := Int(n)))
  {
    PutSpec(m, "polling_queue_count", Int(n));
    ParseOfGets(Put(m, "polling_queue_count", Int(n)), f.(pollCount := Int(n)));
  }

  /** Line 184: setting the submit counter changes that field only. */
  lemma ParseResubmitted(m: Message, f: Fields, n: int)
    requires DistinctKeys(m) && Parse(m) == Some(f)
    ensures DistinctKeys(Put(m, "submit_queued_count", Int(n)))
    ensures Parse(Put(m, "submit_queued_count", Int(n))) == Some(f.(submitCount := Int(n)))
  {
    PutSpec(m, "submit_queued_count", Int(n));
    ParseOfGets(Put(m, "submit_queued_count", Int(n)), f.(submitCount := Int(n)));
  }

  /** A single send after `pre` that `SentFrom` allows. */
  lemma OneMore(cfg: Config, m: Message, pre: seq<Send>, s: Send)
    requires SentFrom(cfg, m, s)
    ensures SendsAfter(cfg, m, pre, pre + [s])
  {
    assert (pre + [s])[..|pre|] == pre;
  }

  lemma NoMore(cfg: Config, m: Message, pre: seq<Send>)
    ensures SendsAfter(cfg, m, pre, pre)
  {
    assert pre[..|pre|] == pre;
  }

  /** Line 172 below the ceiling: the requeued message is a polling step. */
  lemma PolledStep(cfg: Config, m: Message, f: Fields)
    requires DistinctKeys(m) && Parse(m) == Some(f)
    requires f.pollCount.Int? && f.pollCount.i < cfg.maxReadAttempts
    ensures DistinctKeys(Put(m, "polling_queue_count", Int(f.pollCount.i + 1)))
    ensures PollingStep(cfg, m, Put(m, "polling_queue_count", Int(f.pollCount.i + 1)))
  {
    var g := f.(pollCount := Int(f.pollCount.i + 1));
    ParsePolled(m, f, f.pollCount.i + 1);
    assert Repolled(cfg, f, g);
  }

  /** Line 184 below the ceiling: the resubmitted message is a submit step. */
  lemma ResubmittedStep(cfg: Config, m: Message, f: Fields)
    requires DistinctKeys(m) && Parse(m) == Some(f)
    requires f.submitCount.Int? && f.submitCount.i < cfg.maxSubmitRequeueCount
    ensures DistinctKeys(Put(m, "submit_queued_count", Int(f.submitCount.i + 1)))
    ensures SubmitStep(cfg, m, Put(m, "submit_queued_count", Int(f.submitCount.i + 1)))
  {
    var g := f.(submitCount := Int(f.submitCount.i + 1));
    ParseResubmitted(m, f, f.submitCount.i + 1);
    assert Resubmitted(cfg, f, g);
  }

  /** Lines 168-180: at most one send, the polling requeue. */
  lemma RunningSends(cfg: Config, fx: Fx, f: Fields, message: Message, jitter: int)
    requires DistinctKeys(message) && Parse(message) == Some(f)
    ensures var t := Running(cfg, fx, f, message, jitter);
      SendsAfter(cfg, message, fx.sends, t.fx.sends) && |t.fx.sends| <= |fx.sends| + 1
  {
    if f.pollCount.Str? {
      RunningOnText(cfg, fx, f, message, jitter);
      NoMore(cfg, message, fx.sends);
    } else if f.pollCount.i < cfg.maxReadAttempts {
      RequeueSends(cfg, fx, f, message, jitter);
    } else {
      RunningAtCeiling(cfg, fx, f, message, jitter);
      NoMore(cfg, message, fx.sends);
    }
  }

  /** Lines 168-178: the polling requeue is the one send. */
  lemma RequeueSends(cfg: Config, fx: Fx, f: Fields, message: Message, jitter: int)
    requires DistinctKeys(message) && Parse(message) == Some(f)
    requires f.pollCount.Int? && f.pollCount.i < cfg.maxReadAttempts
    ensures var t := Running(cfg, fx, f, message, jitter);
      SendsAfter(cfg, message, fx.sends, t.fx.sends) && |t.fx.sends| == |fx.sends| + 1
  {
    RunningRequeues(cfg, fx, f, message, jitter);
    RepolledAfter(cfg, message, f, fx.sends, PollingDelay(cfg, f.pollCount.i, jitter), Running(cfg, fx, f, message, jitter).fx.sends);
  }

  /** The polling requeue, whatever its delay, continues the sends as `SendsAfter` allows. */
  lemma RepolledAfter(cfg: Config, message: Message, f: Fields, pre: seq<Send>, delay: int, sends: seq<Send>)
    requires DistinctKeys(message) && Parse(message) == Some(f)
    requires f.pollCount.Int? && f.pollCount.i < cfg.maxReadAttempts
    requires sends == pre + [Send(cfg.pdfPollingQueue, Put(message, "polling_queue_count", Int(f.pollCount.i + 1)), delay)]
    ensures SendsAfter(cfg, message, pre, sends) && |sends| == |pre| + 1
  {
    PolledStep(cfg, message, f);
    OneMore(cfg, message, pre, sends[|pre|]);
    assert pre + [sends[|pre|]] == sends;
  }

  /** Lines 181-192: at most one send, the resubmission. */
  lemma ResubmitSends(cfg: Config, fx: Fx, f: Fields, message: Message, code: int, status: Value, text: string)
    requires DistinctKeys(message) && Parse(message) == Some(f)
    ensures var t := Resubmit(cfg, fx, f, message, code, status, text);
      SendsAfter(cfg, message, fx.sends, t.fx.sends) && |t.fx.sends| <= |fx.sends| + 1
  {
    if f.submitCount.Str? {
      ResubmitOnText(cfg, fx, f, message, code, status, text);
      NoMore(cfg, message, fx.sends);
    } else if f.submitCount.i < cfg.maxSubmitRequeueCount {
      ResubmitRequeues(cfg, fx, f, message, code, status, text);
      var body := Put(message, "submit_queued_count", Int(f.submitCount.i + 1));
      ResubmittedStep(cfg, message, f);
      OneMore(cfg, message, fx.sends, Send(cfg.pdfSubmitQueue, body, cfg.submitRequeueHideSeconds));
    } else {
      ResubmitAtCeiling(cfg, fx, f, message, code, status, text);
      NoMore(cfg, message, fx.sends);
    }
  }

  /** Lines 108-166: the chunk messages are the only sends. */
  lemma SucceededSends(cfg: Config, fx: Fx, f: Fields, message: Message, analysis: Analysis, delays: seq<int>)
    requires DelaysFit(cfg, analysis, delays)
    ensures SendsAfter(cfg, message, fx.sends, Succeeded(cfg, fx, f, analysis, delays).fx.sends)
  {
    var fx1 := Notes(fx, f.blobName, SucceededNotes(analysis));
    if SucceededError(analysis).Some? {
      SucceededRaises(cfg, fx, f, analysis, delays);
      NoMore(cfg, message, fx.sends);
    } else {
      SucceededFansOut(cfg, fx, f, analysis, delays);
      if FansOut(cfg, analysis) {
        FanOutQueues(cfg, fx1, f, analysis.chunks.value, analysis.merged, delays);
        var r := ChunkSends(cfg, f, analysis.merged.value.paths, delays);
        assert (fx.sends + r)[..|fx.sends|] == fx.sends;
        assert forall i :: |fx.sends| <= i < |fx.sends + r| ==> (fx.sends + r)[i] == r[i - |fx.sends|];
      } else {
        FanOutRaises(cfg, fx1, f, analysis.chunks.value, analysis.merged, delays);
        NoMore(cfg, message, fx.sends);
      }
    }
  }

  /** Whatever the answer, a poll sends only chunk messages, polling requeues and
      resubmissions of its own message, and at most one send unless the analysis
      succeeded. */
  lemma RespondSends(cfg: Config, fx: Fx, f: Fields, message: Message, answer: Answer,
                     analysis: Analysis, jitter: int, delays: seq<int>)
    requires answer.Answered? && DistinctKeys(message) && DelaysFit(cfg, analysis, delays)
    requires Parse(message) == Some(f)
    ensures var t := Respond(cfg, fx, f, message, answer, analysis, jitter, delays);
      && SendsAfter(cfg, message, fx.sends, t.fx.sends)
      && (answer.status != Some(Str("succeeded")) ==> |t.fx.sends| <= |fx.sends| + 1)
  {
    if answer.code != 200 || answer.status.None? {
      NoMore(cfg, message, fx.sends);
    } else if answer.status.value == Str("succeeded") {
      SucceededSends(cfg, fx, f, message, analysis, delays);
    } else if answer.status.value == Str("running") {
      RunningSends(cfg, fx, f, message, jitter);
    } else {
      ResubmitSends(cfg, fx, f, message, answer.code, answer.status.value, answer.text);
    }
  }

  /** Every send of a run is a chunk message, a polling requeue of the message
      (below `max_read_attempts`, counter raised by one, other fields as they were)
      or a resubmission of it (below `max_submit_requeue_count`, submit counter
      raised by one, polling counter as it was). Only a succeeded analysis sends
      more than once. */
  lemma RunSends(cfg: Config, message: Message, keyList: seq<string>, endpointList: seq<string>,
                 answer: Answer, analysis: Analysis, jitter: int, delays: seq<int>)
    requires DistinctKeys(message) && 0 <= jitter <= 10 && DelaysFit(cfg, analysis, delays)
    ensures var r := Run(cfg, message, keyList, endpointList, answer, analysis, jitter, delays);
      && (forall i :: 0 <= i < |r.fx.sends| ==> SentFrom(cfg, message, r.fx.sends[i]))
      && (answer.Answered? && answer.status != Some(Str("succeeded")) ==> |r.fx.sends| <= 1)
  {
    if Reached(message, keyList, endpointList, answer) {
      var f := Parse(message).value;
      RunReachedShape(cfg, message, keyList, endpointList, answer, analysis, jitter, delays);
      QueriedStages(f, keyList, endpointList);
      RespondSends(cfg, Queried(f, keyList, endpointList), f, message, answer, analysis, jitter, delays);
    } else {
      AttemptedStages(message, keyList, endpointList);
    }
  }

  /** Polling terminates: along a chain of polling requeues (the parsed fields of
      successive messages, each a `PollingStep` from the one before) each record is
      the first with the counter raised by its position, and the chain has at most
      `max_read_attempts - c` requeues after a first message polled `c` times. */
  lemma {:induction false} PollingChainBounded(cfg: Config, fs: seq<Fields>)
    requires |fs| > 1
    requires forall i :: 0 <= i < |fs| - 1 ==> Repolled(cfg, fs[i], fs[i + 1])
    ensures fs[0].pollCount.Int? && |fs| - 1 <= cfg.maxReadAttempts - fs[0].pollCount.i
    ensures forall i :: 1 <= i < |fs| ==> fs[i] == fs[0].(pollCount := Int(fs[0].pollCount.i + i))
    decreases |fs|
  {
    assert Repolled(cfg, fs[0], fs[1]);
    if |fs| > 2 {
      PollingChainBounded(cfg, fs[1..]);
      assert fs[1..][0] == fs[1];
      forall i | 2 <= i < |fs|
        ensures fs[i] == fs[0].(pollCount := Int(fs[0].pollCount.i + i))
      {
        assert fs[i] == fs[1..][i - 1];
      }
    }
  }

  /** Lines 171-172: with a non-negative backoff the base delay does not shrink as
      the count grows, and the jitter adds at most ten seconds to it. */
  lemma {:induction false} BackoffMonotone(cfg: Config, c: int, c': int, jitter: int, jitter': int)
    requires cfg.pollingBackoff >= 0 && 0 <= c <= c' && 0 <= jitter <= 10 && 0 <= jitter' <= 10
    ensures PollingDelay(cfg, c, 0) <= PollingDelay(cfg, c', 0)
    ensures PollingDelay(cfg, c, 0) <= PollingDelay(cfg, c, jitter) <= PollingDelay(cfg, c, 0) + 10
  {
    assert c * c <= c' * c' by {
      assert c * c <= c * c';
      assert c * c' <= c' * c';
    }
    assert cfg.pollingBackoff * (c * c) <= cfg.pollingBackoff * (c' * c') by {
      var d := c' * c' - c * c;
      assert cfg.pollingBackoff * (c' * c') == cfg.pollingBackoff * (c * c) + cfg.pollingBackoff * d;
    }
  }
}

=== FILE: prompt_log.dfy ===
/** The prompt store: records partitioned by user id, each holding a list of
    prompts; a new container is seeded with the record of user "default" holding
    the prompt "default". `get_prompt` queries the user's records that list the
    prompt id and returns the text of the first prompt with that id in the first
    record returned. The model assumes one record per user, as the seed's id
    convention (the encoded user id) suggests; nothing in the source enforces it. */
module PromptLog {
  import opened Wrappers
  import opened Json

  datatype Prompt = Prompt(promptId: string, prompt: string)

  /** User id to that user's prompt list (one record per user, assumed). */
  type PromptStore = map<string, seq<Prompt>>

  const DefaultUser: string := "default"
  const DefaultPromptId: string := "default"
  const DefaultPrompt: string := "Summarise the provided text below:"

  /** The store as the constructor leaves it: an existing container is used as it
      is; a new (empty) one receives the default record. */
  function Open(store: PromptStore, containerExists: bool): (r: PromptStore)
    ensures containerExists ==> r == store
    ensures !containerExists ==> r.Keys == {DefaultUser}
    ensures !containerExists ==> r[DefaultUser] == [Prompt(DefaultPromptId, DefaultPrompt)]
  {
    if containerExists then store else map[DefaultUser := [Prompt(DefaultPromptId, DefaultPrompt)]]
  }

  /** The position of the first prompt whose id is `promptId`, or -1. */
  function FirstMatch(prompts: seq<Prompt>, promptId: string): (r: int)
    ensures -1 <= r < |prompts|
    ensures r >= 0 ==> prompts[r].promptId == promptId
    ensures forall j :: 0 <= j < |prompts| && (r < 0 || j < r) ==> prompts[j].promptId != promptId
    decreases |prompts|
  {
    if |prompts| == 0 then -1
    else if prompts[0].promptId == promptId then 0
    else
      var r := FirstMatch(prompts[1..], promptId);
      if r < 0 then -1 else r + 1
  }

  /** `ARRAY_CONTAINS(c.prompts, {"prompt_id": promptId}, true)`. */
  predicate Lists(prompts: seq<Prompt>, promptId: string)
  {
    exists i :: 0 <= i < |prompts| && prompts[i].promptId == promptId
  }

  /** `get_prompt(user_id, prompt_id)`: the text of the first of the user's prompts
      with that id, or "" when the user has no record listing it. A prompt id that
      is not a string never equals a stored one. */
  function GetPromptText(store: PromptStore, userId: string, promptId: Value): (r: string)
    ensures promptId.Int? || userId !in store ==> r == ""
    ensures promptId.Str? && userId in store && !Lists(store[userId], promptId.s) ==> r == ""
    ensures promptId.Str? && userId in store && Lists(store[userId], promptId.s) ==>
      exists i :: 0 <= i < |store[userId]| && store[userId][i] == Prompt(promptId.s, r)
        && forall j :: 0 <= j < i ==> store[userId][j].promptId != promptId.s
  {
    match promptId
    case Int(_) => ""
    case Str(pid) =>
      if userId in store then
        var i := FirstMatch(store[userId], pid);
        if i < 0 then "" else store[userId][i].prompt
      else ""
  }

  /** Line 414 pastes both ids between double quotes without escaping. An id
      holding `"` ends its string literal early, the query is malformed, and
      `query_items` raises instead of answering. A numeric prompt id is pasted
      as its digits. */
  predicate BreaksQuery(userId: string, promptId: Value)
  {
    '"' in userId || (promptId.Str? && '"' in promptId.s)
  }

  /** `get_prompt` as a whole: nothing when the query raises, otherwise the text
      `GetPromptText` selects. */
  function GetPromptOutcome(store: PromptStore, userId: string, promptId: Value): (r: Option<string>)
    ensures r.None? <==> BreaksQuery(userId, promptId)
    ensures r.Some? ==> r.value == GetPromptText(store, userId, promptId)
    ensures r.Some? && r.value != "" ==>
      promptId.Str? && userId in store && exists i :: 0 <= i < |store[userId]| && store[userId][i] == Prompt(promptId.s, r.value)
  {
    if BreaksQuery(userId, promptId) then None else Some(GetPromptText(store, userId, promptId))
  }

  /** The scan as the source writes it: query the user's record, then loop over its
      prompts and stop at the first whose id matches. */
  method GetPrompt(store: PromptStore, userId: string, promptId: Value) returns (promptOut: string)
    ensures promptOut == GetPromptText(store, userId, promptId)
  {
    promptOut := "";
    if promptId.Str? && userId in store && Lists(store[userId], promptId.s) {
      var prompts := store[userId];
      var i := 0;
      while i < |prompts|
        invariant 0 <= i <= |prompts|
        invariant forall j :: 0 <= j < i ==> prompts[j].promptId != promptId.s
        decreases |prompts| - i
      {
        if prompts[i].promptId == promptId.s {
          promptOut := prompts[i].prompt;
          return;
        }
        i := i + 1;
      }
    }
  }

  /** What the constructor promises `get_prompt`: over a new container only the
      default user's default prompt has a text, and an existing container answers
      as its store does. */
  lemma OpenAnswers(store: PromptStore, userId: string, promptId: Value)
    ensures GetPromptText(Open(store, false), userId, promptId)
      == (if userId == DefaultUser && promptId == Str(DefaultPromptId) then DefaultPrompt else "")
    ensures GetPromptText(Open(store, true), userId, promptId) == GetPromptText(store, userId, promptId)
  {
    var seeded := [Prompt(DefaultPromptId, DefaultPrompt)];
    if promptId.Str? && userId == DefaultUser {
      assert FirstMatch(seeded[1..], promptId.s) == -1;
    }
  }

  /** A freshly created store answers the default user's default prompt with the
      seeded text. */
  lemma SeededDefaultPrompt()
    ensures GetPromptText(Open(map[], false), DefaultUser, Str(DefaultPromptId)) == DefaultPrompt
  {
  }
}

=== FILE: pystr.dfy ===
/** The Python string operations the pipeline relies on: `str.rfind`, `str.find`,
    `os.path.basename`, `os.path.splitext`, `str.split` with a one-character
    separator, and `str.lower` restricted to ASCII letters. */
module PyStr {

  /** `s.rfind(c)`: the index of the last occurrence of `c`, or -1. */
  function RFind(s: string, c: char): (r: int)
    ensures -1 <= r < |s|
    ensures r >= 0 ==> s[r] == c
    ensures forall k :: r < k < |s| ==> s[k] != c
    decreases |s|
  {
    if |s| == 0 then -1
    else if s[|s| - 1] == c then |s| - 1
    else RFind(s[..|s| - 1], c)
  }

  /** `s.find(c)`: the index of the first occurrence of `c`, or -1. */
  function Find(s: string, c: char): (r: int)
    ensures -1 <= r < |s|
    ensures r >= 0 ==> s[r] == c
    ensures forall k :: 0 <= k < |s| && (r < 0 || k < r) ==> s[k] != c
    decreases |s|
  {
    if |s| == 0 then -1
    else if s[0] == c then 0
    else
      var r := Find(s[1..], c);
      if r < 0 then -1 else r + 1
  }

  /** `os.path.basename` on a POSIX path, read from the right: the characters after
      the last '/'. */
  function Basename(p: string): string
    decreases |p|
  {
    if |p| == 0 || p[|p| - 1] == '/' then "" else Basename(p[..|p| - 1]) + [p[|p| - 1]]
  }

  /** `Basename` is the slice after the last '/' that `rfind` finds: it holds no
      '/', and it is a suffix of the path preceded by '/' unless it is all of it. */
  lemma {:induction false} BasenameAfterLastSlash(p: string)
    ensures Basename(p) == p[RFind(p, '/') + 1..]
    ensures '/' !in Basename(p)
    ensures |Basename(p)| < |p| ==> p[|p| - |Basename(p)| - 1] == '/'
    decreases |p|
  {
    if |p| > 0 && p[|p| - 1] != '/' {
      var q := p[..|p| - 1];
      BasenameAfterLastSlash(q);
      assert RFind(p, '/') == RFind(q, '/');
      assert p[RFind(p, '/') + 1..] == q[RFind(q, '/') + 1..] + [p[|p| - 1]];
    }
  }

  /** The basename of `dir + "/" + name` is `name` whenever `name` holds no '/'. */
  lemma BasenameOfJoin(dir: string, name: string)
    requires '/' !in name
    ensures Basename(dir + "/" + name) == name
  {
    var p := dir + "/" + name;
    assert p[|dir|] == '/';
    assert forall k :: |dir| < k < |p| ==> p[k] == name[k - |dir| - 1];
    assert RFind(p, '/') == |dir|;
    assert p[|dir| + 1..] == name;
    BasenameAfterLastSlash(p);
  }

  /** True when some character of `s[lo..hi]` is not a dot. */
  predicate HasNonDot(s: string, lo: int, hi: int)
    requires 0 <= lo <= hi <= |s|
  {
    exists k :: lo <= k < hi && s[k] != '.'
  }

  /** `os.path.splitext` (posixpath): the split happens at the last dot of the final
      path component, unless everything before that dot in the component is dots. */
  function SplitExt(p: string): (r: (string, string))
    ensures r.0 + r.1 == p
    ensures r.1 == "" || (r.1[0] == '.' && '.' !in r.1[1..] && '/' !in r.1)
  {
    var sepIndex := RFind(p, '/');
    var dotIndex := RFind(p, '.');
    if dotIndex > sepIndex && HasNonDot(p, sepIndex + 1, dotIndex) then
      assert forall k :: dotIndex < k < |p| ==> p[k] != '.' && p[k] != '/';
      assert p[dotIndex..][1..] == p[dotIndex + 1..];
      (p[..dotIndex], p[dotIndex..])
    else (p, "")
  }

  /** `c.lower()` for ASCII letters; every other character is left as it is. */
  function LowerChar(c: char): char
  {
    if 'A' <= c <= 'Z' then (c as int - 'A' as int + 'a' as int) as char else c
  }

  /** `s.lower()`, folding ASCII letters only. */
  function Lower(s: string): (r: string)
    ensures |r| == |s|
    ensures forall i :: 0 <= i < |s| ==> r[i] == LowerChar(s[i])
  {
    seq(|s|, i requires 0 <= i < |s| => LowerChar(s[i]))
  }

  /** `os.path.splitext(name)[1][1:].lower()`: the lower-cased extension without
      its dot, or "" when the name has none. */
  function Extension(name: string): (e: string)
    ensures '.' !in e && '/' !in e
  {
    var ext := SplitExt(name).1;
    var e := Lower(if |ext| == 0 then "" else ext[1..]);
    assert forall i :: 0 <= i < |e| ==> e[i] != '.' && e[i] != '/';
    e
  }

  /** A name whose last component is `stem.ext` (with `stem` holding a character other
      than '.' after its last '/') splits into `stem` and `.ext`. */
  lemma SplitExtOfJoin(stem: string, ext: string)
    requires '.' !in ext && '/' !in ext
    requires HasNonDot(stem, RFind(stem, '/') + 1, |stem|)
    ensures SplitExt(stem + "." + ext) == (stem, "." + ext)
  {
    QualifyingDotOfJoin(stem, ext);
    var d := LastDotOfJoin(stem, ext);
    SplitExtAtJoin(stem + "." + ext, stem, ext);
  }

  /** `SplitExt` at a qualifying dot placed right after `stem`. */
  lemma SplitExtAtJoin(p: string, stem: string, ext: string)
    requires p == stem + "." + ext
    requires RFind(p, '.') > RFind(p, '/')
    requires HasNonDot(p, RFind(p, '/') + 1, RFind(p, '.'))
    requires RFind(p, '.') == |stem|
    ensures SplitExt(p) == (stem, "." + ext)
  {
    SplitExtAtDot(p);
    assert p[..|stem|] == stem;
    assert p[|stem|..] == "." + ext;
  }

  /** The dot added between `stem` and `ext` is the one `SplitExt` cuts at. */
  lemma QualifyingDotOfJoin(stem: string, ext: string)
    requires '.' !in ext && '/' !in ext
    requires HasNonDot(stem, RFind(stem, '/') + 1, |stem|)
    ensures RFind(stem + "." + ext, '.') > RFind(stem + "." + ext, '/')
    ensures HasNonDot(stem + "." + ext, RFind(stem + "." + ext, '/') + 1, RFind(stem + "." + ext, '.'))
  {
    var p := stem + "." + ext;
    var d := LastDotOfJoin(stem, ext);
    LastSlashOfJoin(stem, ext);
    var k :| RFind(stem, '/') + 1 <= k < |stem| && stem[k] != '.';
    assert p[k] == stem[k];
  }

  /** When the last dot qualifies, `SplitExt` cuts there. */
  lemma SplitExtAtDot(p: string)
    requires RFind(p, '.') > RFind(p, '/')
    requires HasNonDot(p, RFind(p, '/') + 1, RFind(p, '.'))
    ensures SplitExt(p) == (p[..RFind(p, '.')], p[RFind(p, '.')..])
  {
  }

  /** Adding `.ext` after `stem` leaves the last '/' where it was. */
  lemma LastSlashOfJoin(stem: string, ext: string)
    requires '/' !in ext
    ensures RFind(stem + "." + ext, '/') == RFind(stem, '/')
  {
    assert stem + "." + ext == stem + ("." + ext);
    RFindPrefix(stem, "." + ext, '/');
  }

  /** The last dot of `stem + "." + ext` is the one just added. */
  lemma LastDotOfJoin(stem: string, ext: string) returns (d: int)
    requires '.' !in ext
    ensures d == |stem| == RFind(stem + "." + ext, '.')
  {
    var q := stem + ".";
    RFindPrefix(q, ext, '.');
    assert q[..|q| - 1] == stem;
    assert RFind(q, '.') == |stem|;
    assert q + ext == stem + "." + ext;
    d := |stem|;
  }

  /** ... and so has extension `ext`, lower-cased. */
  lemma ExtensionOfJoin(stem: string, ext: string)
    requires '.' !in ext && '/' !in ext
    requires HasNonDot(stem, RFind(stem, '/') + 1, |stem|)
    ensures Extension(stem + "." + ext) == Lower(ext)
  {
    SplitExtOfJoin(stem, ext);
    assert ("." + ext)[1..] == ext;
  }

  /** Appending characters other than `c` does not move the last `c`. */
  lemma {:induction false} RFindPrefix(s: string, t: string, c: char)
    requires c !in t
    ensures RFind(s + t, c) == RFind(s, c)
    decreases |t|
  {
    if |t| > 0 {
      var u := s + t;
      assert u[|u| - 1] == t[|t| - 1];
      assert u[..|u| - 1] == s + t[..|t| - 1];
      RFindPrefix(s, t[..|t| - 1], c);
    } else {
      assert s + t == s;
    }
  }

  /** `s.split(sep)` for a one-character separator: the pieces between separators,
      including empty pieces, always at least one. */
  function Split(s: string, sep: char): (parts: seq<string>)
    ensures |parts| >= 1
    ensures forall i :: 0 <= i < |parts| ==> sep !in parts[i]
    decreases |s|
  {
    var i := Find(s, sep);
    if i < 0 then [s]
    else
      assert sep !in s[..i];
      [s[..i]] + Split(s[i + 1..], sep)
  }

  /** `sep.join(parts)`. */
  function Join(parts: seq<string>, sep: char): string
    decreases |parts|
  {
    if |parts| == 0 then ""
    else if |parts| == 1 then parts[0]
    else parts[0] + [sep] + Join(parts[1..], sep)
  }

  /** Joining the pieces of a split gives back the original string. */
  lemma {:induction false} JoinSplit(s: string, sep: char)
    ensures Join(Split(s, sep), sep) == s
    decreases |s|
  {
    var i := Find(s, sep);
    if i < 0 {
      assert Split(s, sep) == [s];
    } else {
      var rest := Split(s[i + 1..], sep);
      calc {
        Join(Split(s, sep), sep);
        Join([s[..i]] + rest, sep);
        { JoinCons(s[..i], rest, sep); }
        s[..i] + [sep] + Join(rest, sep);
        { JoinSplit(s[i + 1..], sep); }
        s[..i] + [sep] + s[i + 1..];
        { CutAt(s, i); }
        s;
      }
    }
  }

  /** A string is what comes before position `i`, the character there, and what
      comes after. */
  lemma CutAt(s: string, i: int)
    requires 0 <= i < |s|
    ensures s[..i] + [s[i]] + s[i + 1..] == s
  {
  }

  /** Joining a head and at least one more piece puts a separator after the head. */
  lemma JoinCons(head: string, rest: seq<string>, sep: char)
    requires |rest| >= 1
    ensures Join([head] + rest, sep) == head + [sep] + Join(rest, sep)
  {
    var parts := [head] + rest;
    assert parts[0] == head && parts[1..] == rest;
  }

  /** Splitting a join of separator-free pieces gives back the pieces. */
  lemma {:induction false} SplitJoin(parts: seq<string>, sep: char)
    requires |parts| >= 1
    requires forall i :: 0 <= i < |parts| ==> sep !in parts[i]
    ensures Split(Join(parts, sep), sep) == parts
    decreases |parts|
  {
    if |parts| == 1 {
      assert Find(parts[0], sep) < 0;
    } else {
      var s := Join(parts, sep);
      var head := parts[0];
      var tail := Join(parts[1..], sep);
      assert s == head + [sep] + tail;
      assert forall k :: 0 <= k < |head| ==> s[k] == head[k] && s[k] != sep;
      assert s[|head|] == sep;
      assert Find(s, sep) == |head|;
      assert s[..|head|] == head;
      assert s[|head| + 1..] == tail;
      SplitJoin(parts[1..], sep);
      assert parts == [head] + parts[1..];
    }
  }
}

=== FILE: run_llm_prompt.dfy ===
/** The chunk executor. Each message names one merged chunk of a document; the
    function logs the chunk as Processing, builds the prompt for the chunk's text,
    posts it to the chat-completion endpoint and, by the answer:
    - 200 with finish reason "stop": writes the LLM output record, logs the chunk
      Complete and runs the fan-in check on the document;
    - 200 with finish reason "content_filter": logs the chunk Skipped;
    - 429: sends the message back to the chunks queue with its chunk counter
      raised by one and logs the chunk Throttled, until that counter reaches
      `max_submit_requeue_count`, after which the chunk is logged Error;
    - 400: logs the chunk Error;
    - anything else: nothing more, so the chunk stays Processing.
    An exception is logged on the chunk as Error with the message as JSON. The
    executor makes no `upsert_document` or `save_document` call of its own; the
    document's record changes only inside the fan-in check, which writes it back
    through `update_document_state`. */
module RunLLMPrompt {
  import opened Wrappers
  import opened Json
  import opened StatusLog
  import opened Pipeline
  import PromptLog
  import PyStr

  const FunctionName: string := "RunLLMPrompt"

  /** The keys read at lines 93-101, in the order they are read. */
  const ChunkKeys: seq<string> :=
    ["blob_name", "blob_uri", "chunk_name", "chunk_blob_uri", "FR_resultId",
     "polling_queue_count", "submit_queued_count", "chunk_queued_count", "prompt_id"]

  /** The message fields once all are bound and the two names the chunk log needs
      are strings. */
  datatype Fields = Fields(
    blobName: string, blobUri: Value, chunkName: string, chunkBlobUri: Value, resultId: Value,
    pollCount: Value, submitCount: Value, chunkCount: Value, promptId: Value)

  /** The `usage` counts and the message content of a completed choice. */
  datatype Usage = Usage(content: string, completionTokens: int, promptTokens: int, totalTokens: int)

  /** How `requests.post` ends: with an exception, or with a response: its code,
      the first choice's `finish_reason` (or the exception reading it raises), its
      content and usage (or the exception reading them raises), and
      `str(response.content)`. */
  datatype Answer =
    | NoResponse(err: string)
    | Answered(code: int, finish: Attempt<string>, usage: Attempt<Usage>, text: string)

  /** Lines 93-101: every key present and both names strings, or nothing. */
  function Parse(message: Message): (r: Option<Fields>)
    ensures r.Some? <==>
      Decode(message, ChunkKeys).Done? && Get(message, "blob_name").value.Str? && Get(message, "chunk_name").value.Str?
    ensures r.Some? ==>
      && Get(message, "blob_name") == Some(Str(r.value.blobName))
      && Get(message, "blob_uri") == Some(r.value.blobUri)
      && Get(message, "chunk_name") == Some(Str(r.value.chunkName))
      && Get(message, "chunk_blob_uri") == Some(r.value.chunkBlobUri)
      && Get(message, "FR_resultId") == Some(r.value.resultId)
      && Get(message, "polling_queue_count") == Some(r.value.pollCount)
      && Get(message, "submit_queued_count") == Some(r.value.submitCount)
      && Get(message, "chunk_queued_count") == Some(r.value.chunkCount)
      && Get(message, "prompt_id") == Some(r.value.promptId)
  {
    match Decode(message, ChunkKeys)
    case Failed(_) => None
    case Done(vs) =>
      assert Get(message, ChunkKeys[0]) == Some(vs[0]) && Get(message, ChunkKeys[2]) == Some(vs[2]);
      if vs[0].Str? && vs[2].Str? then
        assert Get(message, ChunkKeys[1]) == Some(vs[1]) && Get(message, ChunkKeys[3]) == Some(vs[3]);
        assert Get(message, ChunkKeys[4]) == Some(vs[4]) && Get(message, ChunkKeys[5]) == Some(vs[5]);
        assert Get(message, ChunkKeys[6]) == Some(vs[6]) && Get(message, ChunkKeys[7]) == Some(vs[7]);
        assert Get(message, ChunkKeys[8]) == Some(vs[8]);
        Some(Fields(vs[0].s, vs[1], vs[2].s, vs[3], vs[4], vs[5], vs[6], vs[7], vs[8]))
      else None
  }

  // ------------------------------------------------------------ the chunk log calls

  const PathTypeError: string := "expected str, bytes or os.PathLike object, not int"
  const EncodeTypeError: string := "'int' object has no attribute 'encode'"

  /** The exception `create_chunk_log_entry` raises on these names: `basename` of a
      number, then `encode` of a number. */
  function ChunkLogError(blobName: Value, chunkName: Value): Option<string>
  {
    if blobName.Int? then Some(PathTypeError)
    else if chunkName.Int? then Some(EncodeTypeError)
    else None
  }

  /** Whether the handler's own chunk log can run: the four names it reads are
      bound (`blob_name` to `chunk_blob_uri`, the first four keys) and both names
      are strings. Otherwise an exception escapes the handler. */
  predicate Logs(message: Message)
  {
    && BoundCount(message, ChunkKeys) >= 4
    && ChunkLogError(Get(message, "blob_name").value, Get(message, "chunk_name").value).None?
  }

  /** `create_chunk_log_entry(blob_name, chunk_blob_uri, chunk_name, state, info)`. */
  function LogChunk(fx: Fx, f: Fields, state: State, info: string): Fx
  {
    DoCall(fx, ChunkLogged(f.blobName, f.chunkName, state, info))
  }

  const ProcessingInfo: string := FunctionName + " - Processing started"
  const ContentFilterInfo: string := FunctionName + " - content_filter"
  const CeilingInfo: string := FunctionName + " - maximum submissions to Azure OpenAI endpoint reached"
  const BadRequestPrefix: string := FunctionName + " - An error occurred, check your request payload, AOAI returned status_code: "
  const ErrorPrefix: string := FunctionName + " - An error occurred in python code, str(e) - "

  function CompleteInfo(u: Usage): string
  {
    FunctionName + " - llm_completion_tokens: " + IntToString(u.completionTokens)
      + ", llm_prompt_tokens: " + IntToString(u.promptTokens) + ", llm_total_tokens: " + IntToString(u.totalTokens)
  }

  function RequeueInfo(cfg: Config, count: int): string
  {
    FunctionName + " - Re-queued, chunk_queued_count " + IntToString(count)
      + ",visible in " + IntToString(cfg.submitRequeueHideSeconds) + " seconds"
  }

  function BadRequestInfo(code: int, text: string): string
  {
    BadRequestPrefix + IntToString(code) + ", " + text
  }

  /** Line 233: the exception and the message as received, serialised. */
  function ErrorInfo(err: string, message: Message): string
  {
    ErrorPrefix + err + ", message_json:" + Dumps(message)
  }

  // ------------------------------------------------------------ the prompt

  const NoSplit: string := "'int' object has no attribute 'split'"

  /** Lines 119-124: the default user for the default prompt, otherwise the fifth
      '/'-separated part of the blob uri (the uploader's folder). */
  function UserId(f: Fields): (r: Attempt<string>)
    ensures f.promptId == Str("default") ==> r == Done("default")
    ensures f.promptId != Str("default") && f.blobUri.Int? ==> r == Failed(NoSplit)
  {
    if f.promptId == Str("default") then Done("default")
    else
      match f.blobUri
      case Int(_) => Failed(NoSplit)
      case Str(uri) =>
        var parts := PyStr.Split(uri, '/');
        if |parts| > 4 then Done(parts[4]) else Failed(IndexOutOfRange)
  }

  /** Line 161: the user message. */
  function UserContent(prompt: string, text: string): string
  {
    prompt + "\ninput text:" + text
  }

  /** Lines 106-170 up to the answer: the Processing log, the user id, the prompt,
      the chunk's merged text (`blob` is what reading it returns or raises) and the
      request. `queryError` is what the prompt store raises on a malformed query. */
  function Asked(cfg: Config, f: Fields, prompts: PromptLog.PromptStore, blob: Attempt<string>, queryError: string): (r: Try)
    ensures r.Normal? ==> UserId(f).Done? && !PromptLog.BreaksQuery(UserId(f).value, f.promptId) && blob.Done?
  {
    var fx := LogChunk(Start, f, Processing, ProcessingInfo);
    match UserId(f)
    case Failed(err) => Raised(fx, err)
    case Done(user) =>
      match PromptLog.GetPromptOutcome(prompts, user, f.promptId)
      case None => Raised(fx, queryError)
      case Some(prompt) =>
        match blob
        case Failed(err) => Raised(fx, err)
        case Done(text) => Normal(DoCall(fx, Posted(cfg.systemMessage, UserContent(prompt, text))))
  }

  // ------------------------------------------------------------ the answer

  /** Lines 209-222: below the ceiling, the message goes back to the chunks queue
      with its counter raised; at the ceiling the chunk is logged Error. */
  function Requeue(cfg: Config, fx: Fx, f: Fields, message: Message): Try
  {
    match Less(f.chunkCount, cfg.maxSubmitRequeueCount)
    case Failed(err) => Raised(fx, err)
    case Done(below) =>
      if below then
        var count := f.chunkCount.i + 1;
        var fx1 := DoSend(fx, cfg.chunksQueue, Put(message, "chunk_queued_count", Int(count)), cfg.submitRequeueHideSeconds);
        Normal(LogChunk(fx1, f, Throttled, RequeueInfo(cfg, count)))
      else
        Normal(LogChunk(fx, f, State.Error, CeilingInfo))
  }

  /** Lines 180-201 on a completed choice: the output record, the Complete log and
      the fan-in check, in that order. `written` is the name `write_llm_output`
      returns, or what it raises; the fan-in check raises `queryError` when the
      document's path breaks its queries. */
  function Completed(fx: Fx, f: Fields, user: string, u: Usage, written: Attempt<string>, queryError: string): Try
  {
    match written
    case Failed(err) => Raised(fx, err)
    case Done(outputName) =>
      var fx1 := DoCall(fx, OutputLogged(f.blobName, f.chunkName, u.content, outputName, user, f.promptId,
                                         u.completionTokens, u.promptTokens, u.totalTokens));
      var fx2 := DoCall(LogChunk(fx1, f, Complete, CompleteInfo(u)), FanInChecked(f.blobName));
      if BreaksFanInQuery(f.blobName) then Raised(fx2, queryError) else Normal(fx2)
  }

  /** Lines 175-226 on a response. There is no branch for another finish reason or
      another code. */
  function Respond(cfg: Config, fx: Fx, f: Fields, message: Message, user: string, answer: Answer, written: Attempt<string>, queryError: string): Try
    requires answer.Answered?
  {
    if answer.code == 200 then
      match answer.finish
      case Failed(err) => Raised(fx, err)
      case Done(reason) =>
        if reason == "stop" then
          match answer.usage
          case Failed(err) => Raised(fx, err)
          case Done(u) => Completed(fx, f, user, u, written, queryError)
        else if reason == "content_filter" then Normal(LogChunk(fx, f, Skipped, ContentFilterInfo))
        else Normal(fx)
    else if answer.code == 429 then Requeue(cfg, fx, f, message)
    else if answer.code == 400 then Normal(LogChunk(fx, f, State.Error, BadRequestInfo(answer.code, answer.text)))
    else Normal(fx)
  }

  /** The `try` block of lines 85-226 for a message whose four logged names are
      bound: a missing later key raises first. */
  function Tried(cfg: Config, message: Message, prompts: PromptLog.PromptStore, blob: Attempt<string>,
                 answer: Answer, written: Attempt<string>, queryError: string): Try
    requires Logs(message)
  {
    match Parse(message)
    case None => Raised(Start, KeyError(ChunkKeys[BoundCount(message, ChunkKeys)]))
    case Some(f) =>
      var asked := Asked(cfg, f, prompts, blob, queryError);
      if asked.Raised? then asked
      else if answer.NoResponse? then Raised(asked.fx, answer.err)
      else Respond(cfg, asked.fx, f, message, UserId(f).value, answer, written, queryError)
  }

  /** Lines 229-233: the exception is logged on the chunk as Error. */
  function Handle(tried: Try, message: Message): Fx
    requires Logs(message)
  {
    match tried
    case Normal(fx) => fx
    case Raised(fx, err) =>
      DoCall(fx, ChunkLogged(BlobName(message), ChunkName(message), State.Error, ErrorInfo(err, message)))
  }

  /** The two names the handler logs the chunk under. */
  function BlobName(message: Message): string
    requires Logs(message)
  {
    Get(message, "blob_name").value.s
  }

  function ChunkName(message: Message): string
    requires Logs(message)
  {
    Get(message, "chunk_name").value.s
  }

  /** The exception that escapes the handler of a message that does not `Log`: the
      first unbound name it reads (`blob_name`, then `chunk_blob_uri`, which is
      bound after `chunk_name`), or the chunk log's own exception. */
  function CrashError(message: Message): string
    requires !Logs(message)
  {
    var n := BoundCount(message, ChunkKeys);
    if n == 0 then Unbound("blob_name")
    else if n < 4 then Unbound("chunk_blob_uri")
    else ChunkLogError(Get(message, "blob_name").value, Get(message, "chunk_name").value).value
  }

  /** `main` for one chunk message. `prompts` is the prompt store, `blob` the
      chunk's merged text as read, `answer` how the request ends and `written`
      what `write_llm_output` returns. The executor never saves. */
  function Run(cfg: Config, message: Message, prompts: PromptLog.PromptStore, blob: Attempt<string>,
               answer: Answer, written: Attempt<string>, queryError: string): Outcome
  {
    if !Logs(message) then Crashed(Start, CrashError(message))
    else Finished(Handle(Tried(cfg, message, prompts, blob, answer, written, queryError), message))
  }

  // ------------------------------------------------------------ replaying the executor's calls

  /** A call that writes through to the store without touching the cache, that
      only talks to the outside world, or that is a fan-in check whose queries
      raise (so it changes nothing). */
  predicate Writes(c: Call)
  {
    c.ChunkLogged? || c.OutputLogged? || c.Posted? || (c.FanInChecked? && BreaksFanInQuery(c.path))
  }

  predicate WritesOnly(calls: seq<Call>)
  {
    forall i :: 0 <= i < |calls| ==> Writes(calls[i])
  }

  predicate LoggedAs(c: Call, name: string, chunk: string, state: State)
  {
    c.ChunkLogged? && c.filePath == name && c.chunkName == chunk && c.chunkState == state
  }

  /** The chunk log `calls` leave behind: the last call logs the chunk in `state`,
      or the call before it does and the last one is the request (which leaves the
      store alone) or the document's fan-in check. Nothing before the last call
      stages a record. */
  predicate Leaves(calls: seq<Call>, name: string, chunk: string, state: State)
  {
    && |calls| > 0
    && WritesOnly(calls[..|calls| - 1])
    && (|| LoggedAs(calls[|calls| - 1], name, chunk, state)
        || (&& |calls| > 1 && (calls[|calls| - 1].Posted? || calls[|calls| - 1] == FanInChecked(name))
            && LoggedAs(calls[|calls| - 2], name, chunk, state)))
  }

  /** Writes keep the store well formed and the cache empty. */
  lemma {:induction false} WritesKeep(store: Store, calls: seq<Call>, ctx: Ctx)
    requires StoreWF(store) && WritesOnly(calls)
    ensures StoreWF(Effect(store, calls, ctx).store) && Effect(store, calls, ctx).cache == map[]
    decreases |calls|
  {
    if |calls| > 0 {
      var init := calls[..|calls| - 1];
      assert WritesOnly(init) by {
        assert forall i :: 0 <= i < |init| ==> init[i] == calls[i];
      }
      WritesKeep(store, init, ctx);
      assert Writes(calls[|calls| - 1]);
    }
  }

  /** The fan-in check leaves every chunk log as it was, except one that sits at
      the document's own id: that one only gains `state` and a new timestamp,
      keeping its chunk state. */
  lemma FanInKeepsChunkLog(log: Log, path: string, ctx: Ctx, k: Key)
    requires StoreWF(log.store) && !IsStaged(log, path)
    requires k in log.store && log.store[k].ChunkLog?
    ensures var r := MarkDocumentProcessingComplete(log, path, ctx);
      && k in r.store
      && (k != DocumentKey(path) ==> r.store[k] == log.store[k])
      && (k == DocumentKey(path) ==> r.store[k] == log.store[k] || r.store[k] == SetState(log.store[k], Complete, ctx.now))
  {
    if AllChunksComplete(log, path) && DocumentKey(path) in log.store {
      UpdateDocumentStateStore(log, path, Complete, ctx);
    }
  }

  /** The chunk's record after a trace that `Leaves` it in `state`, whatever the
      store held before. */
  lemma LeavesStore(store: Store, calls: seq<Call>, name: string, chunk: string, state: State, ctx: Ctx)
    requires StoreWF(store) && Leaves(calls, name, chunk, state)
    ensures var after := Effect(store, calls, ctx).store;
      var k := ChunkKey(name, chunk);
      && k in after && after[k].ChunkLog? && after[k].chunkState == state
      && after[k].filePath == name && after[k].chunkName == chunk
  {
    var init := calls[..|calls| - 1];
    var last := calls[|calls| - 1];
    assert calls == init + [last];
    ReplaySnoc(Log(store, map[]), init, last, ctx);
    if !LoggedAs(last, name, chunk, state) {
      LoggedStore(store, init, name, chunk, state, ctx);
      WritesKeep(store, init, ctx);
      if last.FanInChecked? {
        FanInKeepsChunkLog(Effect(store, init, ctx), name, ctx, ChunkKey(name, chunk));
      }
    }
  }

  /** A trace ending with the chunk's log. */
  lemma LoggedStore(store: Store, calls: seq<Call>, name: string, chunk: string, state: State, ctx: Ctx)
    requires |calls| > 0 && LoggedAs(calls[|calls| - 1], name, chunk, state)
    ensures var after := Effect(store, calls, ctx).store;
      var k := ChunkKey(name, chunk);
      && k in after && after[k].ChunkLog? && after[k].chunkState == state
      && after[k].filePath == name && after[k].chunkName == chunk
  {
    var init := calls[..|calls| - 1];
    assert calls == init + [calls[|calls| - 1]];
    ReplaySnoc(Log(store, map[]), init, calls[|calls| - 1], ctx);
  }

  // ------------------------------------------------------------ the chunk's final state

  /** The state a response leaves the chunk in, read off the table of answers: a
      completed choice makes it Complete, a filtered one Skipped, throttling below
      the ceiling Throttled, every failure Error, and an answer the function has no
      branch for leaves it Processing. A completed choice on a document whose path
      breaks the fan-in queries ends Error: the check raises after the Complete
      log and the handler logs over it. */
  function RespondState(cfg: Config, f: Fields, answer: Answer, written: Attempt<string>): State
    requires answer.Answered?
  {
    if answer.code == 200 then
      if answer.finish == Done("stop") then
        if answer.usage.Done? && written.Done? && !BreaksFanInQuery(f.blobName) then Complete else State.Error
      else if answer.finish == Done("content_filter") then Skipped
      else if answer.finish.Failed? then State.Error
      else Processing
    else if answer.code == 429 then
      if f.chunkCount.Int? && f.chunkCount.i < cfg.maxSubmitRequeueCount then Throttled else State.Error
    else if answer.code == 400 then State.Error
    else Processing
  }

  /** The state one invocation leaves the chunk in: Error when anything before the
      answer fails (the user id, the prompt query, the chunk's text, the request),
      otherwise what the answer decides. */
  function FinalChunkState(cfg: Config, message: Message, blob: Attempt<string>, answer: Answer, written: Attempt<string>): State
    requires Logs(message)
  {
    match Parse(message)
    case None => State.Error
    case Some(f) =>
      if UserId(f).Failed? || PromptLog.BreaksQuery(UserId(f).value, f.promptId) || blob.Failed? || answer.NoResponse? then State.Error
      else RespondState(cfg, f, answer, written)
  }

  /** The handler logs an exception as Error after the writes made so far. */
  lemma HandleLeaves(tried: Try, message: Message, state: State)
    requires Logs(message)
    requires tried.Raised? ==> WritesOnly(tried.fx.calls) && state == State.Error
    requires tried.Normal? ==> Leaves(tried.fx.calls, BlobName(message), ChunkName(message), state)
    ensures Leaves(Handle(tried, message).calls, BlobName(message), ChunkName(message), state)
  {
    if tried.Raised? {
      var c := ChunkLogged(BlobName(message), ChunkName(message), State.Error, ErrorInfo(tried.err, message));
      LoggedAfter(tried.fx.calls, c, Handle(tried, message).calls, BlobName(message), ChunkName(message), state);
    }
  }

  /** Writes followed by a chunk log leave the chunk as logged. */
  lemma LoggedAfter(pre: seq<Call>, c: Call, calls: seq<Call>, name: string, chunk: string, state: State)
    requires WritesOnly(pre) && LoggedAs(c, name, chunk, state) && calls == pre + [c]
    ensures Leaves(calls, name, chunk, state)
  {
    assert calls[..|calls| - 1] == pre;
  }

  /** A chunk log after writes leaves the chunk in its state. */
  lemma LogLeaves(fx: Fx, f: Fields, state: State, info: string)
    requires WritesOnly(fx.calls)
    ensures Leaves(LogChunk(fx, f, state, info).calls, f.blobName, f.chunkName, state)
    ensures LogChunk(fx, f, state, info).sends == fx.sends
  {
    var calls := LogChunk(fx, f, state, info).calls;
    assert calls[..|calls| - 1] == fx.calls;
  }

  /** Writes followed by more writes. */
  lemma WritesAppend(calls: seq<Call>, c: Call)
    requires WritesOnly(calls) && Writes(c)
    ensures WritesOnly(calls + [c])
  {
  }

  /** The request is made exactly when the user id is read, the prompt query is
      well formed and the chunk's text is read; before it the chunk is logged
      Processing, and nothing is sent. A malformed prompt query raises before the
      chunk's text is read. */
  lemma AskedShape(cfg: Config, f: Fields, prompts: PromptLog.PromptStore, blob: Attempt<string>, queryError: string)
    ensures var a := Asked(cfg, f, prompts, blob, queryError);
      && a.fx.sends == [] && WritesOnly(a.fx.calls)
      && |a.fx.calls| >= 1 && a.fx.calls[0] == ChunkLogged(f.blobName, f.chunkName, Processing, ProcessingInfo)
      && (a.Raised? <==> UserId(f).Failed? || PromptLog.BreaksQuery(UserId(f).value, f.promptId) || blob.Failed?)
      && (UserId(f).Done? && PromptLog.BreaksQuery(UserId(f).value, f.promptId) ==>
            a.Raised? && a.err == queryError && |a.fx.calls| == 1)
      && (a.Normal? ==> a.fx.calls == [ChunkLogged(f.blobName, f.chunkName, Processing, ProcessingInfo),
                                       Posted(cfg.systemMessage, UserContent(PromptLog.GetPromptText(prompts, UserId(f).value, f.promptId), blob.value))])
  {
  }

  /** A completed choice: the output record, the Complete log, then the fan-in
      check, unless writing the output raises; the fan-in check raises when the
      document's path breaks its queries. */
  lemma CompletedLeaves(fx: Fx, f: Fields, user: string, u: Usage, written: Attempt<string>, queryError: string)
    requires WritesOnly(fx.calls)
    ensures var t := Completed(fx, f, user, u, written, queryError);
      && t.fx.sends == fx.sends
      && (t.Raised? <==> written.Failed? || BreaksFanInQuery(f.blobName))
      && (t.Raised? ==> WritesOnly(t.fx.calls))
      && (written.Done? ==> Leaves(t.fx.calls, f.blobName, f.chunkName, Complete))
  {
    if written.Done? {
      var t := Completed(fx, f, user, u, written, queryError);
      var out := OutputLogged(f.blobName, f.chunkName, u.content, written.value, user, f.promptId,
                              u.completionTokens, u.promptTokens, u.totalTokens);
      WritesAppend(fx.calls, out);
      var logged := LogChunk(DoCall(fx, out), f, Complete, CompleteInfo(u));
      WritesAppend(fx.calls + [out], logged.calls[|logged.calls| - 1]);
      assert t.fx.calls[..|t.fx.calls| - 1] == logged.calls;
      if BreaksFanInQuery(f.blobName) {
        WritesAppend(logged.calls, FanInChecked(f.blobName));
      }
    }
  }

  /** Throttling: one send below the ceiling, then the Throttled log; the Error log
      at it; an exception when the counter is not a number. */
  lemma RequeueLeaves(cfg: Config, fx: Fx, f: Fields, message: Message)
    requires WritesOnly(fx.calls)
    ensures var t := Requeue(cfg, fx, f, message);
      var state := if f.chunkCount.Int? && f.chunkCount.i < cfg.maxSubmitRequeueCount then Throttled else State.Error;
      && (t.Raised? <==> f.chunkCount.Str?)
      && (t.Raised? ==> WritesOnly(t.fx.calls) && t.fx == fx)
      && (t.Normal? ==> Leaves(t.fx.calls, f.blobName, f.chunkName, state))
      && (state == Throttled ==> t.fx.sends == fx.sends + [Send(cfg.chunksQueue, Put(message, "chunk_queued_count", Int(f.chunkCount.i + 1)), cfg.submitRequeueHideSeconds)])
      && (state != Throttled ==> t.fx.sends == fx.sends)
  {
    if f.chunkCount.Int? {
      if f.chunkCount.i < cfg.maxSubmitRequeueCount {
        var count := f.chunkCount.i + 1;
        LogLeaves(DoSend(fx, cfg.chunksQueue, Put(message, "chunk_queued_count", Int(count)), cfg.submitRequeueHideSeconds),
                  f, Throttled, RequeueInfo(cfg, count));
      } else {
        LogLeaves(fx, f, State.Error, CeilingInfo);
      }
    }
  }

  /** After the request, the answer leaves the chunk in `RespondState`; an
      exception comes only with state Error. Only throttling sends. */
  lemma RespondLeaves(cfg: Config, fx: Fx, f: Fields, message: Message, user: string, answer: Answer, written: Attempt<string>, queryError: string)
    requires answer.Answered?
    requires WritesOnly(fx.calls) && Leaves(fx.calls, f.blobName, f.chunkName, Processing)
    ensures var t := Respond(cfg, fx, f, message, user, answer, written, queryError);
      var state := RespondState(cfg, f, answer, written);
      && (t.Raised? ==> WritesOnly(t.fx.calls) && state == State.Error)
      && (t.Normal? ==> Leaves(t.fx.calls, f.blobName, f.chunkName, state))
      && (state != Throttled ==> t.fx.sends == fx.sends)
  {
    if answer.code == 200 {
      if answer.finish == Done("stop") && answer.usage.Done? {
        CompletedLeaves(fx, f, user, answer.usage.value, written, queryError);
      } else if answer.finish == Done("content_filter") {
        LogLeaves(fx, f, Skipped, ContentFilterInfo);
      }
    } else if answer.code == 429 {
      RequeueLeaves(cfg, fx, f, message);
    } else if answer.code == 400 {
      LogLeaves(fx, f, State.Error, BadRequestInfo(answer.code, answer.text));
    }
  }

  /** The request made, the chunk is left Processing after writes only. */
  lemma AskedLeaves(cfg: Config, f: Fields, prompts: PromptLog.PromptStore, blob: Attempt<string>, queryError: string)
    requires Asked(cfg, f, prompts, blob, queryError).Normal?
    ensures WritesOnly(Asked(cfg, f, prompts, blob, queryError).fx.calls)
    ensures Leaves(Asked(cfg, f, prompts, blob, queryError).fx.calls, f.blobName, f.chunkName, Processing)
  {
    AskedShape(cfg, f, prompts, blob, queryError);
    var calls := Asked(cfg, f, prompts, blob, queryError).fx.calls;
    assert calls[..1] == [calls[0]];
  }

  /** The `try` block on a parsed message. */
  lemma ParsedLeaves(cfg: Config, message: Message, f: Fields, prompts: PromptLog.PromptStore, blob: Attempt<string>,
                     answer: Answer, written: Attempt<string>, queryError: string)
    requires Logs(message) && Parse(message) == Some(f)
    ensures var t := Tried(cfg, message, prompts, blob, answer, written, queryError);
      var state := FinalChunkState(cfg, message, blob, answer, written);
      && (t.Raised? ==> WritesOnly(t.fx.calls) && state == State.Error)
      && (t.Normal? ==> Leaves(t.fx.calls, f.blobName, f.chunkName, state))
  {
    AskedShape(cfg, f, prompts, blob, queryError);
    var asked := Asked(cfg, f, prompts, blob, queryError);
    if asked.Normal? && answer.Answered? {
      AskedLeaves(cfg, f, prompts, blob, queryError);
      RespondLeaves(cfg, asked.fx, f, message, UserId(f).value, answer, written, queryError);
    }
  }

  /** The `try` block leaves the chunk in `FinalChunkState`. */
  lemma TriedLeaves(cfg: Config, message: Message, prompts: PromptLog.PromptStore, blob: Attempt<string>,
                    answer: Answer, written: Attempt<string>, queryError: string)
    requires Logs(message)
    ensures var t := Tried(cfg, message, prompts, blob, answer, written, queryError);
      var state := FinalChunkState(cfg, message, blob, answer, written);
      && (t.Raised? ==> WritesOnly(t.fx.calls) && state == State.Error)
      && (t.Normal? ==> Leaves(t.fx.calls, BlobName(message), ChunkName(message), state))
  {
    if Parse(message).Some? {
      ParsedLeaves(cfg, message, Parse(message).value, prompts, blob, answer, written, queryError);
    }
  }

  /** An invocation whose message names the chunk runs to the end, and the chunk's
      record in the store then holds `FinalChunkState`, under the chunk's own key,
      whatever the store held before. */
  lemma RunChunkState(cfg: Config, message: Message, prompts: PromptLog.PromptStore, blob: Attempt<string>,
                      answer: Answer, written: Attempt<string>, queryError: string, store: Store, ctx: Ctx)
    requires Logs(message) && StoreWF(store)
    ensures var r := Run(cfg, message, prompts, blob, answer, written, queryError);
      var after := Effect(store, r.fx.calls, ctx).store;
      var k := ChunkKey(BlobName(message), ChunkName(message));
      && r.Finished?
      && k in after && after[k].ChunkLog?
      && after[k].chunkState == FinalChunkState(cfg, message, blob, answer, written)
      && after[k].filePath == BlobName(message) && after[k].chunkName == ChunkName(message)
  {
    RunLeaves(cfg, message, prompts, blob, answer, written, queryError);
    LeavesStore(store, Run(cfg, message, prompts, blob, answer, written, queryError).fx.calls, BlobName(message), ChunkName(message),
                FinalChunkState(cfg, message, blob, answer, written), ctx);
  }

  /** A message that names the chunk runs to the end and `Leaves` the chunk in
      `FinalChunkState`. */
  lemma RunLeaves(cfg: Config, message: Message, prompts: PromptLog.PromptStore, blob: Attempt<string>,
                  answer: Answer, written: Attempt<string>, queryError: string)
    requires Logs(message)
    ensures Run(cfg, message, prompts, blob, answer, written, queryError).Finished?
    ensures Leaves(Run(cfg, message, prompts, blob, answer, written, queryError).fx.calls, BlobName(message), ChunkName(message),
                   FinalChunkState(cfg, message, blob, answer, written))
  {
    var t := Tried(cfg, message, prompts, blob, answer, written, queryError);
    TriedLeaves(cfg, message, prompts, blob, answer, written, queryError);
    HandleLeaves(t, message, FinalChunkState(cfg, message, blob, answer, written));
  }

  /** A trace that `Leaves` a chunk is writes, and at most a final fan-in check. */
  lemma LeavesWrites(calls: seq<Call>, name: string, chunk: string, state: State)
    requires Leaves(calls, name, chunk, state)
    ensures NoSave(calls)
    ensures forall i :: 0 <= i < |calls| ==> Writes(calls[i]) || (i == |calls| - 1 && calls[i].FanInChecked?)
  {
    assert forall i :: 0 <= i < |calls| - 1 ==> calls[i] == calls[..|calls| - 1][i];
  }

  /** Every call is a write except, last, the document's fan-in check (a fan-in
      check whose queries raise counts as a write, since it changes nothing): the
      executor never stages or saves a document record. */
  lemma RunNeverSaves(cfg: Config, message: Message, prompts: PromptLog.PromptStore, blob: Attempt<string>,
                      answer: Answer, written: Attempt<string>, queryError: string)
    ensures var calls := Run(cfg, message, prompts, blob, answer, written, queryError).fx.calls;
      && NoSave(calls)
      && forall i :: 0 <= i < |calls| ==> Writes(calls[i]) || (i == |calls| - 1 && calls[i].FanInChecked?)
  {
    if Logs(message) {
      RunLeaves(cfg, message, prompts, blob, answer, written, queryError);
      LeavesWrites(Run(cfg, message, prompts, blob, answer, written, queryError).fx.calls, BlobName(message), ChunkName(message),
                   FinalChunkState(cfg, message, blob, answer, written));
    }
  }

  // ------------------------------------------------------------ crashes

  /** The exception that escapes: the first unbound name the `except` block reads
      (`blob_name`, then `chunk_blob_uri`), or the chunk log's own. */
  lemma CrashErrorNames(message: Message)
    requires !Logs(message)
    ensures Get(message, "blob_name").None? ==> CrashError(message) == Unbound("blob_name")
    ensures Get(message, "blob_name").Some? && !Named(message) ==> CrashError(message) == Unbound("chunk_blob_uri")
    ensures Get(message, "blob_name").Some? && Named(message) ==>
      CrashError(message) == if Get(message, "blob_name").value.Int? then PathTypeError else EncodeTypeError
  {
    ChunkBound(message);
    if Get(message, "blob_name").None? {
    } else if !Named(message) {
      CrashUnnamed(message);
    } else {
      CrashNamed(message);
    }
  }

  lemma CrashUnnamed(message: Message)
    requires !Logs(message) && 0 < BoundCount(message, ChunkKeys) < 4
    ensures CrashError(message) == Unbound("chunk_blob_uri")
  {
  }

  lemma CrashNamed(message: Message)
    requires !Logs(message) && BoundCount(message, ChunkKeys) >= 4
    ensures CrashError(message) == if Get(message, "blob_name").value.Int? then PathTypeError else EncodeTypeError
  {
    ChunkBound(message);
    assert CrashError(message) == ChunkLogError(Get(message, "blob_name").value, Get(message, "chunk_name").value).value;
  }

  /** Where the reads of the first four keys stop. */
  lemma ChunkBound(message: Message)
    ensures BoundCount(message, ChunkKeys) == 0 <==> Get(message, "blob_name").None?
    ensures BoundCount(message, ChunkKeys) >= 4 <==> Get(message, "blob_name").Some? && Named(message)
  {
    var n := BoundCount(message, ChunkKeys);
    assert ChunkKeys[0] == "blob_name" && ChunkKeys[1] == "blob_uri";
    assert ChunkKeys[2] == "chunk_name" && ChunkKeys[3] == "chunk_blob_uri";
    if n < 4 {
      assert Get(message, ChunkKeys[n]).None?;
    }
  }

  /** The three names after `blob_name` that the handler binds before its first
      chunk log. */
  predicate Named(message: Message)
  {
    Get(message, "blob_uri").Some? && Get(message, "chunk_name").Some? && Get(message, "chunk_blob_uri").Some?
  }

  /** The handler crashes exactly when its own chunk log cannot run, having made no
      call and sent nothing, with the exception `CrashErrorNames` describes. */
  lemma RunCrashes(cfg: Config, message: Message, prompts: PromptLog.PromptStore, blob: Attempt<string>,
                   answer: Answer, written: Attempt<string>, queryError: string)
    ensures var r := Run(cfg, message, prompts, blob, answer, written, queryError);
      && (r.Crashed? <==> !Logs(message))
      && (r.Crashed? ==> r.fx.calls == [] && r.fx.sends == [] && r.err == CrashError(message))
  {
  }

  // ------------------------------------------------------------ throttling

  /** Whether an invocation sends the message back: a 429 answer to a request
      made for a chunk below the ceiling. */
  predicate Requeues(cfg: Config, message: Message, blob: Attempt<string>, answer: Answer)
  {
    Logs(message) && Parse(message).Some? && Throttles(cfg, Parse(message).value, blob, answer)
  }

  /** The request for `f` was made and throttled, and `f` is below the ceiling. */
  predicate Throttles(cfg: Config, f: Fields, blob: Attempt<string>, answer: Answer)
  {
    && UserId(f).Done? && !PromptLog.BreaksQuery(UserId(f).value, f.promptId) && blob.Done?
    && answer.Answered? && answer.code == 429
    && f.chunkCount.Int? && f.chunkCount.i < cfg.maxSubmitRequeueCount
  }

  /** `m2` is `m` sent back once (line 211): `m`'s chunk counter was below
      `max_submit_requeue_count`, `m2`'s is one more, and every other key reads as
      in `m`. */
  ghost predicate Rechunked(cfg: Config, m: Message, m2: Message)
  {
    && Get(m, "chunk_queued_count").Some? && Get(m, "chunk_queued_count").value.Int?
    && Get(m, "chunk_queued_count").value.i < cfg.maxSubmitRequeueCount
    && Get(m2, "chunk_queued_count") == Some(Int(Get(m, "chunk_queued_count").value.i + 1))
    && forall k :: k != "chunk_queued_count" ==> Get(m2, k) == Get(m, k)
  }

  /** An answer after a request that sent nothing sends only when throttled below
      the ceiling. */
  lemma RespondSends(cfg: Config, fx: Fx, f: Fields, message: Message, user: string, answer: Answer, written: Attempt<string>, queryError: string)
    requires answer.Answered? && fx.sends == [] && WritesOnly(fx.calls)
    ensures Respond(cfg, fx, f, message, user, answer, written, queryError).fx.sends
      == if answer.code == 429 && f.chunkCount.Int? && f.chunkCount.i < cfg.maxSubmitRequeueCount
         then [Send(cfg.chunksQueue, Put(message, "chunk_queued_count", Int(f.chunkCount.i + 1)), cfg.submitRequeueHideSeconds)]
         else []
  {
    if answer.code == 200 {
      if answer.finish == Done("stop") && answer.usage.Done? {
        CompletedLeaves(fx, f, user, answer.usage.value, written, queryError);
      }
    } else if answer.code == 429 {
      RequeueLeaves(cfg, fx, f, message);
    }
  }

  /** The `try` block on a parsed message sends at most the throttled message. */
  lemma ParsedSends(cfg: Config, message: Message, f: Fields, prompts: PromptLog.PromptStore, blob: Attempt<string>,
                    answer: Answer, written: Attempt<string>, queryError: string)
    requires Logs(message) && Parse(message) == Some(f)
    ensures Tried(cfg, message, prompts, blob, answer, written, queryError).fx.sends
      == if Throttles(cfg, f, blob, answer)
         then [Send(cfg.chunksQueue, Put(message, "chunk_queued_count", Int(f.chunkCount.i + 1)), cfg.submitRequeueHideSeconds)]
         else []
  {
    AskedShape(cfg, f, prompts, blob, queryError);
    var asked := Asked(cfg, f, prompts, blob, queryError);
    if asked.Normal? && answer.Answered? {
      RespondSends(cfg, asked.fx, f, message, UserId(f).value, answer, written, queryError);
    }
  }

  /** The message sent back is the one received, counter raised. */
  lemma RequeuedBody(cfg: Config, message: Message, c: int)
    requires DistinctKeys(message) && Get(message, "chunk_queued_count") == Some(Int(c)) && c < cfg.maxSubmitRequeueCount
    ensures DistinctKeys(Put(message, "chunk_queued_count", Int(c + 1)))
    ensures Rechunked(cfg, message, Put(message, "chunk_queued_count", Int(c + 1)))
  {
    PutSpec(message, "chunk_queued_count", Int(c + 1));
  }

  /** What an invocation sends is what its `try` block sent, if it gets that far. */
  lemma RunSendsTried(cfg: Config, message: Message, prompts: PromptLog.PromptStore, blob: Attempt<string>,
                      answer: Answer, written: Attempt<string>, queryError: string)
    ensures Run(cfg, message, prompts, blob, answer, written, queryError).fx.sends
         == if Logs(message) then Tried(cfg, message, prompts, blob, answer, written, queryError).fx.sends else []
  {
  }

  /** A message without all its fields raises before anything is sent. */
  lemma UnparsedSends(cfg: Config, message: Message, prompts: PromptLog.PromptStore, blob: Attempt<string>,
                      answer: Answer, written: Attempt<string>, queryError: string)
    requires !Logs(message) || Parse(message).None?
    ensures Run(cfg, message, prompts, blob, answer, written, queryError).fx.sends == []
  {
  }

  /** An invocation on a parsed message that is not throttled sends nothing. */
  lemma QuietRunSends(cfg: Config, message: Message, f: Fields, prompts: PromptLog.PromptStore, blob: Attempt<string>,
                      answer: Answer, written: Attempt<string>, queryError: string)
    requires Logs(message) && Parse(message) == Some(f) && !Throttles(cfg, f, blob, answer)
    ensures Run(cfg, message, prompts, blob, answer, written, queryError).fx.sends == []
  {
    RunSendsTried(cfg, message, prompts, blob, answer, written, queryError);
    ParsedSends(cfg, message, f, prompts, blob, answer, written, queryError);
  }

  /** A throttled invocation below the ceiling sends its own message, counter raised. */
  lemma ThrottledPut(cfg: Config, message: Message, f: Fields, prompts: PromptLog.PromptStore, blob: Attempt<string>,
                     answer: Answer, written: Attempt<string>, queryError: string)
    requires Logs(message) && Parse(message) == Some(f) && Throttles(cfg, f, blob, answer)
    ensures Run(cfg, message, prompts, blob, answer, written, queryError).fx.sends
         == [Send(cfg.chunksQueue, Put(message, "chunk_queued_count", Int(f.chunkCount.i + 1)), cfg.submitRequeueHideSeconds)]
  {
    RunSendsTried(cfg, message, prompts, blob, answer, written, queryError);
    ParsedSends(cfg, message, f, prompts, blob, answer, written, queryError);
  }

  /** The one message a throttled invocation sends back: the one it received, still
      a dict, with the chunk counter one higher and every other key as it was, to
      the chunks queue, hidden for the resubmission delay. */
  ghost predicate SentBack(cfg: Config, message: Message, sends: seq<Send>)
  {
    && |sends| == 1 && sends[0].queue == cfg.chunksQueue && sends[0].delay == cfg.submitRequeueHideSeconds
    && DistinctKeys(sends[0].body) && Rechunked(cfg, message, sends[0].body)
  }

  /** What a throttled invocation below the ceiling sends: its own message with the
      counter raised, which is the message it received as `SentBack` describes. */
  function Resent(cfg: Config, message: Message, c: int): (sends: seq<Send>)
    requires DistinctKeys(message) && Get(message, "chunk_queued_count") == Some(Int(c)) && c < cfg.maxSubmitRequeueCount
    ensures SentBack(cfg, message, sends)
  {
    RequeuedBody(cfg, message, c);
    [Send(cfg.chunksQueue, Put(message, "chunk_queued_count", Int(c + 1)), cfg.submitRequeueHideSeconds)]
  }

  /** A throttled invocation below the ceiling sends exactly `Resent`. */
  lemma ThrottledSends(cfg: Config, message: Message, f: Fields, prompts: PromptLog.PromptStore, blob: Attempt<string>,
                       answer: Answer, written: Attempt<string>, queryError: string)
    requires DistinctKeys(message) && Logs(message) && Parse(message) == Some(f) && Throttles(cfg, f, blob, answer)
    ensures Run(cfg, message, prompts, blob, answer, written, queryError).fx.sends == Resent(cfg, message, f.chunkCount.i)
  {
    ThrottledPut(cfg, message, f, prompts, blob, answer, written, queryError);
  }

  /** An invocation sends exactly when it `Requeues`, and then the one message
      `Resent` computes. */
  lemma RunSends(cfg: Config, message: Message, prompts: PromptLog.PromptStore, blob: Attempt<string>,
                 answer: Answer, written: Attempt<string>, queryError: string)
    requires DistinctKeys(message)
    ensures var sends := Run(cfg, message, prompts, blob, answer, written, queryError).fx.sends;
      && (sends != [] <==> Requeues(cfg, message, blob, answer))
      && (Requeues(cfg, message, blob, answer) ==> sends == Resent(cfg, message, Parse(message).value.chunkCount.i))
  {
    if Logs(message) && Parse(message).Some? {
      var f := Parse(message).value;
      if Throttles(cfg, f, blob, answer) {
        ThrottledSends(cfg, message, f, prompts, blob, answer, written, queryError);
      } else {
        QuietRunSends(cfg, message, f, prompts, blob, answer, written, queryError);
        assert !Requeues(cfg, message, blob, answer);
      }
    } else {
      UnparsedSends(cfg, message, prompts, blob, answer, written, queryError);
      assert !Requeues(cfg, message, blob, answer);
    }
  }

  /** However the messages pass through the queue, a chunk is sent back at most
      `max_submit_requeue_count` times counted from its first counter, and every
      copy reads like the first except for the counter. */
  lemma {:induction false} ChunkChainBounded(cfg: Config, ms: seq<Message>)
    requires |ms| > 1
    requires forall i :: 0 <= i < |ms| - 1 ==> Rechunked(cfg, ms[i], ms[i + 1])
    ensures var c := Get(ms[0], "chunk_queued_count");
      && c.Some? && c.value.Int? && |ms| - 1 <= cfg.maxSubmitRequeueCount - c.value.i
      && forall i :: 1 <= i < |ms| ==> Get(ms[i], "chunk_queued_count") == Some(Int(c.value.i + i))
    ensures forall i, k :: 0 <= i < |ms| && k != "chunk_queued_count" ==> Get(ms[i], k) == Get(ms[0], k)
    decreases |ms|
  {
    assert Rechunked(cfg, ms[0], ms[1]);
    if |ms| > 2 {
      ChunkChainBounded(cfg, ms[1..]);
      assert ms[1..][0] == ms[1];
      forall i | 2 <= i < |ms|
        ensures ms[i] == ms[1..][i - 1]
      {
      }
    }
  }

  // ------------------------------------------------------------ the completed chunk

  /** Lines 119-124 on an uploaded blob: a uri whose '/'-separated parts are
      `parts` names the user `parts[4]`, the folder under the container. */
  lemma UserIdOfUri(f: Fields, parts: seq<string>)
    requires f.promptId != Str("default") && |parts| >= 5
    requires forall i :: 0 <= i < |parts| ==> '/' !in parts[i]
    requires f.blobUri == Str(PyStr.Join(parts, '/'))
    ensures UserId(f) == Done(parts[4])
  {
    PyStr.SplitJoin(parts, '/');
  }

  /** With the user id and the text read, the chunk is logged Processing and then
      either the prompt query raises or the request is made, nothing else. */
  lemma AskedNormal(cfg: Config, f: Fields, prompts: PromptLog.PromptStore, text: string, queryError: string)
    requires UserId(f).Done?
    ensures Asked(cfg, f, prompts, Done(text), queryError) ==
      if PromptLog.BreaksQuery(UserId(f).value, f.promptId) then
        Raised(Fx([], [ChunkLogged(f.blobName, f.chunkName, Processing, ProcessingInfo)]), queryError)
      else
        Normal(Fx([], [
          ChunkLogged(f.blobName, f.chunkName, Processing, ProcessingInfo),
          Posted(cfg.systemMessage, UserContent(PromptLog.GetPromptText(prompts, UserId(f).value, f.promptId), text))]))
  {
  }

  /** On a parsed message whose request was made, the `try` block ends as the
      answer decides. */
  lemma TriedAnswered(cfg: Config, message: Message, f: Fields, prompts: PromptLog.PromptStore, blob: Attempt<string>,
                      answer: Answer, written: Attempt<string>, queryError: string)
    requires Logs(message) && Parse(message) == Some(f)
    requires Asked(cfg, f, prompts, blob, queryError).Normal? && answer.Answered?
    ensures Tried(cfg, message, prompts, blob, answer, written, queryError)
         == Respond(cfg, Asked(cfg, f, prompts, blob, queryError).fx, f, message, UserId(f).value, answer, written, queryError)
  {
  }

  /** A completed choice whose output is written appends the output record, the
      Complete log and the fan-in check, which raises exactly when the path breaks
      its queries. */
  lemma StopCalls(cfg: Config, fx: Fx, f: Fields, message: Message, user: string, u: Usage, reply: string, outputName: string,
                  queryError: string)
    ensures var t := Respond(cfg, fx, f, message, user, Answered(200, Done("stop"), Done(u), reply), Done(outputName), queryError);
      && (t.Normal? <==> !BreaksFanInQuery(f.blobName))
      && (t.Raised? ==> t.err == queryError)
      && t.fx.calls == fx.calls + [
        OutputLogged(f.blobName, f.chunkName, u.content, outputName, user, f.promptId,
                     u.completionTokens, u.promptTokens, u.totalTokens),
        ChunkLogged(f.blobName, f.chunkName, Complete, CompleteInfo(u)),
        FanInChecked(f.blobName)]
  {
  }

  /** A request answered with a completed choice, whose output is written. With a
      well-formed prompt query the calls are the Processing log, the request built
      from the stored prompt and the chunk's text, the output record, the Complete
      log with the token counts and the fan-in check, in that order; when the
      document's path breaks the fan-in queries, the handler's Error log follows.
      A malformed prompt query leaves only the Processing log and the Error log. */
  lemma RunCompletesInOrder(cfg: Config, message: Message, f: Fields, prompts: PromptLog.PromptStore, text: string,
                            u: Usage, reply: string, outputName: string, queryError: string)
    requires Logs(message) && Parse(message) == Some(f) && UserId(f).Done?
    ensures var r := Run(cfg, message, prompts, Done(text), Answered(200, Done("stop"), Done(u), reply), Done(outputName), queryError);
      !PromptLog.BreaksQuery(UserId(f).value, f.promptId) ==>
      r.fx.calls == [
        ChunkLogged(f.blobName, f.chunkName, Processing, ProcessingInfo),
        Posted(cfg.systemMessage, UserContent(PromptLog.GetPromptText(prompts, UserId(f).value, f.promptId), text)),
        OutputLogged(f.blobName, f.chunkName, u.content, outputName, UserId(f).value, f.promptId,
                     u.completionTokens, u.promptTokens, u.totalTokens),
        ChunkLogged(f.blobName, f.chunkName, Complete, CompleteInfo(u)),
        FanInChecked(f.blobName)]
        + (if BreaksFanInQuery(f.blobName) then [ChunkLogged(f.blobName, f.chunkName, State.Error, ErrorInfo(queryError, message))] else [])
    ensures var r := Run(cfg, message, prompts, Done(text), Answered(200, Done("stop"), Done(u), reply), Done(outputName), queryError);
      PromptLog.BreaksQuery(UserId(f).value, f.promptId) ==>
      r.fx.calls == [
        ChunkLogged(f.blobName, f.chunkName, Processing, ProcessingInfo),
        ChunkLogged(f.blobName, f.chunkName, State.Error, ErrorInfo(queryError, message))]
  {
    if PromptLog.BreaksQuery(UserId(f).value, f.promptId) {
      PromptQueryRaisedRun(cfg, message, f, prompts, text, Answered(200, Done("stop"), Done(u), reply), Done(outputName), queryError);
    } else {
      StopRun(cfg, message, f, prompts, text, u, reply, outputName, queryError);
    }
  }

  /** The well-formed half of `RunCompletesInOrder`. */
  lemma StopRun(cfg: Config, message: Message, f: Fields, prompts: PromptLog.PromptStore, text: string,
                u: Usage, reply: string, outputName: string, queryError: string)
    requires Logs(message) && Parse(message) == Some(f) && UserId(f).Done?
    requires !PromptLog.BreaksQuery(UserId(f).value, f.promptId)
    ensures Run(cfg, message, prompts, Done(text), Answered(200, Done("stop"), Done(u), reply), Done(outputName), queryError).fx.calls == [
        ChunkLogged(f.blobName, f.chunkName, Processing, ProcessingInfo),
        Posted(cfg.systemMessage, UserContent(PromptLog.GetPromptText(prompts, UserId(f).value, f.promptId), text)),
        OutputLogged(f.blobName, f.chunkName, u.content, outputName, UserId(f).value, f.promptId,
                     u.completionTokens, u.promptTokens, u.totalTokens),
        ChunkLogged(f.blobName, f.chunkName, Complete, CompleteInfo(u)),
        FanInChecked(f.blobName)]
        + (if BreaksFanInQuery(f.blobName) then [ChunkLogged(f.blobName, f.chunkName, State.Error, ErrorInfo(queryError, message))] else [])
  {
    TriedStop(cfg, message, f, prompts, text, u, reply, outputName, queryError);
    RunCalls(cfg, message, f, prompts, Done(text), Answered(200, Done("stop"), Done(u), reply), Done(outputName), queryError);
  }

  /** An invocation on a parsed message makes its `try` block's calls, then the
      handler's Error log if the block raised. */
  lemma RunCalls(cfg: Config, message: Message, f: Fields, prompts: PromptLog.PromptStore, blob: Attempt<string>,
                 answer: Answer, written: Attempt<string>, queryError: string)
    requires Logs(message) && Parse(message) == Some(f)
    ensures var t := Tried(cfg, message, prompts, blob, answer, written, queryError);
      Run(cfg, message, prompts, blob, answer, written, queryError).fx.calls
        == t.fx.calls + if t.Raised? then [ChunkLogged(f.blobName, f.chunkName, State.Error, ErrorInfo(t.err, message))] else []
  {
    ParsedNames(message, f);
  }

  /** The `try` block of `StopRun`: it ends with the fan-in check, raising exactly
      when the path breaks its queries. */
  lemma TriedStop(cfg: Config, message: Message, f: Fields, prompts: PromptLog.PromptStore, text: string,
                  u: Usage, reply: string, outputName: string, queryError: string)
    requires Logs(message) && Parse(message) == Some(f) && UserId(f).Done?
    requires !PromptLog.BreaksQuery(UserId(f).value, f.promptId)
    ensures var t := Tried(cfg, message, prompts, Done(text), Answered(200, Done("stop"), Done(u), reply), Done(outputName), queryError);
      && t.fx.calls == [
        ChunkLogged(f.blobName, f.chunkName, Processing, ProcessingInfo),
        Posted(cfg.systemMessage, UserContent(PromptLog.GetPromptText(prompts, UserId(f).value, f.promptId), text)),
        OutputLogged(f.blobName, f.chunkName, u.content, outputName, UserId(f).value, f.promptId,
                     u.completionTokens, u.promptTokens, u.totalTokens),
        ChunkLogged(f.blobName, f.chunkName, Complete, CompleteInfo(u)),
        FanInChecked(f.blobName)]
      && (t.Normal? <==> !BreaksFanInQuery(f.blobName))
      && (t.Raised? ==> t.err == queryError)
  {
    var answer := Answered(200, Done("stop"), Done(u), reply);
    AskedNormal(cfg, f, prompts, text, queryError);
    TriedAnswered(cfg, message, f, prompts, Done(text), answer, Done(outputName), queryError);
    var asked := Asked(cfg, f, prompts, Done(text), queryError).fx;
    StopCalls(cfg, asked, f, message, UserId(f).value, u, reply, outputName, queryError);
    var p := ChunkLogged(f.blobName, f.chunkName, Processing, ProcessingInfo);
    var q := Posted(cfg.systemMessage, UserContent(PromptLog.GetPromptText(prompts, UserId(f).value, f.promptId), text));
    var o := OutputLogged(f.blobName, f.chunkName, u.content, outputName, UserId(f).value, f.promptId,
                          u.completionTokens, u.promptTokens, u.totalTokens);
    var c := ChunkLogged(f.blobName, f.chunkName, Complete, CompleteInfo(u));
    Concat5(p, q, o, c, FanInChecked(f.blobName));
  }

  /** A malformed prompt query: the Processing log, then the handler's Error log
      carrying the store's error. */
  lemma PromptQueryRaisedRun(cfg: Config, message: Message, f: Fields, prompts: PromptLog.PromptStore, text: string,
                             answer: Answer, written: Attempt<string>, queryError: string)
    requires Logs(message) && Parse(message) == Some(f) && UserId(f).Done?
    requires PromptLog.BreaksQuery(UserId(f).value, f.promptId)
    ensures Run(cfg, message, prompts, Done(text), answer, written, queryError).fx.calls == [
        ChunkLogged(f.blobName, f.chunkName, Processing, ProcessingInfo),
        ChunkLogged(f.blobName, f.chunkName, State.Error, ErrorInfo(queryError, message))]
  {
    AskedNormal(cfg, f, prompts, text, queryError);
    TriedAsked(cfg, message, f, prompts, Done(text), answer, written, queryError);
    RunRaised(cfg, message, prompts, Done(text), answer, written, queryError);
    ParsedNames(message, f);
  }

  /** The handler logs a parsed message under the names it parsed. */
  lemma ParsedNames(message: Message, f: Fields)
    requires Logs(message) && Parse(message) == Some(f)
    ensures BlobName(message) == f.blobName && ChunkName(message) == f.chunkName
  {
  }

  /** A `try` block whose reading phase raises ends there. */
  lemma TriedAsked(cfg: Config, message: Message, f: Fields, prompts: PromptLog.PromptStore, blob: Attempt<string>,
                   answer: Answer, written: Attempt<string>, queryError: string)
    requires Logs(message) && Parse(message) == Some(f)
    requires Asked(cfg, f, prompts, blob, queryError).Raised?
    ensures Tried(cfg, message, prompts, blob, answer, written, queryError) == Asked(cfg, f, prompts, blob, queryError)
  {
  }

  lemma Concat5<T>(a: T, b: T, c: T, d: T, e: T)
    ensures [a, b] + [c, d, e] == [a, b, c, d, e]
  {
  }

  /** A `try` block that ends normally is the whole invocation. */
  lemma RunNormal(cfg: Config, message: Message, prompts: PromptLog.PromptStore, blob: Attempt<string>,
                  answer: Answer, written: Attempt<string>, queryError: string)
    requires Logs(message) && Tried(cfg, message, prompts, blob, answer, written, queryError).Normal?
    ensures Run(cfg, message, prompts, blob, answer, written, queryError) == Finished(Tried(cfg, message, prompts, blob, answer, written, queryError).fx)
  {
  }

  /** A `try` block that raises is followed by the handler's Error log. */
  lemma RunRaised(cfg: Config, message: Message, prompts: PromptLog.PromptStore, blob: Attempt<string>,
                  answer: Answer, written: Attempt<string>, queryError: string)
    requires Logs(message) && Tried(cfg, message, prompts, blob, answer, written, queryError).Raised?
    ensures var t := Tried(cfg, message, prompts, blob, answer, written, queryError);
      Run(cfg, message, prompts, blob, answer, written, queryError)
        == Finished(DoCall(t.fx, ChunkLogged(BlobName(message), ChunkName(message), State.Error, ErrorInfo(t.err, message))))
  {
  }
}

=== FILE: status_log.dfy ===
/** The status store shared by every function of the pipeline. The Cosmos container
    holds records under (record id, partition key); the partition key is the
    record's `file_name`. A record id is always `encode_document_id` of a name (the
    document path, the chunk name or the output file name), and that encoding is
    injective (`Ids.EncodeDocumentIdInjective`), so the model keys the store by
    (name, partition key) and the per-invocation cache of file logs (`_log_document`)
    by document path. A cache slot is either a staged record or the empty string
    left behind by `save_document`.

    Every operation is a pure function from the store and cache before the call to
    the store and cache after it. `now` (the formatted `datetime.now()`) and the text
    `get_stack_trace` would produce are inputs, gathered in `Ctx`. */
module StatusLog {
  import opened Wrappers
  import opened Json
  import Ids
  import PyStr

  // ------------------------------------------------------------ enumerations

  datatype State = Processing | Skipped | Queued | Complete | Error | Throttled | Uploaded | All

  /** `State.value`. */
  function StateValue(s: State): string
  {
    match s
    case Processing => "Processing"
    case Skipped => "Skipped"
    case Queued => "Queued"
    case Complete => "Complete"
    case Error => "Error"
    case Throttled => "Throttled"
    case Uploaded => "Uploaded"
    case All => "All"
  }

  datatype StatusClassification = Debug | Info | Error

  /** `StatusClassification.value`. */
  function ClassificationValue(c: StatusClassification): string
  {
    match c
    case Debug => "Debug"
    case Info => "Info"
    case Error => "Error"
  }

  datatype StatusQueryLevel = Concise | Verbose

  // ------------------------------------------------------------ records

  /** The `stack_trace` key of a status entry: absent, present with `None`, or
      present with the formatted trace. */
  datatype Trace = NoTrace | NullTrace | StackTrace(text: string)

  /** One element of a file log's `status_updates`. */
  datatype StatusUpdate = StatusUpdate(
    status: string,
    statusTimestamp: string,
    classification: StatusClassification,
    stackTrace: Trace)

  /** The three record shapes, told apart by `doc_type`. A chunk log's
      additional-information text is stored under the key "Addtional info". The
      writers give a chunk log or an output record no `state` key; `addedState`
      is the one `update_document_state` adds when such a record sits at a
      document's id. */
  datatype Item =
    | FileLog(
        filePath: string,
        fileName: string,
        state: State,
        chunkCount: int,
        mergedChunkCount: int,
        startTimestamp: string,
        stateDescription: string,
        stateTimestamp: string,
        statusUpdates: seq<StatusUpdate>)
    | ChunkLog(
        filePath: string,
        fileName: string,
        chunkName: string,
        chunkState: State,
        stateTimestamp: string,
        additionalInfo: string,
        addedState: Option<State>)
    | LlmOutput(
        filePath: string,
        fileName: string,
        chunkName: string,
        llmOutput: string,
        llmOutputFile: string,
        userId: string,
        promptId: Value,
        llmCompletionTokens: int,
        llmPromptTokens: int,
        llmTotalTokens: int,
        stateTimestamp: string,
        addedState: Option<State>)
  {
    function DocType(): string
    {
      match this
      case FileLog(_, _, _, _, _, _, _, _, _) => "file_log"
      case ChunkLog(_, _, _, _, _, _, _) => "chunk_log"
      case LlmOutput(_, _, _, _, _, _, _, _, _, _, _, _) => "llm_output"
    }

    /** The name the record id encodes. */
    function Name(): string
    {
      match this
      case FileLog(_, _, _, _, _, _, _, _, _) => filePath
      case ChunkLog(_, _, _, _, _, _, _) => chunkName
      case LlmOutput(_, _, _, _, _, _, _, _, _, _, _, _) => llmOutputFile
    }

    /** The record's `id` field. */
    function Id(): string
    {
      Ids.EncodeDocumentId(Name())
    }

    /** Where `upsert_item` puts the record: its own id and partition key. */
    function Key(): Key
    {
      (Name(), fileName)
    }
  }

  /** (name whose encoding is the record id, partition key). */
  type Key = (string, string)

  type Store = map<Key, Item>

  /** A cache slot: a staged file log, or the "" that `save_document` leaves. */
  datatype Slot = Cleared | Staged(doc: Item)

  /** The container and the cache of one `StatusLog` object, the latter keyed by
      document path. */
  datatype Log = Log(store: Store, cache: map<string, Slot>)

  /** The inputs a call reads from its environment: the formatted current time
      and the text `get_stack_trace` returns. */
  datatype Ctx = Ctx(now: string, stackTrace: string)

  // ------------------------------------------------------------ ids and keys

  /** The record id `encode_document_id` gives a path, chunk name or file name. */
  function DocumentId(name: string): string
  {
    Ids.EncodeDocumentId(name)
  }

  /** The key under which the file log of `path` is read, deleted and written. */
  function DocumentKey(path: string): Key
  {
    (path, PyStr.Basename(path))
  }

  /** Keying by name is keying by record id: two keys in the same partition are
      equal exactly when the ids they stand for are. */
  lemma KeyById(a: Key, b: Key)
    requires a.1 == b.1
    ensures a == b <==> DocumentId(a.0) == DocumentId(b.0)
  {
    Ids.EncodeDocumentIdInjective(a.0, b.0);
  }

  /** Every record sits under its own key (what `upsert_item` maintains), and its
      partition key is the basename of its document path (what every writer puts in
      `file_name`). */
  ghost predicate StoreWF(store: Store)
  {
    forall k :: k in store ==> store[k].Key() == k && store[k].fileName == PyStr.Basename(store[k].filePath)
  }

  /** Every staged slot holds the file log of its own path. */
  ghost predicate CacheWF(cache: map<string, Slot>)
  {
    forall p :: p in cache && cache[p].Staged? ==> cache[p].doc.FileLog? && cache[p].doc.Key() == DocumentKey(p)
  }

  ghost predicate Valid(log: Log)
  {
    StoreWF(log.store) && CacheWF(log.cache)
  }

  predicate IsStaged(log: Log, path: string)
  {
    path in log.cache && log.cache[path].Staged?
  }

  // ------------------------------------------------------------ upsert_document

  /** Python truthiness of an optional count: `None` and `0` are false. */
  predicate Truthy(n: Option<int>)
  {
    n.Some? && n.value != 0
  }

  /** What an existing record looks like after one more status: the reference the
      staged merge is checked against. */
  ghost predicate AppendSpec(
    before: Item, after: Item, status: string, cls: StatusClassification, state: State,
    chunkCount: Option<int>, mergedChunkCount: Option<int>, now: string, trace: string)
    requires before.FileLog?
  {
    && after.FileLog?
    && after.filePath == before.filePath && after.fileName == before.fileName
    && after.startTimestamp == before.startTimestamp && after.stateDescription == before.stateDescription
    // the state and its timestamp move only on a change of state
    && after.state == state
    && (before.state == state ==> after.stateTimestamp == before.stateTimestamp)
    && (before.state != state ==> after.stateTimestamp == now)
    // a count is overwritten exactly when a truthy value is given
    && (Truthy(chunkCount) ==> after.chunkCount == chunkCount.value)
    && (!Truthy(chunkCount) ==> after.chunkCount == before.chunkCount)
    && (Truthy(mergedChunkCount) ==> after.mergedChunkCount == mergedChunkCount.value)
    && (!Truthy(mergedChunkCount) ==> after.mergedChunkCount == before.mergedChunkCount)
    // the history grows by exactly one entry at the end
    && |after.statusUpdates| == |before.statusUpdates| + 1
    && after.statusUpdates[..|before.statusUpdates|] == before.statusUpdates
    && after.statusUpdates[|before.statusUpdates|].status == status
    && after.statusUpdates[|before.statusUpdates|].statusTimestamp == now
    && after.statusUpdates[|before.statusUpdates|].classification == cls
    && (after.statusUpdates[|before.statusUpdates|].stackTrace != NoTrace <==> cls == StatusClassification.Error)
    && (cls == StatusClassification.Error ==> after.statusUpdates[|before.statusUpdates|].stackTrace == StackTrace(trace))
  }

  /** The shape of a record created from scratch for `path`. */
  ghost predicate FreshSpec(r: Item, path: string, status: string, cls: StatusClassification, state: State, now: string)
  {
    && r.FileLog?
    && r.filePath == path && r.fileName == PyStr.Basename(path)
    && r.state == state && r.chunkCount == -1 && r.mergedChunkCount == -1
    && r.startTimestamp == now && r.stateTimestamp == now && r.stateDescription == ""
    && |r.statusUpdates| == 1
    && r.statusUpdates[0].status == status && r.statusUpdates[0].statusTimestamp == now
    && r.statusUpdates[0].classification == cls
  }

  /** The entry an upsert appends for `status`: only errors carry the stack trace. */
  function NewEntry(status: string, cls: StatusClassification, ctx: Ctx): StatusUpdate
  {
    StatusUpdate(status, ctx.now, cls, if cls == StatusClassification.Error then StackTrace(ctx.stackTrace) else NoTrace)
  }

  /** The merge of lines 155-178 on a record read from the cache or the store. */
  function AppendStatus(
    doc: Item, status: string, cls: StatusClassification, state: State,
    chunkCount: Option<int>, mergedChunkCount: Option<int>, ctx: Ctx): (r: Item)
    requires doc.FileLog?
    ensures AppendSpec(doc, r, status, cls, state, chunkCount, mergedChunkCount, ctx.now, ctx.stackTrace)
    ensures r.statusUpdates == doc.statusUpdates + [NewEntry(status, cls, ctx)]
  {
    var changed := doc.state != state;
    var entry := NewEntry(status, cls, ctx);
    var r := doc.(
      state := state,
      stateTimestamp := if changed then ctx.now else doc.stateTimestamp,
      chunkCount := if Truthy(chunkCount) && doc.chunkCount != chunkCount.value then chunkCount.value else doc.chunkCount,
      mergedChunkCount :=
        if Truthy(mergedChunkCount) && doc.mergedChunkCount != mergedChunkCount.value then mergedChunkCount.value
        else doc.mergedChunkCount,
      statusUpdates := doc.statusUpdates + [entry]);
    assert r.statusUpdates[..|doc.statusUpdates|] == doc.statusUpdates;
    r
  }

  /** The record built by either except branch (lines 179-221). */
  function FreshRecord(path: string, status: string, cls: StatusClassification, state: State, now: string, trace: Trace): (r: Item)
    ensures FreshSpec(r, path, status, cls, state, now)
    ensures r.statusUpdates[0].stackTrace == trace
  {
    FileLog(path, PyStr.Basename(path), state, -1, -1, now, "", now,
      [StatusUpdate(status, now, cls, trace)])
  }

  /** Where the merge starts from: a staged record, a stored record, nothing, or a
      storage fault other than "not found". */
  datatype Lookup = Found(doc: Item) | NotFound | ReadFailed

  function Existing(log: Log, path: string, readFails: bool): (r: Lookup)
    ensures IsStaged(log, path) ==> r == Found(log.cache[path].doc)
    ensures !IsStaged(log, path) && readFails ==> r == ReadFailed
    ensures !IsStaged(log, path) && !readFails ==>
      (r.NotFound? <==> DocumentKey(path) !in log.store) && (r.Found? ==> r.doc == log.store[DocumentKey(path)])
  {
    if IsStaged(log, path) then Found(log.cache[path].doc)
    else if readFails then ReadFailed
    else if DocumentKey(path) in log.store then Found(log.store[DocumentKey(path)])
    else NotFound
  }

  /** Under the invariants, what an upsert starts from belongs to the path: a
      staged start is the path's own file log, a stored one is the record filed
      under the path's id and partition, and "not found" means exactly that no
      record is filed there. */
  lemma ExistingOwnRecord(log: Log, path: string, readFails: bool)
    requires Valid(log)
    ensures var r := Existing(log, path, readFails);
      && (r.Found? ==> r.doc.Key() == DocumentKey(path) && r.doc.fileName == PyStr.Basename(r.doc.filePath))
      && (IsStaged(log, path) ==> r.Found? && r.doc.FileLog? && r.doc.filePath == path)
      && (r.NotFound? <==> !IsStaged(log, path) && !readFails && DocumentKey(path) !in log.store)
  {
    if IsStaged(log, path) {
      assert log.cache[path].doc.Key() == DocumentKey(path);
    } else if !readFails && DocumentKey(path) in log.store {
      assert log.store[DocumentKey(path)].Key() == DocumentKey(path);
    }
  }

  /** The record an upsert stages for `path`. A stored record that is not a file
      log has no `status_updates` key, so the merge raises `KeyError` and the generic
      handler builds a fresh record, as it does for a storage fault. */
  function StagedRecord(
    found: Lookup, path: string, status: string, cls: StatusClassification, state: State,
    freshStart: bool, chunkCount: Option<int>, mergedChunkCount: Option<int>, ctx: Ctx): (r: Item)
    ensures found.Found? && found.doc.FileLog? ==>
      AppendSpec(found.doc, r, status, cls, state, chunkCount, mergedChunkCount, ctx.now, ctx.stackTrace)
    ensures !(found.Found? && found.doc.FileLog?) ==> FreshSpec(r, path, status, cls, state, ctx.now)
    ensures found.NotFound? ==> r.statusUpdates[0].stackTrace == NoTrace
    ensures !found.NotFound? && !(found.Found? && found.doc.FileLog?) ==>
      r.statusUpdates[0].stackTrace == (if freshStart then NullTrace else StackTrace(ctx.stackTrace))
    ensures r.FileLog? && r.state == state
    ensures found.Found? && found.doc.FileLog? ==> r.filePath == found.doc.filePath && r.fileName == found.doc.fileName
    ensures !(found.Found? && found.doc.FileLog?) ==> r.filePath == path && r.fileName == PyStr.Basename(path)
  {
    match found
    case Found(doc) =>
      if doc.FileLog? then AppendStatus(doc, status, cls, state, chunkCount, mergedChunkCount, ctx)
      else FreshRecord(path, status, cls, state, ctx.now, if freshStart then NullTrace else StackTrace(ctx.stackTrace))
    case NotFound => FreshRecord(path, status, cls, state, ctx.now, NoTrace)
    case ReadFailed =>
      FreshRecord(path, status, cls, state, ctx.now, if freshStart then NullTrace else StackTrace(ctx.stackTrace))
  }

  /** `upsert_document`: an optional fresh-start delete of the stored record (a
      missing record is ignored), then a merge into the cache. The store is never
      written. `readFails` stands for a storage error other than "not found" on the
      read. */
  function Upsert(
    log: Log, path: string, status: string, cls: StatusClassification, state: State,
    freshStart: bool, chunkCount: Option<int>, mergedChunkCount: Option<int>, ctx: Ctx, readFails: bool): (r: Log)
    ensures r.store == if freshStart then log.store - {DocumentKey(path)} else log.store
    ensures IsStaged(r, path) && r.cache[path].doc.FileLog? && r.cache[path].doc.state == state
    ensures r.cache.Keys == log.cache.Keys + {path}
    ensures forall id :: id in log.cache && id != path ==> r.cache[id] == log.cache[id]
  {
    var store := if freshStart then log.store - {DocumentKey(path)} else log.store;
    var found := Existing(Log(store, log.cache), path, readFails);
    var doc := StagedRecord(found, path, status, cls, state, freshStart, chunkCount, mergedChunkCount, ctx);
    Log(store, log.cache[path := Staged(doc)])
  }

  /** The record staged by an upsert is the merge of the record it found, or a fresh
      one: the properties of lines 155-221 in one place. */
  lemma UpsertStages(
    log: Log, path: string, status: string, cls: StatusClassification, state: State,
    freshStart: bool, chunkCount: Option<int>, mergedChunkCount: Option<int>, ctx: Ctx, readFails: bool)
    requires CacheWF(log.cache)
    ensures var r := Upsert(log, path, status, cls, state, freshStart, chunkCount, mergedChunkCount, ctx, readFails);
      var before := Existing(Log(r.store, log.cache), path, readFails);
      var after := r.cache[path].doc;
      && (before.Found? && before.doc.FileLog? ==>
            AppendSpec(before.doc, after, status, cls, state, chunkCount, mergedChunkCount, ctx.now, ctx.stackTrace))
      && (!(before.Found? && before.doc.FileLog?) ==> FreshSpec(after, path, status, cls, state, ctx.now))
  {
    var r := Upsert(log, path, status, cls, state, freshStart, chunkCount, mergedChunkCount, ctx, readFails);
    var found := Existing(Log(r.store, log.cache), path, readFails);
    assert r.cache[path].doc == StagedRecord(found, path, status, cls, state, freshStart, chunkCount, mergedChunkCount, ctx);
  }

  /** An upsert keeps the store and cache invariants: the staged record is the file
      log of `path`. */
  lemma UpsertValid(
    log: Log, path: string, status: string, cls: StatusClassification, state: State,
    freshStart: bool, chunkCount: Option<int>, mergedChunkCount: Option<int>, ctx: Ctx, readFails: bool)
    requires Valid(log)
    ensures var r := Upsert(log, path, status, cls, state, freshStart, chunkCount, mergedChunkCount, ctx, readFails);
      && Valid(r)
      && r.cache[path].doc.FileLog? && r.cache[path].doc.Key() == DocumentKey(path)
  {
    var r := Upsert(log, path, status, cls, state, freshStart, chunkCount, mergedChunkCount, ctx, readFails);
    var found := Existing(Log(r.store, log.cache), path, readFails);
    var after := r.cache[path].doc;
    assert after == StagedRecord(found, path, status, cls, state, freshStart, chunkCount, mergedChunkCount, ctx);
    if found.Found? && found.doc.FileLog? {
      if IsStaged(log, path) {
        assert found.doc == log.cache[path].doc;
      } else {
        assert found.doc == log.store[DocumentKey(path)];
      }
      assert found.doc.filePath == path && found.doc.fileName == PyStr.Basename(path);
    }
    assert StoreWF(r.store) by {
      forall k | k in r.store ensures r.store[k].Key() == k && r.store[k].fileName == PyStr.Basename(r.store[k].filePath) {
        assert r.store[k] == log.store[k];
      }
    }
    assert CacheWF(r.cache) by {
      forall p | p in r.cache && r.cache[p].Staged?
        ensures r.cache[p].doc.FileLog? && r.cache[p].doc.Key() == DocumentKey(p)
      {
        if p != path {
          assert r.cache[p] == log.cache[p];
        }
      }
    }
  }

  /** `UpsertValid` for a store and cache that may not be valid. */
  lemma UpsertKeepsValid(
    log: Log, path: string, status: string, cls: StatusClassification, state: State,
    freshStart: bool, chunkCount: Option<int>, mergedChunkCount: Option<int>, ctx: Ctx, readFails: bool)
    ensures Valid(log) ==> Valid(Upsert(log, path, status, cls, state, freshStart, chunkCount, mergedChunkCount, ctx, readFails))
  {
    if Valid(log) {
      UpsertValid(log, path, status, cls, state, freshStart, chunkCount, mergedChunkCount, ctx, readFails);
    }
  }

  /** The staged record of `path` is a file log filed under the key of `path`. */
  predicate Owns(log: Log, path: string)
  {
    IsStaged(log, path) && log.cache[path].doc.FileLog? && log.cache[path].doc.Key() == DocumentKey(path)
  }

  /** What an upsert of `path` can find is filed under the key of `path`: the local
      form of `Valid` that one upsert needs. */
  predicate CanOwn(log: Log, path: string)
  {
    if IsStaged(log, path) then Owns(log, path)
    else DocumentKey(path) in log.store ==> log.store[DocumentKey(path)].Key() == DocumentKey(path)
  }

  lemma ValidCanOwn(log: Log, path: string)
    requires Valid(log)
    ensures CanOwn(log, path)
  {
  }

  /** After an upsert that found only records of its own path, the staged record is
      the file log of that path. */
  lemma UpsertOwns(
    log: Log, path: string, status: string, cls: StatusClassification, state: State,
    freshStart: bool, chunkCount: Option<int>, mergedChunkCount: Option<int>, ctx: Ctx, readFails: bool)
    ensures CanOwn(log, path) ==>
      Owns(Upsert(log, path, status, cls, state, freshStart, chunkCount, mergedChunkCount, ctx, readFails), path)
  {
    var r := Upsert(log, path, status, cls, state, freshStart, chunkCount, mergedChunkCount, ctx, readFails);
    var found := Existing(Log(r.store, log.cache), path, readFails);
    assert r.cache[path].doc == StagedRecord(found, path, status, cls, state, freshStart, chunkCount, mergedChunkCount, ctx);
    if CanOwn(log, path) && found.Found? && found.doc.FileLog? {
      if IsStaged(log, path) {
        assert found.doc == log.cache[path].doc;
      } else {
        assert found.doc == log.store[DocumentKey(path)];
      }
    }
  }

  /** An upsert onto a staged file log that does not restart the history merges
      into that record in place and leaves the store alone: the staged path never
      reaches the store read. */
  lemma UpsertStaged(
    log: Log, path: string, status: string, cls: StatusClassification, state: State,
    chunkCount: Option<int>, mergedChunkCount: Option<int>, ctx: Ctx, readFails: bool)
    requires IsStaged(log, path) && log.cache[path].doc.FileLog?
    ensures Upsert(log, path, status, cls, state, false, chunkCount, mergedChunkCount, ctx, readFails)
      == Log(log.store, log.cache[path := Staged(AppendStatus(log.cache[path].doc, status, cls, state, chunkCount, mergedChunkCount, ctx))])
  {
  }

  // ------------------------------------------------------------ save_document

  /** `save_document`: writes the staged record and leaves "" in its slot. Without
      a staged record the source raises (`KeyError` for a missing slot, a storage
      error for ""). */
  function Save(log: Log, path: string): (r: Option<Log>)
    ensures r.Some? <==> IsStaged(log, path)
    ensures r.Some? ==> var doc := log.cache[path].doc;
      && r.value.store == log.store[doc.Key() := doc]
      && r.value.cache == log.cache[path := Cleared]
    ensures r.Some? && Valid(log) ==> Valid(r.value)
  {
    if IsStaged(log, path) then
      var doc := log.cache[path].doc;
      Some(Log(log.store[doc.Key() := doc], log.cache[path := Cleared]))
    else None
  }

  /** After a save, the next upsert re-reads the store and finds exactly what it
      would have found in the cache: saving is invisible to the merge. */
  lemma SaveThenUpsert(
    log: Log, path: string, status: string, cls: StatusClassification, state: State,
    chunkCount: Option<int>, mergedChunkCount: Option<int>, ctx: Ctx)
    requires Valid(log) && IsStaged(log, path)
    ensures var saved := Save(log, path).value;
      && !IsStaged(saved, path)
      && Existing(saved, path, false) == Existing(log, path, false)
      && Upsert(saved, path, status, cls, state, false, chunkCount, mergedChunkCount, ctx, false).cache
         == Upsert(log, path, status, cls, state, false, chunkCount, mergedChunkCount, ctx, false).cache
  {
    var doc := log.cache[path].doc;
    var saved := Save(log, path).value;
    assert saved.store[DocumentKey(path)] == doc;
    assert Existing(saved, path, false) == Found(doc);
    assert Existing(log, path, false) == Found(doc);
    assert Log(saved.store, saved.cache) == saved;
    assert Log(log.store, log.cache) == log;
    var staged := StagedRecord(Found(doc), path, status, cls, state, false, chunkCount, mergedChunkCount, ctx);
    assert saved.cache[path := Staged(staged)] == log.cache[path := Staged(staged)];
  }

  // ------------------------------------------------------------ update_document_state

  /** A file log for `path` that `update_document_state` can reach: staged, or
      stored. */
  predicate HasRecord(log: Log, path: string)
  {
    IsStaged(log, path) || DocumentKey(path) in log.store
  }

  /** The record `update_document_state` works on. */
  function CurrentRecord(log: Log, path: string): Item
    requires HasRecord(log, path)
  {
    if IsStaged(log, path) then log.cache[path].doc else log.store[DocumentKey(path)]
  }

  /** The record's `state` key: a file log always has one; another record has
      one only once a state update added it. */
  function StateKey(doc: Item): Option<State>
  {
    if doc.FileLog? then Some(doc.state) else doc.addedState
  }

  /** Lines 243-244 applied to whatever record was read: `state` and
      `state_timestamp` are set, and every other key keeps its value. */
  function SetState(doc: Item, state: State, now: string): (r: Item)
    ensures StateKey(r) == Some(state) && r.stateTimestamp == now
    ensures r.DocType() == doc.DocType() && r.Key() == doc.Key()
    ensures r.filePath == doc.filePath && r.fileName == doc.fileName
    ensures r.FileLog? ==> && r.startTimestamp == doc.startTimestamp && r.stateDescription == doc.stateDescription
                           && r.chunkCount == doc.chunkCount && r.mergedChunkCount == doc.mergedChunkCount
                           && r.statusUpdates == doc.statusUpdates
    ensures r.ChunkLog? ==> r.chunkName == doc.chunkName && r.chunkState == doc.chunkState && r.additionalInfo == doc.additionalInfo
    ensures r.LlmOutput? ==> && r.chunkName == doc.chunkName && r.llmOutput == doc.llmOutput
                             && r.userId == doc.userId && r.promptId == doc.promptId
                             && r.llmCompletionTokens == doc.llmCompletionTokens
                             && r.llmPromptTokens == doc.llmPromptTokens && r.llmTotalTokens == doc.llmTotalTokens
  {
    if doc.FileLog? then doc.(state := state, stateTimestamp := now)
    else doc.(addedState := Some(state), stateTimestamp := now)
  }

  /** `update_document_state`: loads the record into the cache when the slot is
      empty, sets `state` and `state_timestamp` on it whatever its `doc_type`,
      saves (writing through and clearing the slot) and then stages the same
      record again. A missing record raises inside the `try` and is only logged. */
  function UpdateDocumentState(log: Log, path: string, state: State, ctx: Ctx): (r: Log)
    ensures !HasRecord(log, path) ==> r == log
    ensures HasRecord(log, path) ==>
      var before := CurrentRecord(log, path);
      var after := SetState(before, state, ctx.now);
      && r.store == log.store[before.Key() := after]
      && r.cache == log.cache[path := Staged(after)]
  {
    if !HasRecord(log, path) then log
    else
      var doc := CurrentRecord(log, path);
      var loaded := Log(log.store, log.cache[path := Staged(doc)]);
      var updated := SetState(doc, state, ctx.now);
      var staged := Log(loaded.store, loaded.cache[path := Staged(updated)]);
      var saved := Save(staged, path).value;
      Log(saved.store, saved.cache[path := Staged(updated)])
  }

  /** Under the store invariant the state update touches only the record of
      `path`: its status history, counts and identity are kept. */
  lemma UpdateDocumentStateKeepsHistory(log: Log, path: string, state: State, ctx: Ctx)
    requires Valid(log) && HasRecord(log, path)
    requires CurrentRecord(log, path).FileLog?
    ensures var r := UpdateDocumentState(log, path, state, ctx);
      var k := DocumentKey(path);
      && k in r.store && r.store[k].FileLog?
      && r.store[k].state == state
      && r.store[k].statusUpdates == CurrentRecord(log, path).statusUpdates
      && r.store[k].mergedChunkCount == CurrentRecord(log, path).mergedChunkCount
      && (forall k' :: k' in log.store && k' != k ==> k' in r.store && r.store[k'] == log.store[k'])
      && Valid(r)
  {
    var r := UpdateDocumentState(log, path, state, ctx);
    var doc := CurrentRecord(log, path);
    assert doc.Key() == DocumentKey(path);
    assert StoreWF(r.store) by {
      forall k | k in r.store ensures r.store[k].Key() == k && r.store[k].fileName == PyStr.Basename(r.store[k].filePath) {
        if k != DocumentKey(path) {
          assert r.store[k] == log.store[k];
        }
      }
    }
    assert CacheWF(r.cache) by {
      forall p | p in r.cache && r.cache[p].Staged?
        ensures r.cache[p].doc.FileLog? && r.cache[p].doc.Key() == DocumentKey(p)
      {
        if p != path {
          assert r.cache[p] == log.cache[p];
        }
      }
    }
  }

  // ------------------------------------------------------------ chunk and output records

  /** The key of the chunk log of `chunkName` for the document at `filePath`. */
  function ChunkKey(filePath: string, chunkName: string): Key
  {
    (chunkName, PyStr.Basename(filePath))
  }

  /** `create_chunk_log_entry`: a full overwrite of the chunk's record, written
      straight to the store. */
  function CreateChunkLogEntry(log: Log, filePath: string, chunkName: string, chunkState: State, info: string, ctx: Ctx): (r: Log)
    ensures r.cache == log.cache
    ensures r.store.Keys == log.store.Keys + {ChunkKey(filePath, chunkName)}
    ensures forall k :: k in log.store && k != ChunkKey(filePath, chunkName) ==> r.store[k] == log.store[k]
    ensures var item := r.store[ChunkKey(filePath, chunkName)];
      && item.ChunkLog? && item.Key() == ChunkKey(filePath, chunkName)
      && item.filePath == filePath && item.chunkName == chunkName
      && item.chunkState == chunkState && item.additionalInfo == info && item.stateTimestamp == ctx.now
      && item.addedState == None
    ensures StoreWF(log.store) ==> StoreWF(r.store)
  {
    var item := ChunkLog(filePath, PyStr.Basename(filePath), chunkName, chunkState, ctx.now, info, None);
    Log(log.store[item.Key() := item], log.cache)
  }

  /** The chunk record depends only on the last write: nothing of an earlier
      write to the same chunk survives. */
  lemma ChunkLogLastWriteWins(
    log: Log, filePath: string, chunkName: string, s1: State, i1: string, c1: Ctx, s2: State, i2: string, c2: Ctx)
    ensures CreateChunkLogEntry(CreateChunkLogEntry(log, filePath, chunkName, s1, i1, c1), filePath, chunkName, s2, i2, c2)
         == CreateChunkLogEntry(log, filePath, chunkName, s2, i2, c2)
  {
  }

  /** The key of the LLM output record of `llmOutputFile`. */
  function OutputKey(filePath: string, llmOutputFile: string): Key
  {
    (llmOutputFile, PyStr.Basename(filePath))
  }

  /** `create_llm_output_entry`: a full overwrite keyed by the output file name. */
  function CreateLlmOutputEntry(
    log: Log, filePath: string, chunkName: string, llmOutput: string, llmOutputFile: string,
    userId: string, promptId: Value, completionTokens: int, promptTokens: int, totalTokens: int, ctx: Ctx): (r: Log)
    ensures r.cache == log.cache
    ensures r.store.Keys == log.store.Keys + {OutputKey(filePath, llmOutputFile)}
    ensures forall k :: k in log.store && k != OutputKey(filePath, llmOutputFile) ==> r.store[k] == log.store[k]
    ensures var item := r.store[OutputKey(filePath, llmOutputFile)];
      && item.LlmOutput? && item.Key() == OutputKey(filePath, llmOutputFile)
      && item.filePath == filePath && item.chunkName == chunkName && item.llmOutput == llmOutput
      && item.userId == userId && item.promptId == promptId
      && item.llmCompletionTokens == completionTokens && item.llmPromptTokens == promptTokens
      && item.llmTotalTokens == totalTokens && item.addedState == None
    ensures StoreWF(log.store) ==> StoreWF(r.store)
  {
    var item := LlmOutput(filePath, PyStr.Basename(filePath), chunkName, llmOutput,
      llmOutputFile, userId, promptId, completionTokens, promptTokens, totalTokens, ctx.now, None);
    Log(log.store[item.Key() := item], log.cache)
  }

  // ------------------------------------------------------------ mark_document_processing_complete

  /** The first query of the fan-in check: the stored `merged_chunk_count` of the
      document's file log, or 0 when there is none. */
  function TotalChunkCount(store: Store, path: string): int
  {
    var k := DocumentKey(path);
    if k in store && store[k].FileLog? then store[k].mergedChunkCount else 0
  }

  /** Under the store invariant, the key lookup is the query "file logs whose
      file_path is `path`": there is at most one, and the count is its count. */
  lemma TotalChunkCountIsQuery(store: Store, path: string)
    requires StoreWF(store)
    ensures forall k :: k in store && store[k].FileLog? && store[k].filePath == path ==> k == DocumentKey(path)
    ensures (forall k :: k in store ==> !(store[k].FileLog? && store[k].filePath == path)) ==> TotalChunkCount(store, path) == 0
    ensures forall k :: k in store && store[k].FileLog? && store[k].filePath == path ==>
      TotalChunkCount(store, path) == store[k].mergedChunkCount
  {
    var k0 := DocumentKey(path);
    if k0 in store && store[k0].FileLog? {
      assert store[k0].Key() == k0;
      assert store[k0].filePath == path;
    }
  }

  /** The rows the second query counts: chunk logs of `path` in state Complete. */
  function CompletedChunks(store: Store, path: string): (ks: set<Key>)
    ensures forall k :: k in ks <==> k in store && store[k].ChunkLog? && store[k].filePath == path && store[k].chunkState == Complete
  {
    set k | k in store && store[k].ChunkLog? && store[k].filePath == path && store[k].chunkState == Complete
  }

  /** The fan-in barrier: both counts read the store, not the cache. */
  predicate AllChunksComplete(log: Log, path: string)
  {
    TotalChunkCount(log.store, path) == |CompletedChunks(log.store, path)|
  }

  /** Lines 334 and 346 paste the path between single quotes without escaping. A
      path holding `'` ends the string literal early, the query is malformed, and
      `query_items` raises before anything is written. */
  predicate BreaksFanInQuery(path: string)
  {
    '\'' in path
  }

  /** `mark_document_processing_complete`: the document is set to Complete, through
      `update_document_state`, exactly when the counts agree. When the path breaks
      the queries the call raises (the caller sees `BreaksFanInQuery`) and the log
      is left as it was. */
  function MarkDocumentProcessingComplete(log: Log, path: string, ctx: Ctx): (r: Log)
    ensures BreaksFanInQuery(path) || !AllChunksComplete(log, path) ==> r == log
    ensures !BreaksFanInQuery(path) && AllChunksComplete(log, path) && HasRecord(log, path) ==>
      var k := CurrentRecord(log, path).Key();
      k in r.store && StateKey(r.store[k]) == Some(Complete)
      && (CurrentRecord(log, path).FileLog? ==> r.store[k].FileLog? && r.store[k].state == Complete)
  {
    if !BreaksFanInQuery(path) && AllChunksComplete(log, path) then UpdateDocumentState(log, path, Complete, ctx) else log
  }

  /** A document already marked Complete stays Complete under another fan-in check,
      whatever the counts. */
  lemma MarkCompleteKeepsComplete(log: Log, path: string, ctx: Ctx)
    requires Valid(log) && HasRecord(log, path)
    requires CurrentRecord(log, path).FileLog? && CurrentRecord(log, path).state == Complete
    requires !IsStaged(log, path)
    ensures var r := MarkDocumentProcessingComplete(log, path, ctx);
      HasRecord(r, path) && CurrentRecord(r, path).state == Complete
      && r.store[DocumentKey(path)].state == Complete
  {
  }

  /** Replacing a record by one of the same kind that, if it is a chunk log, names
      the same document and has the same chunk state leaves the Complete-chunk
      count alone. */
  lemma CompletedChunksFrame(store: Store, k: Key, item: Item, path: string)
    requires k in store && store[k].ChunkLog? == item.ChunkLog?
    requires item.ChunkLog? ==> item.filePath == store[k].filePath && item.chunkState == store[k].chunkState
    ensures CompletedChunks(store[k := item], path) == CompletedChunks(store, path)
  {
    var s0 := CompletedChunks(store, path);
    var s1 := CompletedChunks(store[k := item], path);
    forall j ensures j in s1 <==> j in s0 {
      if j != k {
        assert j in store[k := item] <==> j in store;
      }
    }
  }

  /** With nothing staged for the document (as in a chunk executor, which never
      upserts), marking it Complete changes neither count the barrier compares. */
  lemma MarkCompleteKeepsCounts(log: Log, path: string, ctx: Ctx)
    requires Valid(log) && !IsStaged(log, path)
    ensures var once := MarkDocumentProcessingComplete(log, path, ctx);
      && TotalChunkCount(once.store, path) == TotalChunkCount(log.store, path)
      && CompletedChunks(once.store, path) == CompletedChunks(log.store, path)
  {
    var k := DocumentKey(path);
    if !BreaksFanInQuery(path) && AllChunksComplete(log, path) && HasRecord(log, path) {
      var doc := log.store[k];
      UpdateDocumentStateStore(log, path, Complete, ctx);
      CompletedChunksFrame(log.store, k, SetState(doc, Complete, ctx.now), path);
    }
  }

  /** What `update_document_state` writes when nothing is staged: whatever record
      is stored at the document's id, file log or not, with `state` and
      `state_timestamp` set; every other record stays as it was. */
  lemma UpdateDocumentStateStore(log: Log, path: string, state: State, ctx: Ctx)
    requires StoreWF(log.store) && !IsStaged(log, path) && DocumentKey(path) in log.store
    ensures var doc := log.store[DocumentKey(path)];
      var r := UpdateDocumentState(log, path, state, ctx).store;
      && r.Keys == log.store.Keys
      && StateKey(r[DocumentKey(path)]) == Some(state) && r[DocumentKey(path)].stateTimestamp == ctx.now
      && r == log.store[DocumentKey(path) := SetState(doc, state, ctx.now)]
  {
    assert log.store[DocumentKey(path)].Key() == DocumentKey(path);
  }

  /** Running the fan-in check a second time changes nothing the first run decided:
      the barrier gives the same answer, and a document marked Complete stays
      Complete with its history intact. */
  lemma MarkCompleteIdempotent(log: Log, path: string, ctx1: Ctx, ctx2: Ctx)
    requires Valid(log) && !IsStaged(log, path)
    ensures var once := MarkDocumentProcessingComplete(log, path, ctx1);
      var twice := MarkDocumentProcessingComplete(once, path, ctx2);
      && AllChunksComplete(once, path) == AllChunksComplete(log, path)
      && (!BreaksFanInQuery(path) && AllChunksComplete(log, path) && HasRecord(log, path) && CurrentRecord(log, path).FileLog? ==>
            DocumentKey(path) in twice.store
            && twice.store[DocumentKey(path)].state == Complete
            && twice.store[DocumentKey(path)].statusUpdates == CurrentRecord(log, path).statusUpdates)
      && (BreaksFanInQuery(path) || !AllChunksComplete(log, path) ==> twice == log)
  {
    var once := MarkDocumentProcessingComplete(log, path, ctx1);
    MarkCompleteKeepsCounts(log, path, ctx1);
    if !BreaksFanInQuery(path) && AllChunksComplete(log, path) && HasRecord(log, path) && CurrentRecord(log, path).FileLog? {
      UpdateDocumentStateKeepsHistory(log, path, Complete, ctx1);
      assert HasRecord(once, path);
      UpdateDocumentStateKeepsHistory(once, path, Complete, ctx2);
    }
  }

  // ------------------------------------------------------------ read_file_status

  /** The Concise filter: drop the entries classified Debug. */
  function ConciseUpdates(us: seq<StatusUpdate>): (r: seq<StatusUpdate>)
    ensures |r| <= |us|
    ensures forall i :: 0 <= i < |r| ==> r[i].classification != Debug
  {
    if |us| == 0 then []
    else if us[0].classification == Debug then ConciseUpdates(us[1..])
    else [us[0]] + ConciseUpdates(us[1..])
  }

  /** The filter keeps exactly the entries that are not Debug. */
  lemma {:induction false} ConciseMembers(us: seq<StatusUpdate>)
    ensures forall u :: u in ConciseUpdates(us) <==> u in us && u.classification != Debug
    decreases |us|
  {
    if |us| > 0 {
      ConciseMembers(us[1..]);
      assert us == [us[0]] + us[1..];
    }
  }

  /** The filter works entry by entry, so it keeps the order of what it keeps. */
  lemma {:induction false} ConciseAppend(a: seq<StatusUpdate>, b: seq<StatusUpdate>)
    ensures ConciseUpdates(a + b) == ConciseUpdates(a) + ConciseUpdates(b)
    decreases |a|
  {
    if |a| == 0 {
      assert a + b == b;
    } else {
      assert (a + b)[0] == a[0] && (a + b)[1..] == a[1..] + b;
      ConciseAppend(a[1..], b);
      if a[0].classification != Debug {
        assert [a[0]] + (ConciseUpdates(a[1..]) + ConciseUpdates(b)) == ([a[0]] + ConciseUpdates(a[1..])) + ConciseUpdates(b);
      }
    }
  }

  /** A history without Debug entries is left as it is; in particular filtering
      twice is filtering once. */
  lemma {:induction false} ConciseKeepsNonDebug(us: seq<StatusUpdate>)
    requires forall i :: 0 <= i < |us| ==> us[i].classification != Debug
    ensures ConciseUpdates(us) == us
    decreases |us|
  {
    if |us| > 0 {
      ConciseKeepsNonDebug(us[1..]);
      assert us == [us[0]] + us[1..];
    }
  }

  lemma ConciseIdempotent(us: seq<StatusUpdate>)
    ensures ConciseUpdates(ConciseUpdates(us)) == ConciseUpdates(us)
  {
    ConciseKeepsNonDebug(ConciseUpdates(us));
  }

  /** `read_file_status`: every record whose id is the encoded `fileId`, in any
      partition. At the Concise level each one's `status_updates` is filtered;
      a matching record without that key makes the filter raise `KeyError`. */
  function ReadFileStatus(store: Store, fileId: string, level: StatusQueryLevel): (r: Option<set<Item>>)
    ensures level == StatusQueryLevel.Verbose ==>
      r.Some? && forall item :: item in r.value <==> exists k :: k in store && k.0 == fileId && store[k] == item
    ensures level == StatusQueryLevel.Concise ==>
      (r.None? <==> exists k :: k in store && k.0 == fileId && !store[k].FileLog?)
    ensures r.Some? && level == StatusQueryLevel.Concise ==>
      (forall item :: item in r.value ==>
        item.FileLog? && forall i :: 0 <= i < |item.statusUpdates| ==> item.statusUpdates[i].classification != Debug)
      && (forall k :: k in store && k.0 == fileId ==> Filtered(store[k]) in r.value)
    ensures r.Some? && level == StatusQueryLevel.Concise ==>
      forall item :: item in r.value <==> exists k :: k in store && k.0 == fileId && item == Filtered(store[k])
  {
    if level == StatusQueryLevel.Verbose then Some(set k | k in store && k.0 == fileId :: store[k])
    else if exists k :: k in store && k.0 == fileId && !store[k].FileLog? then None
    else Some(set k | k in store && k.0 == fileId :: Filtered(store[k]))
  }

  /** The records the query `c.id = encode_document_id(fileId)` selects are the
      ones keyed by `fileId`. */
  lemma ReadFileStatusById(store: Store, fileId: string)
    requires StoreWF(store)
    ensures forall k :: k in store ==> (store[k].Id() == DocumentId(fileId) <==> k.0 == fileId)
  {
    forall k | k in store ensures store[k].Id() == DocumentId(fileId) <==> k.0 == fileId {
      Ids.EncodeDocumentIdInjective(k.0, fileId);
    }
  }

  /** One record as the Concise read returns it: only its history changes, and it
      keeps exactly the entries that are not Debug. */
  function Filtered(item: Item): (r: Item)
    requires item.FileLog?
    ensures r.FileLog?
    ensures r.(statusUpdates := item.statusUpdates) == item
    ensures forall i :: 0 <= i < |r.statusUpdates| ==> r.statusUpdates[i].classification != Debug
    ensures forall u :: u in r.statusUpdates <==> u in item.statusUpdates && u.classification != Debug
  {
    var r := item.(statusUpdates := ConciseUpdates(item.statusUpdates));
    ConciseMembers(item.statusUpdates);
    assert forall i :: 0 <= i < |r.statusUpdates| ==> r.statusUpdates[i] in r.statusUpdates;
    r
  }
}

=== FILE: wrappers.dfy ===
/** Optional values, used wherever the source returns `None` or a missing key. */
module Wrappers {

  datatype Option<+T> = None | Some(value: T) {

    /** The wrapped value, or `default` when there is none. */
    function GetOr(default: T): T
    {
      match this
      case Some(v) => v
      case None => default
    }
  }
}
